=== FILE: README.md ===
# constellate, modelled in Dafny

constellate is a build orchestrator for a monorepo of JavaScript projects. This project models its core
and proves properties of the model:

- **The project graph** (`getAllProjects`). It discovers the project directories and merges each
  project's configuration in three layers. It resolves the compiler plugin through a process-wide
  cache and derives the source and build paths. It then resolves the declared dependencies against
  the discovered projects and computes the direct dependants and a safe build order. Projects without
  dependencies come first, then a topological sort of the `dependency -> dependant` edges. Finally it
  is meant to give every project its transitive dependants. As written, it gives every project an
  empty list; see "## Findings". The model computes the intended list. The result is memoised.
- **The publish pipeline** (`publish`). It checks two guards, may check out a branch, and asks for the
  next version. It then selects the change-set and builds the version map. The release chain runs
  strictly in sequence: build each, publish each, tag `v<next>`, push the tag.
- **The script develop plugin** (`scriptDevelop`). This is a map from project name to the child
  process running one of its `package.json` scripts. It kills a tracked process before starting a
  new one.
- **The child-process helpers** (`exec`, `execSync`, `spawn`, `execHijack`). The model covers the
  option precedence and the `FORCE_COLOR` side effect. It also covers the prefixed, line-by-line echo
  of hijacked output.
- **`update`**: package-client defaulting and validation, the update sub-command, and the order of
  runs.
- **The Babel configuration generator** (`generateConfig`): presets and plugins chosen by the
  web/node and development/production flags, and the optional per-project hook.

Every operation is a pure function over immutable datatypes. Effects come back as traces of what
was attempted: process invocations, console echoes, publish steps. Everything the program learns from
outside enters as an input:

- file system, git, npm and prompt answers;
- whether a kill or a build step succeeds;
- the process environment.

Modules, one per file:

- `Results` (`results.dfy`): `Option` and `Result`.
- `Seqs` (`seqs.dfy`): Ramda's `filter`, `map` and `without`, plus facts about order and duplicates.
- `Text` (`text.dfy`): JavaScript's `split`, `join`, a global single-character `replace` (with the
  `$` patterns of its replacement string expanded), anchored trims and string length in UTF-16 code
  units.
- `Toposort` (`toposort.dfy`): the topological sort the build order relies on.
- `ProjectConfig`, `Compilers`, `ProjectPaths`, `ProjectGraph`: `getAllProjects.js`.
- `ChildProcess` (`child_process.dfy`), `ScriptPlugin` (`script_plugin.dfy`), `Publish`
  (`publish.dfy`), `Update` (`update.dfy`), `Babel` (`babel.dfy`).

The `toposort` npm package is not part of this model. `Toposort.Sort` is Kahn's algorithm, proved
against the package's contract:

- every node of the edges appears exactly once;
- the tail of every edge comes before its head;
- it fails exactly when the edges contain a cycle.

Behaviour of the code worth noting:

- A failed branch checkout during publishing is only reported, and the pipeline carries on.
- Builds run in the order the change-set was requested, not in build-graph order.
- A missing script is detected after the tracked process has been killed, though still before any
  spawn.
- Projects without dependencies come first in directory order, so the build order does depend on
  discovery order.

## Model

| member | source | states |
|---|---|---|
| Compilers.ResolveCompiler | projects/constellate-dev-utils/modules/projects/getAllProjects.js:23-46 | Resolution succeeds exactly when the compiler is `none`, cached or installed. `'none'`, empty or nil resolves to no compiler without a lookup. A cached name is returned without loading. A failure names the compiler, the project and the `npm install constellate-plugin-compiler-<name>` remedy, and caches nothing. A loaded plugin is the installed one, and the cache grows by its name only. |
| Compilers.ResolvedCompilerIsReused | projects/constellate-dev-utils/modules/projects/getAllProjects.js:27-29 | Once a name has resolved, resolving it again for any project, whatever is installed by then, returns the same plugin and leaves the cache unchanged. |
| ProjectConfig.DefaultConfig | projects/constellate-dev-utils/modules/projects/getAllProjects.js:14-21 | The defaults are role `library`, compiler `none` and empty dependency lists. |
| ProjectConfig.Merge | projects/constellate-dev-utils/modules/projects/getAllProjects.js:58-63 | Each key of the merged config comes from the highest layer holding it: overrides, then project defaults, then built-in defaults. |
| ProjectConfig.ProjectConfigOf | projects/constellate-dev-utils/modules/projects/getAllProjects.js:53-63 | A project's config has exactly the keys of the three layers. `projects[name]` beats `projectDefaults`, which beats the defaults, and an absent layer contributes nothing. |
| ProjectPaths.PathsOf | projects/constellate-dev-utils/modules/projects/getAllProjects.js:76-107 | Every source path lies under `projects/<name>`. Without a compiler every build path is its source counterpart. With one, every build path is the same relative path under `build/<name>`. |
| ProjectGraph.ProjectDirectories | projects/constellate-dev-utils/modules/projects/getAllProjects.js:157-160 | A name is discovered exactly when it is a directory entry of `projects/`. |
| ProjectGraph.ToProject | projects/constellate-dev-utils/modules/projects/getAllProjects.js:53-109 | A discovered project carries its merged config and its manifest's package name. It has a compiler exactly when the config names one, and that compiler is the plugin the cache holds under its name. Its paths follow from having a compiler. The call succeeds exactly when the compiler is available and the manifest exists. The compiler is resolved first, so its failure (naming the compiler, the project and the `npm install` remedy) wins over a missing manifest. The cache only gains installed plugins. |
| ProjectGraph.ToProjects | projects/constellate-dev-utils/modules/projects/getAllProjects.js:157-162 | The projects come in directory order, each as `ToProject` states. Each project's compiler is the one the final cache holds under its name, so one compiler name means one plugin. Any missing manifest fails the whole discovery. |
| ProjectGraph.ToProjectsSucceeds | projects/constellate-dev-utils/modules/projects/getAllProjects.js:157-162 | Discovery succeeds exactly when every directory has a manifest and a compiler that is `none`, cached or installed. |
| ProjectGraph.ToProjectsFailure | projects/constellate-dev-utils/modules/projects/getAllProjects.js:157-162 | A failure is an unresolvable compiler of one of the directories, or the missing manifest of one of them. |
| ProjectGraph.GetDependencies | projects/constellate-dev-utils/modules/projects/getAllProjects.js:165-175 | The resolved list holds exactly the declared names that are discovered projects, each as often as declared, and never reorders two of them. |
| ProjectGraph.GetDependenciesAppend | projects/constellate-dev-utils/modules/projects/getAllProjects.js:165-175 | Resolution works declaration by declaration: resolving two lists one after the other gives the two results one after the other. |
| ProjectGraph.GetDependenciesSingle | projects/constellate-dev-utils/modules/projects/getAllProjects.js:165-175 | A single declaration is kept exactly when it names a discovered project. |
| ProjectGraph.DeclaredList | projects/constellate-dev-utils/modules/projects/getAllProjects.js:166 | A dependency setting that is not a list is an error naming the project and the key. |
| ProjectGraph.WithDependencies | projects/constellate-dev-utils/modules/projects/getAllProjects.js:203-211 | Only the three dependency fields change. `allDependencies` is the dependencies followed by the bundled dependencies. |
| ProjectGraph.ResolveDependencies | projects/constellate-dev-utils/modules/projects/getAllProjects.js:203-211 | It succeeds exactly when every project's two lists are well formed, and then resolves each project position by position. |
| ProjectGraph.Dependants | projects/constellate-dev-utils/modules/projects/getAllProjects.js:178-179 | `x` is a direct dependant of `name` exactly when project `x` lists `name` among its `allDependencies`. |
| ProjectGraph.DependantsInOrder | projects/constellate-dev-utils/modules/projects/getAllProjects.js:178-179 | The direct dependants keep the order of the project list. |
| ProjectGraph.WithDependants | projects/constellate-dev-utils/modules/projects/getAllProjects.js:213-217 | Each project gets its direct dependants, and nothing else changes. |
| ProjectGraph.DependencyEdges | projects/constellate-dev-utils/modules/projects/getAllProjects.js:113-119 | `(d, p)` is an edge exactly when project `p` lists `d` in `allDependencies`. |
| Toposort.Sort | projects/constellate-dev-utils/modules/projects/getAllProjects.js:134 | A success lists every node of the edges once, with every edge's tail before its head. A failure returns a non-empty set of nodes that each have an incoming edge from the set. |
| Toposort.SortFailsIffCycle | projects/constellate-dev-utils/modules/projects/getAllProjects.js:134 | The sort fails exactly when the edges contain a cycle. |
| ProjectGraph.OrderNamesPermutation | projects/constellate-dev-utils/modules/projects/getAllProjects.js:125-136 | The ordered names are the project names, each exactly once. |
| ProjectGraph.OrderNamesRespectsDependencies | projects/constellate-dev-utils/modules/projects/getAllProjects.js:132-136 | Every dependency comes before the project that declares it. |
| ProjectGraph.OrderByAllDependencies | projects/constellate-dev-utils/modules/projects/getAllProjects.js:112-139 | The order fails exactly on a dependency cycle. Otherwise it is a permutation of the projects, with the dependency-free projects first in their original order and every project after all its dependencies. |
| ProjectGraph.CycleIsSelfDependence | projects/constellate-dev-utils/modules/projects/getAllProjects.js:113-134 | The dependency edges contain a cycle exactly when some project depends, transitively, on itself. |
| ProjectGraph.ResolveLeaves | projects/constellate-dev-utils/modules/projects/getAllProjects.js:185-192 | The names `resolveDependants(n)` mentions are exactly those reachable from `n` by `dependants` links. |
| ProjectGraph.ChainLeaves | projects/constellate-dev-utils/modules/projects/getAllProjects.js:194 | The names collected for a project are exactly those reachable from one of its direct dependants. |
| ProjectGraph.LiteralAllDependantsAlwaysEmpty | projects/constellate-dev-utils/modules/projects/getAllProjects.js:198 | The filter as written keeps nothing: a project record never equals a collected name or array. |
| ProjectGraph.AllDependantsDiscrepancy | projects/constellate-dev-utils/modules/projects/getAllProjects.js:194-198 | Take two projects where `b` depends on `a`. As written, `a` gets no transitive dependants; as intended it gets `b`. |
| ProjectGraph.IntendedAllDependants | projects/constellate-dev-utils/modules/projects/getAllProjects.js:181-199 | The intended `allDependants` holds each project reachable by `dependants` links exactly once, in build order. |
| ProjectGraph.AllDependantsByName | projects/constellate-dev-utils/modules/projects/getAllProjects.js:181-199 | In a well-linked order, `x` is among `p`'s transitive dependants exactly when `x` depends, transitively, on `p`. |
| ProjectGraph.WithAllDependants | projects/constellate-dev-utils/modules/projects/getAllProjects.js:227-232 | Every project gets its intended transitive dependants (the corrected list of "## Findings"), and nothing else changes. |
| ProjectGraph.Link | projects/constellate-dev-utils/modules/projects/getAllProjects.js:164-232 | A malformed list is an error. With well-formed lists, linking fails exactly when some project depends on itself. In a result, each project's `dependencies` and `bundledDependencies` are its declared lists, in order, restricted to the discovered names. The result is a permutation of the discovered names that is well linked (so `allDependencies` and `dependants` follow from those two lists) and respects dependencies, with dependency-free projects first in directory order. Each project's `allDependants` is the intended list: exact and in build order. |
| ProjectGraph.BuildGraph | projects/constellate-dev-utils/modules/projects/getAllProjects.js:154-235 | A missing manifest or an unresolvable compiler is an error. The first discovery error is the build's error. Once every directory is discovered, the result is exactly what linking the discovered projects gives. A built graph has the properties `Link` states, with the intended `allDependants`. Every project keeps its discovered config, package name, compiler and paths, its dependency lists are the declared ones restricted to the project directories, and its compiler is the one cached under its name. |
| ProjectGraph.BuildGraphSucceeds | projects/constellate-dev-utils/modules/projects/getAllProjects.js:154-235 | The graph is built exactly when three things hold. Every project directory has a readable manifest and an available compiler. Every dependency list is a list. No project depends on itself through a chain of dependencies. |
| ProjectGraph.GetAllProjects | projects/constellate-dev-utils/modules/projects/getAllProjects.js:149-152 | A cached graph is returned unchanged. Without a cached graph, the result and the compiler cache are those of a fresh build, whose dependency lists are the declared ones. A successful build is stored. The cache is set exactly when the call succeeds. The compiler cache only gains installed plugins. |
| ProjectGraph.GetAllProjectsIdempotent | projects/constellate-dev-utils/modules/projects/getAllProjects.js:150-152 | After one success, a later call returns the same graph and cache, even if the file system has changed. |
| ProjectGraph.ProjectMap | projects/constellate-dev-utils/modules/projects/getAllProjects.js:234 | The object map has a key for each project name, mapped to a project of that name. |
| ProjectGraph.ProjectMapFinds | projects/constellate-dev-utils/modules/projects/getAllProjects.js:234 | With distinct names, every project is found under its own name. |
| ScriptPlugin.NewPlugin | projects/constellate-dev-utils/src/plugins/script/index.js:26-35 | A missing or empty script name fails before the manifest is read. An unreadable manifest fails next. |
| ScriptPlugin.KillFor | projects/constellate-dev-utils/src/plugins/script/index.js:9-22 | With no tracked process it resolves and changes nothing. Otherwise the kill is requested. A failure leaves the map as it was. A success removes only that project's entry. |
| ScriptPlugin.KillUntracks | projects/constellate-dev-utils/src/plugins/script/index.js:17-22 | After a successful kill the project is untracked and every other entry is unchanged. |
| ScriptPlugin.KillIdempotent | projects/constellate-dev-utils/src/plugins/script/index.js:9-16 | A second kill after a successful one does nothing. |
| ScriptPlugin.ScriptInvocation | projects/constellate-dev-utils/src/plugins/script/index.js:65-72 | The plugin spawns `npm run <scriptName>` in the project root with inherited stdio and the process environment. |
| ScriptPlugin.RunScript | projects/constellate-dev-utils/src/plugins/script/index.js:41-96 | With `scriptRunOnce` and a tracked process it does nothing. Otherwise a tracked process is killed first, and a failed kill stops the run. A missing script fails after that kill with no spawn. Otherwise the effects are exactly the kill, if there was one, followed by one spawn of `npm run <script>`, and the spawn's fresh handle replaces the project's entry. The run then fails, with `SpawnFailed` for this script and project, exactly when the child failed early. |
| ScriptPlugin.Run | projects/constellate-dev-utils/src/plugins/script/index.js:98-103 | Build, clean, develop and deploy are the same operation. |
| ScriptPlugin.RunScriptTracksOrKills | projects/constellate-dev-utils/src/plugins/script/index.js:42-92 | No process is lost: every tracked process is still tracked afterwards or was sent a kill. |
| ScriptPlugin.RunScriptFreshHandle | projects/constellate-dev-utils/src/plugins/script/index.js:82-92 | A newly registered process is never one another project holds. |
| ScriptPlugin.KillFailureStopsRun | projects/constellate-dev-utils/src/plugins/script/index.js:47-49 | A failed kill rejects the run, spawns nothing and leaves the map unchanged. |
| ChildProcess.Assign | packages/constellate-dev-utils/src/childProcess.js:25-32 | The merged options hold the keys of both objects, and the later object wins. |
| ChildProcess.ForceColor | packages/constellate-dev-utils/src/childProcess.js:20 | `FORCE_COLOR` becomes `true`, and every other variable is kept. |
| ChildProcess.Exec | packages/constellate-dev-utils/src/childProcess.js:9-34 | `exec` forces colour. Caller options win. `env` defaults to the process environment and `stdio` to `pipe`. |
| ChildProcess.ExecOutput | packages/constellate-dev-utils/src/childProcess.js:33 | A finished child yields its stdout, and a failure is passed on unchanged. |
| ChildProcess.ExecSync | packages/constellate-dev-utils/src/childProcess.js:80-104 | `execSync` forces colour and defaults only `env`; caller options win. |
| ChildProcess.Spawn | packages/constellate-dev-utils/src/childProcess.js:106-129 | `spawn` leaves the environment alone. Caller options win, and `stdio` defaults to `inherit`. |
| ChildProcess.ExecHijack | packages/constellate-dev-utils/src/childProcess.js:36-52 | `execHijack` keeps the caller's options, except that `env` is always the colour-forced process environment. |
| ChildProcess.ExecHijackIgnoresCallerEnv | packages/constellate-dev-utils/src/childProcess.js:49-51 | Whatever `env` the caller passes, the invocation is the same as with none. |
| ChildProcess.SpawnAfterExecForcesColor | packages/constellate-dev-utils/src/childProcess.js:20-28 | A `spawn` after an `exec` passes `FORCE_COLOR=true` to its child through the mutated environment. |
| ChildProcess.CleanData | packages/constellate-dev-utils/src/childProcess.js:54-58 | The result neither starts nor ends with a newline. The chunk is a run of newlines, then the result, then a run of newlines. |
| ChildProcess.CleanDataUnique | packages/constellate-dev-utils/src/childProcess.js:54-58 | That decomposition determines the result: only leading and trailing newline runs are removed, and the interior is kept. |
| ChildProcess.PadEnd | packages/constellate-dev-utils/src/childProcess.js:60 | The title is padded with spaces until its JavaScript length, in UTF-16 code units, reaches the minimum. It is never cut. |
| ChildProcess.PadEndCountsCodeUnits | packages/constellate-dev-utils/src/childProcess.js:60 | An emoji title padded to 4 gets two spaces, because it is already two code units long. |
| ChildProcess.FormatMsg | packages/constellate-dev-utils/src/childProcess.js:62-63 | The output starts with the prefix and a space. A message without newlines follows unchanged. For a prefix without `$`, the result is the prefix and a space in front of every line. In general, `$` patterns in the prefix are expanded at each newline, as `String.prototype.replace` does. |
| ChildProcess.FormatMsgExpandsDollars | packages/constellate-dev-utils/src/childProcess.js:62-63 | With a prefix spelling `a$$b` and a bar, every line after the first shows `a$b` instead: the replacement turns `$$` into `$`. |
| ChildProcess.FormatMsgLines | packages/constellate-dev-utils/src/childProcess.js:62-63 | For a prefix without newlines or `$`, the output has as many lines as the message, and each line is the prefix, a space and the message line. Stripping the prefix from each line gives the message back. |
| ChildProcess.HijackEcho | packages/constellate-dev-utils/src/childProcess.js:65-75 | Each data event gives one console call: stdout to `console.log`, stderr to `console.error`, with the cleaned chunk formatted. |
| ChildProcess.HijackEchoLines | packages/constellate-dev-utils/src/childProcess.js:60-75 | For a formatted prefix without newlines or `$`, every echoed line starts with the padded prefix and a space, and the rest of the lines are the cleaned chunk's lines. |
| Publish.OrDefault | packages/constellate/scripts/publish/index.js:36-37 | A configured branch or remote is used when not empty; otherwise the fallback. |
| Publish.LastVersion | packages/constellate/scripts/publish/index.js:20-21 | The last version is the cleaned tag when there is a tag, and `0.0.0` otherwise. |
| Publish.ToPublish | packages/constellate/scripts/publish/index.js:49-55 | A first publish takes every project. Otherwise it takes exactly the requested projects changed since the tag, in requested order. |
| Publish.Versions | packages/constellate/scripts/publish/index.js:62-69 | Every project has a version: the next version if published, its last version otherwise. |
| Publish.Plan | packages/constellate/scripts/publish/index.js:72-83 | The chain builds each project, then publishes each, then tags `v<next>`, then pushes that tag to the remote. |
| Publish.RunSteps | packages/constellate/scripts/publish/index.js:73-83 | Steps run in order. The first failure stops the rest. The chain completes exactly when every step succeeds. |
| Publish.Prelude | packages/constellate/scripts/publish/index.js:38-48 | A checkout happens exactly when the branch differs, and the version prompt follows. |
| Publish.Release | packages/constellate/scripts/publish/index.js:48-84 | An empty change-set does nothing. Otherwise the chain runs until the first failure, and a failure names the failed step. |
| Publish.Publish | packages/constellate/scripts/publish/index.js:11-85 | The run aborts, with no effects, exactly when the repository is uninitialised or a project has uncommitted changes. An unanswered prompt stops after the prelude. Otherwise the trace is the prelude followed by the release. |
| Publish.CheckoutOnlyWhenNeeded | packages/constellate/scripts/publish/index.js:38-45 | Past the guards, a checkout is attempted exactly when the branch differs, and it never aborts the run. |
| Publish.NoReleaseWithoutGuards | packages/constellate/scripts/publish/index.js:12-59 | No build, publish, tag or push happens unless both guards pass, the prompt answered and the change-set is non-empty. |
| Publish.PlanOrder | packages/constellate/scripts/publish/index.js:72-83 | Every build precedes every other step. Publishes precede the tag and the push, and the tag precedes the push. |
| Publish.PushOnlyAfterEverythingElse | packages/constellate/scripts/publish/index.js:72-83 | The push is attempted only after every build, every publish and the tag succeeded. |
| Update.Client | packages/constellate/scripts/update.js:9-11 | The client is the configured one when set, even if empty, and `npm` otherwise. |
| Update.SubCommand | packages/constellate/scripts/update.js:19 | npm runs `npm-check -u` and yarn runs `upgrade-interactive`. |
| Update.UpdateRuns | packages/constellate/scripts/update.js:21-41 | The first run is at the application root, then one per root in order. Each is the client with the sub-command as its single argument and inherited stdio. |
| Update.UpdateAll | packages/constellate/scripts/update.js:6-42 | Any client other than npm or yarn fails before anything runs. Otherwise there are exactly 1 + \|projects\| runs: the application root first, then each project root in order. |
| Update.UpdateDirectories | packages/constellate/scripts/update.js:33-41 | The updated directories are exactly the application root followed by the project roots. |
| Babel.Development | packages/constellate/babel/generateConfig.js:9-18 | Development mode holds exactly when `development` is given as true; the default is false. |
| Babel.Presets | packages/constellate/babel/generateConfig.js:26-52 | There are exactly two presets: the browser `env` variant for web projects or the node variant otherwise, then `react`. |
| Babel.FlagPlugins | packages/constellate/babel/generateConfig.js:53-73 | The three base plugins come first. The two JSX debugging plugins follow in development; otherwise the two element optimisations follow. |
| Babel.Assemble | packages/constellate/babel/generateConfig.js:21-81 | `babelrc` is false. Source maps are `both` exactly for node projects. The source-map support plugin is prepended exactly for node projects not compiled by webpack. |
| Babel.GenerateConfig | packages/constellate/babel/generateConfig.js:83-85 | With a hook, the result is the hook applied to the assembled config and the development flag. Without one, it is the assembled config. |
| Babel.DevelopmentPlugins | packages/constellate/babel/generateConfig.js:57-62 | Without a hook, the JSX debugging plugins are present exactly in development. |
| Babel.ProductionPlugins | packages/constellate/babel/generateConfig.js:63-72 | Without a hook, the element optimisations are present exactly outside development, which is the default. |
| Babel.SourceMapSupportFirst | packages/constellate/babel/generateConfig.js:76-81 | Without a hook, the source-map support plugin is present exactly for node projects not built by webpack, and then it is first, ahead of the base plugins. |
| Babel.WebOrNode | packages/constellate/babel/generateConfig.js:11-52 | Without a hook, a web project gets the browser `env` preset and no source maps, and a node project gets the node preset and `both`. |

## Left out

- I/O is left out: directory listing, `read-pkg`, dynamic `require`, git, npm, `semver`, the version
  prompt, spawning processes and console output. They appear as inputs (maps, sets, oracle
  functions) or as effect traces.
- Logging, warnings and verbose messages are left out. A dropped dependency name shows only as the
  missing edge.
- Chalk colouring: `color` is an opaque `string -> string`. Paths are sequences of segments, not
  `path.resolve` strings.
- Asynchrony is left out. Each plugin call is one atomic step. The `process.nextTick` that registers
  the spawned process is folded into the step, so races between concurrent calls are not modelled.
  Whether the kill of a child succeeds is an input, standing in for `killChildProcess`, which is not
  part of this model.
- Toposort.Sort breaks ties with Kahn's algorithm, so among valid orders it may pick a different one
  from the npm package's depth-first sort.
- ProjectGraph.BuildGraph requires the directory listing to hold distinct names, which a real
  directory listing does.
- ProjectGraph.GetAllProjects returns the ordered sequence; the final object map is
  `ProjectGraph.ProjectMap`. JavaScript's key order for integer-like names is not modelled.
- ProjectGraph.WithAllDependants stores each transitive dependant as the record it was before the
  last stage. The source mutates the records in place, so there the shared records also carry their
  own `allDependants`.
- The third stage of `getAllProjects` recomputes `allDependencies` from the same two lists. It is
  not a separate function: `ProjectGraph.WellLinked` states that it changes nothing.
- Publish: an unanswered version prompt becomes the `PromptFailed` outcome. `process.exit(1)` on a
  failed guard becomes the `Abort` outcome.
- ProjectGraph.WithAllDependants, ProjectGraph.Link, ProjectGraph.BuildGraph, ProjectGraph.GetAllProjects
  store the corrected `allDependants` of "## Findings"; the program stores `[]` for every project.
  `ProjectGraph.LiteralAllDependants` is the as-written filter, and `ProjectGraph.AllDependantsDiscrepancy`
  shows the two differ.
- ChildProcess.FormatMsgLines and ChildProcess.HijackEchoLines hold only for a coloured prefix with no
  newline and no `$`. With a newline the lines no longer correspond one to one. With `$` patterns the
  program itself changes the prefix on later lines (`ChildProcess.FormatMsgExpandsDollars`).
- ChildProcess.PadEnd: strings are sequences of Unicode scalar values, so a title with a lone UTF-16
  surrogate cannot be expressed.
- Babel.GenerateConfig: the `plugins.babel` hook also receives the project; the model closes the
  hook over its project and passes only the configuration and the development flag. The
  `sourceMapSupport` plugin path is a constant rather than a resolved absolute path.
- ProjectConfig.Value has only strings, lists of strings, booleans and null; numbers and objects are
  not modelled. A list stands for a JavaScript array by its string entries. That loses nothing for
  dependency lists: `getDependencies` finds no project for a non-string entry and drops it (with a
  warning, which is left out), exactly as for an unknown name. A number or an object used where the
  model reads a string or a flag (`compiler`, `web`) has no counterpart.
- Update: a failing `spawn.sync` does not stop later runs in the source, and the model returns the
  list of runs without their outcomes.

## Findings

| source | as written | input that shows it | evidently intended | confidence | as-written member | corrected member |
|---|---|---|---|---|---|---|
| projects/constellate-dev-utils/modules/projects/getAllProjects.js:198 | `allProjects.filter(cur => !!R.find(R.equals(cur), allDependants))` compares each project record with the collected names and nested arrays, so nothing ever matches and every `allDependants` is empty | projects `a` and `b` where `b` depends on `a`: `a.allDependants` is `[]` | keep the projects whose name was collected, giving `a.allDependants == [b]` | not executed | ProjectGraph.LiteralAllDependantsAlwaysEmpty, ProjectGraph.AllDependantsDiscrepancy | ProjectGraph.IntendedAllDependants, ProjectGraph.AllDependantsByName |

=== FILE: babel.dfy ===
/**
 * The Babel configuration a project is compiled with (packages/constellate/babel/generateConfig.js):
 * presets and plugins chosen by two flags, web versus node and development versus production, and an
 * optional per-project hook that may rewrite the result.
 */
module Babel {
  import opened Results
  import opened Seqs
  import opened ProjectConfig
  import opened ProjectPaths

  /** The `targets` of the `env` preset. */
  datatype EnvTargets = Browsers(ie: nat, uglify: bool) | CurrentNode

  /** A preset: `env` with its options, or one given by name only. */
  datatype Preset = Env(targets: EnvTargets, useBuiltIns: Option<bool>, modules: Option<bool>) | Named(name: string)

  /** `sourceMaps`: `'both'` or `false`. */
  datatype SourceMaps = SourceMapsBoth | SourceMapsOff

  /** The generated configuration object. */
  datatype BabelConfig = BabelConfig(
    babelrc: bool,
    sourceRoot: Option<Path>,
    sourceMaps: SourceMaps,
    presets: seq<Preset>,
    plugins: seq<string>)

  /**
   * What the generator reads of a project: `config.web`, `config.server.compiler`, `paths.source`
   * (each possibly absent) and the `plugins.babel` hook, which also receives the development flag.
   */
  datatype BabelProject = BabelProject(
    web: Option<Value>,
    serverCompiler: Option<Value>,
    source: Option<Path>,
    babelHook: Option<(BabelConfig, bool) -> BabelConfig>)

  /** The generator's options; `development` defaults to false. */
  datatype GenerateOptions = GenerateOptions(development: Option<bool>)

  const BrowserEnv: Preset := Env(Browsers(9, true), Some(false), Some(false))
  const NodeEnv: Preset := Env(CurrentNode, None, None)
  const React: Preset := Named("react")

  const ObjectRestSpread := "transform-object-rest-spread"
  const TrailingCommas := "syntax-trailing-function-commas"
  const ClassProperties := "transform-class-properties"
  const JsxSelf := "transform-react-jsx-self"
  const JsxSource := "transform-react-jsx-source"
  const InlineElements := "transform-react-inline-elements"
  const ConstantElements := "transform-react-constant-elements"
  /** `./plugins/sourceMapSupport.js`, resolved against the generator's own directory. */
  const SourceMapSupport := "babel/plugins/sourceMapSupport.js"

  const BasePlugins: seq<string> := [ObjectRestSpread, TrailingCommas, ClassProperties]

  /** JavaScript truthiness of an optional configuration value. */
  predicate Truthy(v: Option<Value>) {
    match v
    case None => false
    case Some(VString(s)) => s != ""
    case Some(VStrings(_)) => true
    case Some(VBool(b)) => b
    case Some(VNull) => false
  }

  /** `ifElse(c)(a)`: `a` when `c` holds, nil otherwise. */
  function When<T>(c: bool, a: T): (r: Option<T>)
    ensures r.Some? <==> c
    ensures r.Some? ==> r.value == a
  {
    if c then Some(a) else None
  }

  /** `removeNil`: the present values, in order. */
  function RemoveNil<T>(xs: seq<Option<T>>): (r: seq<T>)
    ensures |r| <= |xs|
    decreases |xs|
  {
    if |xs| == 0 then []
    else (if xs[0].Some? then [xs[0].value] else []) + RemoveNil(xs[1..])
  }

  /** A value survives `removeNil` exactly when it was present in the list. */
  lemma {:induction false} RemoveNilMembers<T>(xs: seq<Option<T>>, x: T)
    ensures x in RemoveNil(xs) <==> Some(x) in xs
    decreases |xs|
  {
    if |xs| > 0 {
      RemoveNilMembers(xs[1..], x);
      assert Some(x) in xs <==> xs[0] == Some(x) || Some(x) in xs[1..];
    }
  }

  /** `removeNil` distributes over concatenation. */
  lemma {:induction false} RemoveNilAppend<T>(a: seq<Option<T>>, b: seq<Option<T>>)
    ensures RemoveNil(a + b) == RemoveNil(a) + RemoveNil(b)
    decreases |a|
  {
    if |a| > 0 {
      assert (a + b)[1..] == a[1..] + b;
      RemoveNilAppend(a[1..], b);
    } else {
      assert a + b == b;
    }
  }

  /** A list with no nil in it passes `removeNil` unchanged. */
  lemma {:induction false} RemoveNilPresent<T>(xs: seq<T>)
    ensures RemoveNil(Map(xs, (x: T) => Some(x))) == xs
    decreases |xs|
  {
    if |xs| > 0 {
      var ys := Map(xs, (x: T) => Some(x));
      assert ys[1..] == Map(xs[1..], (x: T) => Some(x));
      RemoveNilPresent(xs[1..]);
      assert xs == [xs[0]] + xs[1..];
    }
  }

  /** `removeNil` of two optional values. */
  lemma RemoveNilPair<T>(x: Option<T>, y: Option<T>)
    ensures RemoveNil([x, y]) == (if x.Some? then [x.value] else []) + (if y.Some? then [y.value] else [])
  {
    assert [x, y][1..] == [y];
    assert [y][1..] == [];
  }

  /** `development` after its default, and `!!development`. */
  function Development(options: GenerateOptions): (r: bool)
    ensures r <==> options.development == Some(true)
  {
    options.development.GetOr(false)
  }

  /** The presets: one `env` preset, the browser or the node variant, then `react`. */
  function Presets(web: bool): (r: seq<Preset>)
    ensures |r| == 2 && r[1] == React
    ensures r[0] == BrowserEnv <==> web
    ensures r[0] == NodeEnv <==> !web
  {
    var envs := [When(web, BrowserEnv), When(!web, NodeEnv)];
    RemoveNilPair(When(web, BrowserEnv), When(!web, NodeEnv));
    RemoveNilAppend(envs, [Some(React)]);
    assert [Some(React)][1..] == [];
    RemoveNil(envs + [Some(React)])
  }

  /**
   * The plugin list before the node prefix: the base plugins, then the two JSX debugging plugins in
   * development or the two element optimisations otherwise.
   */
  function FlagPlugins(dev: bool): (r: seq<string>)
    ensures |r| == 5 && r[..3] == BasePlugins
    ensures dev ==> r == BasePlugins + [JsxSelf, JsxSource]
    ensures !dev ==> r == BasePlugins + [InlineElements, ConstantElements]
  {
    var base := [Some(ObjectRestSpread), Some(TrailingCommas), Some(ClassProperties)];
    var debugging := [When(dev, JsxSelf), When(dev, JsxSource)];
    var optimising := [When(!dev, InlineElements), When(!dev, ConstantElements)];
    assert Map(BasePlugins, (x: string) => Some(x)) == base;
    RemoveNilPresent(BasePlugins);
    RemoveNilPair(When(dev, JsxSelf), When(dev, JsxSource));
    RemoveNilPair(When(!dev, InlineElements), When(!dev, ConstantElements));
    RemoveNilAppend(debugging, optimising);
    RemoveNilAppend(base, debugging + optimising);
    RemoveNil(base + (debugging + optimising))
  }

  /** The node prefix applies to node projects not compiled by webpack. */
  predicate NeedsSourceMapSupport(project: BabelProject) {
    !Truthy(project.web) && project.serverCompiler != Some(VString("webpack"))
  }

  /** The configuration before the hook. */
  function Assemble(project: BabelProject, dev: bool): (r: BabelConfig)
    ensures !r.babelrc
    ensures r.sourceRoot == project.source
    ensures r.sourceMaps == SourceMapsBoth <==> !Truthy(project.web)
    ensures r.presets == Presets(Truthy(project.web))
    ensures NeedsSourceMapSupport(project) ==> r.plugins == [SourceMapSupport] + FlagPlugins(dev)
    ensures !NeedsSourceMapSupport(project) ==> r.plugins == FlagPlugins(dev)
  {
    var web := Truthy(project.web);
    var config := BabelConfig(false, project.source, if !web then SourceMapsBoth else SourceMapsOff, Presets(web), FlagPlugins(dev));
    if NeedsSourceMapSupport(project) then config.(plugins := [SourceMapSupport] + config.plugins) else config
  }

  /** `generateConfig`: the assembled configuration, passed through the project's hook when it has one. */
  function GenerateConfig(project: BabelProject, options: GenerateOptions): (r: BabelConfig)
    ensures project.babelHook.None? ==> r == Assemble(project, Development(options))
    ensures project.babelHook.Some? ==> r == project.babelHook.value(Assemble(project, Development(options)), Development(options))
  {
    var config := Assemble(project, Development(options));
    if project.babelHook.Some? then project.babelHook.value(config, Development(options)) else config
  }

  /** Without a hook the JSX debugging plugins are present exactly in development. */
  lemma DevelopmentPlugins(project: BabelProject, options: GenerateOptions)
    requires project.babelHook.None?
    ensures var plugins := GenerateConfig(project, options).plugins;
      && (JsxSelf in plugins <==> options.development == Some(true))
      && (JsxSource in plugins <==> options.development == Some(true))
  {
  }

  /** Without a hook the element optimisations are present exactly outside development, the default. */
  lemma ProductionPlugins(project: BabelProject, options: GenerateOptions)
    requires project.babelHook.None?
    ensures var plugins := GenerateConfig(project, options).plugins;
      && (InlineElements in plugins <==> options.development != Some(true))
      && (ConstantElements in plugins <==> options.development != Some(true))
  {
  }

  /** Without a hook the source-map support plugin comes first exactly for node projects not built by webpack. */
  lemma SourceMapSupportFirst(project: BabelProject, options: GenerateOptions)
    requires project.babelHook.None?
    ensures var plugins := GenerateConfig(project, options).plugins;
      && (SourceMapSupport in plugins <==> NeedsSourceMapSupport(project))
      && (NeedsSourceMapSupport(project) ==> plugins[0] == SourceMapSupport && plugins[1..4] == BasePlugins)
      && (!NeedsSourceMapSupport(project) ==> plugins[..3] == BasePlugins)
  {
  }

  /** Without a hook a web project gets the browser `env` preset and no source maps; a node project the opposite. */
  lemma WebOrNode(project: BabelProject, options: GenerateOptions)
    requires project.babelHook.None?
    ensures var config := GenerateConfig(project, options);
      && (Truthy(project.web) ==> config.presets == [BrowserEnv, React] && config.sourceMaps == SourceMapsOff)
      && (!Truthy(project.web) ==> config.presets == [NodeEnv, React] && config.sourceMaps == SourceMapsBoth)
  {
  }
}

=== FILE: child_process.dfy ===
/**
 * The child-process helpers (packages/constellate-dev-utils/src/childProcess.js): the options each
 * helper hands to execa, the `FORCE_COLOR` side effect on the process environment, and the
 * prefixed, line-by-line echo of `execHijack`. Running the child is left to the caller.
 */
module ChildProcess {
  import opened Results
  import opened Seqs
  import opened Text

  /** `process.env`. */
  type ProcessEnv = map<string, string>

  /** A value of an execa options object. */
  datatype OptValue = OText(text: string) | OEnv(vars: ProcessEnv) | OFlag(flag: bool)

  type Options = map<string, OptValue>

  /** One call of execa: command, arguments and the options object it receives. */
  datatype Invocation = Invocation(command: string, args: seq<string>, options: Options)

  /** What a finished child reports back. */
  datatype ChildResult = ChildResult(stdout: string, stderr: string)

  const ForceColorKey: string := "FORCE_COLOR"

  /** `Object.assign({}, a, b)`: the keys of both, with `b` winning. */
  function Assign(a: Options, b: Options): (r: Options)
    ensures r.Keys == a.Keys + b.Keys
    ensures forall k :: k in b ==> r[k] == b[k]
    ensures forall k :: k in a && k !in b ==> r[k] == a[k]
  {
    a + b
  }

  /** `process.env.FORCE_COLOR = 'true'`: one variable set, every other one kept. */
  function ForceColor(penv: ProcessEnv): (r: ProcessEnv)
    ensures ForceColorKey in r && r[ForceColorKey] == "true"
    ensures forall k :: k != ForceColorKey ==> (k in r <==> k in penv)
    ensures forall k :: k != ForceColorKey && k in r ==> r[k] == penv[k]
  {
    penv[ForceColorKey := "true"]
  }

  /**
   * `exec`: colour forced in the process environment, which is passed on together with piped stdio
   * unless the caller's options say otherwise. Returns the invocation and the new process environment.
   */
  function Exec(penv: ProcessEnv, command: string, args: seq<string>, opts: Options): (r: (Invocation, ProcessEnv))
    ensures r.1 == ForceColor(penv)
    ensures r.0.command == command && r.0.args == args
    ensures r.0.options.Keys == opts.Keys + {"env", "stdio"}
    ensures forall k :: k in opts ==> r.0.options[k] == opts[k]
    ensures "env" !in opts ==> r.0.options["env"] == OEnv(r.1)
    ensures "stdio" !in opts ==> r.0.options["stdio"] == OText("pipe")
  {
    var penv' := ForceColor(penv);
    (Invocation(command, args, Assign(map["env" := OEnv(penv'), "stdio" := OText("pipe")], opts)), penv')
  }

  /** `exec` and `execSync` resolve to the child's standard output; a failure is passed on. */
  function ExecOutput<E>(outcome: Result<ChildResult, E>): (r: Result<string, E>)
    ensures r.Ok? <==> outcome.Ok?
    ensures r.Ok? ==> r.value == outcome.value.stdout
    ensures r.Err? ==> r.error == outcome.error
  {
    match outcome
    case Ok(result) => Ok(result.stdout)
    case Err(e) => Err(e)
  }

  /** `execSync`: like `exec` but with no stdio default. */
  function ExecSync(penv: ProcessEnv, command: string, args: seq<string>, opts: Options): (r: (Invocation, ProcessEnv))
    ensures r.1 == ForceColor(penv)
    ensures r.0.command == command && r.0.args == args
    ensures r.0.options.Keys == opts.Keys + {"env"}
    ensures forall k :: k in opts ==> r.0.options[k] == opts[k]
    ensures "env" !in opts ==> r.0.options["env"] == OEnv(r.1)
  {
    var penv' := ForceColor(penv);
    (Invocation(command, args, Assign(map["env" := OEnv(penv')], opts)), penv')
  }

  /** `spawn`: the process environment as it stands (no colour forcing) and inherited stdio by default. */
  function Spawn(penv: ProcessEnv, command: string, args: seq<string>, opts: Options): (r: (Invocation, ProcessEnv))
    ensures r.1 == penv
    ensures r.0.command == command && r.0.args == args
    ensures r.0.options.Keys == opts.Keys + {"env", "stdio"}
    ensures forall k :: k in opts ==> r.0.options[k] == opts[k]
    ensures "env" !in opts ==> r.0.options["env"] == OEnv(penv)
    ensures "stdio" !in opts ==> r.0.options["stdio"] == OText("inherit")
  {
    (Invocation(command, args, Assign(map["env" := OEnv(penv), "stdio" := OText("inherit")], opts)), penv)
  }

  /** `execHijack`'s options: the caller's, except that `env` is always the (colour-forced) process environment. */
  function ExecHijack(penv: ProcessEnv, command: string, args: seq<string>, opts: Options): (r: (Invocation, ProcessEnv))
    ensures r.1 == ForceColor(penv)
    ensures r.0.command == command && r.0.args == args
    ensures r.0.options.Keys == opts.Keys + {"env"}
    ensures r.0.options["env"] == OEnv(r.1)
    ensures forall k :: k in opts && k != "env" ==> r.0.options[k] == opts[k]
  {
    var penv' := ForceColor(penv);
    (Invocation(command, args, Assign(opts, map["env" := OEnv(penv')])), penv')
  }

  /** An `env` the caller passes to `execHijack` has no effect. */
  lemma ExecHijackIgnoresCallerEnv(penv: ProcessEnv, command: string, args: seq<string>, opts: Options, env: OptValue)
    ensures ExecHijack(penv, command, args, opts["env" := env]) == ExecHijack(penv, command, args, opts - {"env"})
  {
    var a := ExecHijack(penv, command, args, opts["env" := env]).0.options;
    var b := ExecHijack(penv, command, args, opts - {"env"}).0.options;
    assert a.Keys == b.Keys;
    forall k | k in a ensures a[k] == b[k] {
    }
    assert a == b;
  }

  /** `spawn` does not force colour itself, but inherits it from any earlier `exec`. */
  lemma SpawnAfterExecForcesColor(penv: ProcessEnv, c1: string, a1: seq<string>, o1: Options,
                                  c2: string, a2: seq<string>, o2: Options)
    requires "env" !in o2
    ensures var penv' := Exec(penv, c1, a1, o1).1;
      && Spawn(penv', c2, a2, o2).0.options["env"].vars[ForceColorKey] == "true"
  {
  }

  // ---------------------------------------------------------------------------------------------
  // execHijack's output

  /** `cleanData`: the chunk without its leading and trailing newlines. */
  function CleanData(data: string): (r: string)
    ensures |r| == 0 || (r[0] != '\n' && r[|r| - 1] != '\n')
    ensures exists i: nat, j: nat :: data == Repeat('\n', i) + r + Repeat('\n', j)
  {
    var lead := DropLeading(data, '\n');
    var r := DropTrailing(lead, '\n');
    StripShape(data);
    StripEnds(data);
    r
  }

  /** Stripping both runs leaves a middle part with newline runs of known length on either side. */
  lemma StripShape(data: string)
    ensures var lead := DropLeading(data, '\n');
      var r := DropTrailing(lead, '\n');
      data == Repeat('\n', |data| - |lead|) + r + Repeat('\n', |lead| - |r|)
  {
    var lead := DropLeading(data, '\n');
    var r := DropTrailing(lead, '\n');
    ConcatAssoc(Repeat('\n', |data| - |lead|), r, Repeat('\n', |lead| - |r|));
  }

  /** The middle part neither starts nor ends with a newline. */
  lemma StripEnds(data: string)
    ensures var r := DropTrailing(DropLeading(data, '\n'), '\n');
      |r| == 0 || (r[0] != '\n' && r[|r| - 1] != '\n')
  {
    var lead := DropLeading(data, '\n');
    var r := DropTrailing(lead, '\n');
    if |r| > 0 {
      assert lead[0] == (r + Repeat('\n', |lead| - |r|))[0];
    }
  }

  /** `CleanData` strips the leading run first, then the trailing one. */
  lemma CleanDataSteps(data: string)
    ensures CleanData(data) == DropTrailing(DropLeading(data, '\n'), '\n')
  {
  }

  /** The decomposition `CleanData` promises has only one middle part. */
  lemma CleanDataUnique(data: string, r: string, i: nat, j: nat)
    requires data == Repeat('\n', i) + r + Repeat('\n', j)
    requires |r| == 0 || (r[0] != '\n' && r[|r| - 1] != '\n')
    ensures CleanData(data) == r
  {
    CleanDataSteps(data);
    if |r| == 0 {
      forall k | 0 <= k < |data| ensures data[k] == '\n' {
        if k >= i {
          assert data[k] == Repeat('\n', j)[k - i];
        }
      }
      StripNewlines(data);
    } else {
      assert data == Repeat('\n', i) + (r + Repeat('\n', j));
      StripAround(i, r, j);
    }
  }

  /** Newlines only strip to the empty string. */
  lemma StripNewlines(s: string)
    requires forall k :: 0 <= k < |s| ==> s[k] == '\n'
    ensures DropTrailing(DropLeading(s, '\n'), '\n') == ""
  {
    DropLeadingAll(s, '\n');
  }

  /** Stripping newline runs around a middle part that neither starts nor ends with one gives it back. */
  lemma StripAround(i: nat, r: string, j: nat)
    requires |r| > 0 && r[0] != '\n' && r[|r| - 1] != '\n'
    ensures DropTrailing(DropLeading(Repeat('\n', i) + (r + Repeat('\n', j)), '\n'), '\n') == r
  {
    var rest := r + Repeat('\n', j);
    assert rest[0] == r[0];
    DropLeadingRepeat('\n', i, rest);
    DropTrailingRepeat('\n', r, j);
  }

  /**
   * `title.padEnd(min, ' ')`: padded with spaces until its JavaScript length (in UTF-16 code units)
   * reaches `min`, never cut.
   */
  function PadEnd(title: string, min: int): (r: string)
    ensures Utf16Length(r) == if Utf16Length(title) >= min then Utf16Length(title) else min
    ensures |r| >= |title| && r[..|title|] == title
    ensures forall k :: |title| <= k < |r| ==> r[k] == ' '
  {
    var len := Utf16Length(title);
    if len >= min then title
    else
      Utf16LengthAppend(title, Repeat(' ', min - len));
      Utf16LengthSpaces(min - len);
      title + Repeat(' ', min - len)
  }

  /** An emoji is two code units long, so it needs one space fewer than its character count suggests. */
  lemma PadEndCountsCodeUnits()
    ensures PadEnd("\U{1F600}", 4) == "\U{1F600}  "
  {
    assert Utf16Length("\U{1F600}") == 2 by {
      assert "\U{1F600}"[1..] == "";
    }
    assert Repeat(' ', 2) == "  " by {
      assert Repeat(' ', 2)[1..] == Repeat(' ', 1);
      assert Repeat(' ', 1)[1..] == Repeat(' ', 0);
    }
  }

  /** `formattedPrefix`: the padded title and a bar, styled by the caller's colour function. */
  function FormattedPrefix(color: string -> string, title: string, min: int): string {
    color(PadEnd(title, min) + "|")
  }

  /**
   * `formatMsg`: the prefix and a space in front of the message, and `"\n" + prefix + " "` in place of
   * every newline in it. That replacement goes through `String.prototype.replace`, so `$` patterns in
   * the prefix are expanded at each newline.
   */
  function FormatMsg(prefix: string, msg: string): (r: string)
    ensures |r| >= |prefix| + 1 && r[..|prefix| + 1] == prefix + " "
    ensures '\n' !in msg ==> r == prefix + " " + msg
    // a prefix without `$` is put in front of every line
    ensures '$' !in prefix ==> r == Join(Prefixed(prefix + " ", Split(msg, '\n')), "\n")
  {
    var p := prefix + " ";
    ReplaceCases(p, msg);
    p + ReplaceAllJs(msg, '\n', "\n" + p)
  }

  /** The two special cases of the replacement: no newline, and no dollar sign in the inserted text. */
  lemma ReplaceCases(p: string, msg: string)
    ensures '\n' !in msg ==> ReplaceAllJs(msg, '\n', "\n" + p) == msg
    ensures '$' !in p ==> p + ReplaceAllJs(msg, '\n', "\n" + p) == Join(Prefixed(p, Split(msg, '\n')), "\n")
  {
    if '\n' !in msg {
      ReplaceFromNone(msg, '\n', "\n" + p, 0);
    }
    if '$' !in p {
      assert '$' !in "\n" + p;
      ReplaceAllJsLiteral(msg, '\n', "\n" + p);
      ReplaceIsJoin(msg, '\n', "\n" + p);
      JoinPrefixed(p, Split(msg, '\n'), '\n');
    }
  }

  /** A title with `$$` loses a dollar sign on every line after the first. */
  lemma FormatMsgExpandsDollars()
    ensures FormatMsg("a$$b|", "x\ny") == "a$$b| x\na$b| y"
  {
    var rep := "\na$$b| ";
    assert Substitute(rep, "x", "\n", "y") == "\na$b| " by {
      assert rep[1..] == "a$$b| " && rep[2..] == "$$b| " && rep[4..] == "b| ";
      assert rep[5..] == "| " && rep[6..] == " " && rep[7..] == "";
    }
    var s := "x\ny";
    assert s[..1] == "x" && s[2..] == "y";
    assert ReplaceFrom(s, '\n', rep, 3) == "";
    assert ReplaceFrom(s, '\n', rep, 2) == "y";
    assert ReplaceFrom(s, '\n', rep, 1) == "\na$b| y";
    assert ReplaceFrom(s, '\n', rep, 0) == "x\na$b| y";
    assert rep == "\n" + ("a$$b|" + " ");
    assert ReplaceAllJs(s, '\n', rep) == "x\na$b| y";
  }

  /**
   * With a single-line prefix free of `$` the message's lines and the output's lines correspond one to
   * one: each output line is the prefix, a space and the message line, and stripping them gives the
   * message back.
   */
  lemma FormatMsgLines(prefix: string, msg: string)
    requires '\n' !in prefix && '$' !in prefix
    ensures Split(FormatMsg(prefix, msg), '\n') == Prefixed(prefix + " ", Split(msg, '\n'))
    ensures Join(Unprefixed(|prefix| + 1, Split(FormatMsg(prefix, msg), '\n')), "\n") == msg
  {
    var p := prefix + " ";
    var lines := Prefixed(p, Split(msg, '\n'));
    forall k | 0 <= k < |lines| ensures '\n' !in lines[k] {
      assert lines[k] == p + Split(msg, '\n')[k];
    }
    SplitJoin(lines, '\n');
    var stripped := Unprefixed(|p|, lines);
    forall k | 0 <= k < |lines| ensures stripped[k] == Split(msg, '\n')[k] {
      assert lines[k][..|p|] == p;
    }
    assert stripped == Split(msg, '\n');
    JoinSplit(msg, '\n');
  }

  datatype Stream = Stdout | Stderr
  datatype Console = Log | Error

  /** One `data` event of the child's stdout or stderr. */
  datatype Chunk = Chunk(stream: Stream, data: string)

  /** One call of `console.log` or `console.error`. */
  datatype Echo = Echo(console: Console, text: string)

  /**
   * The echo of `execHijack`: one console call per data event, stdout to `console.log` and stderr to
   * `console.error`, the cleaned chunk formatted with the prefix.
   */
  function HijackEcho(color: string -> string, title: string, min: int, chunks: seq<Chunk>): (r: seq<Echo>)
    ensures |r| == |chunks|
    ensures forall k :: 0 <= k < |chunks| ==>
      && (r[k].console == Log <==> chunks[k].stream == Stdout)
      && r[k].text == FormatMsg(FormattedPrefix(color, title, min), CleanData(chunks[k].data))
  {
    var prefix := FormattedPrefix(color, title, min);
    seq(|chunks|, k requires 0 <= k < |chunks| =>
      Echo(if chunks[k].stream == Stdout then Log else Error, FormatMsg(prefix, CleanData(chunks[k].data))))
  }

  /**
   * Every line echoed for a chunk starts with the prefix and a space, and the lines after that prefix
   * are the chunk's lines once its surrounding newlines are gone.
   */
  lemma HijackEchoLines(color: string -> string, title: string, min: int, chunks: seq<Chunk>, k: nat)
    requires k < |chunks| && '\n' !in FormattedPrefix(color, title, min) && '$' !in FormattedPrefix(color, title, min)
    ensures var prefix := FormattedPrefix(color, title, min);
      var lines := Split(HijackEcho(color, title, min, chunks)[k].text, '\n');
      && lines == Prefixed(prefix + " ", Split(CleanData(chunks[k].data), '\n'))
      && Join(Unprefixed(|prefix| + 1, lines), "\n") == CleanData(chunks[k].data)
  {
    FormatMsgLines(FormattedPrefix(color, title, min), CleanData(chunks[k].data));
  }
}

=== FILE: compilers.dfy ===
/**
 * Compiler plugin resolution with a process-wide cache
 * (`resolveCompiler` in projects/constellate-dev-utils/modules/projects/getAllProjects.js).
 * Loading a plugin module is modelled as a lookup in `installed`, keyed by package name.
 */
module Compilers {
  import opened Results
  import opened ProjectConfig

  /** A loaded compiler plugin module (opaque). */
  datatype Plugin = Plugin(id: string)

  /** Plugins already loaded, keyed by compiler name. */
  type CompilerCache = map<string, Plugin>

  /** The plugin could not be loaded: names the compiler, the project and the package to install. */
  datatype CompilerError = CompilerNotFound(compiler: string, project: string, remedy: string)

  /** The package implementing compiler `name`. */
  function PluginPackage(name: string): string {
    "constellate-plugin-compiler-" + name
  }

  /** The `compiler` setting means "no compiler": `'none'`, empty or nil. */
  predicate NoCompiler(v: Option<Value>) {
    || v.None?
    || v.value.VNull?
    || v.value == VString("none")
    || v.value == VString("")
    || v.value == VStrings([])
  }

  /** JavaScript's string conversion of a setting, used as cache key and in the package name. */
  function CompilerKey(v: Value): string {
    match v
    case VString(s) => s
    case VStrings(items) => JoinComma(items)
    case VBool(b) => if b then "true" else "false"
    case VNull => "null"
  }

  function JoinComma(items: seq<string>): string {
    if |items| == 0 then ""
    else if |items| == 1 then items[0]
    else items[0] + "," + JoinComma(items[1..])
  }

  /** The setting needs no compiler, or its compiler is cached already, or its package is installed. */
  predicate Available(cache: CompilerCache, installed: map<string, Plugin>, v: Option<Value>) {
    NoCompiler(v) || CompilerKey(v.value) in cache || PluginPackage(CompilerKey(v.value)) in installed
  }

  /**
   * Resolves the compiler named by setting `v` for project `project`. Returns the plugin (or none) and
   * the updated cache.
   */
  function ResolveCompiler(cache: CompilerCache, installed: map<string, Plugin>, project: string, v: Option<Value>)
    : (r: (Result<Option<Plugin>, CompilerError>, CompilerCache))
    // "no compiler" never looks anything up and changes nothing
    ensures NoCompiler(v) ==> r == (Ok(None), cache)
    // a cached compiler is returned without loading
    ensures !NoCompiler(v) && CompilerKey(v.value) in cache ==> r == (Ok(Some(cache[CompilerKey(v.value)])), cache)
    // a failure names compiler, project and install remedy, and caches nothing
    ensures r.0.Err? ==>
      && r.1 == cache && !NoCompiler(v)
      && r.0.error == CompilerNotFound(CompilerKey(v.value), project,
                                       "npm install " + PluginPackage(CompilerKey(v.value)))
      && PluginPackage(CompilerKey(v.value)) !in installed
    // a resolved plugin is the installed one, and is cached under its name
    ensures r.0.Ok? && r.0.value.Some? ==>
      var name := CompilerKey(v.value);
      && name in r.1 && r.1[name] == r.0.value.value
      && (name in cache || (PluginPackage(name) in installed && r.0.value.value == installed[PluginPackage(name)]))
    // the cache only ever grows by the resolved name
    ensures forall k :: k in cache ==> k in r.1 && r.1[k] == cache[k]
    ensures forall k :: k in r.1 && k !in cache ==> !NoCompiler(v) && k == CompilerKey(v.value) && r.0.Ok?
    ensures forall k :: k in r.1 && k !in cache ==> PluginPackage(k) in installed
    // resolution succeeds exactly when the compiler is available, and yields none exactly for "no compiler"
    ensures r.0.Ok? <==> Available(cache, installed, v)
    ensures r.0.Ok? ==> (r.0.value.None? <==> NoCompiler(v))
  {
    if NoCompiler(v) then (Ok(None), cache)
    else
      var name := CompilerKey(v.value);
      if name in cache then (Ok(Some(cache[name])), cache)
      else
        var package := PluginPackage(name);
        if package in installed then (Ok(Some(installed[package])), cache[name := installed[package]])
        else (Err(CompilerNotFound(name, project, "npm install " + package)), cache)
  }

  /**
   * Memoisation: once a compiler name has resolved, a later resolution of the same name, for any project
   * and whatever is installed by then, returns the same plugin and leaves the cache as it is.
   */
  lemma ResolvedCompilerIsReused(cache: CompilerCache, installed: map<string, Plugin>, installed': map<string, Plugin>,
                                 project: string, project': string, v: Option<Value>)
    requires ResolveCompiler(cache, installed, project, v).0.Ok?
    ensures var (first, cache') := ResolveCompiler(cache, installed, project, v);
      ResolveCompiler(cache', installed', project', v) == (first, cache')
  {
  }
}

=== FILE: project_config.dfy ===
/**
 * Per-project configuration: the three-layer merge performed when a project directory is turned into a
 * project record (projects/constellate-dev-utils/modules/projects/getAllProjects.js).
 */
module ProjectConfig {
  import opened Results

  /** A configuration value, as far as the graph reads it; `VStrings` is an array by its string entries. */
  datatype Value = VString(s: string) | VStrings(items: seq<string>) | VBool(b: bool) | VNull

  type Config = map<string, Value>

  /** The parts of the application configuration the graph reads. */
  datatype AppConfig = AppConfig(projectDefaults: Option<Config>, projects: map<string, Config>)

  /** A project's manifest (`package.json`), as far as the model reads it. */
  datatype Manifest = Manifest(name: Option<string>, scripts: map<string, string>)

  /** The built-in defaults; `nodeVersion` is the running Node.js version. */
  function DefaultConfig(nodeVersion: string): (r: Config)
    ensures "compiler" in r && r["compiler"] == VString("none")
    ensures "role" in r && r["role"] == VString("library")
    ensures "dependencies" in r && r["dependencies"] == VStrings([])
    ensures "bundledDependencies" in r && r["bundledDependencies"] == VStrings([])
  {
    map[
      "role" := VString("library"),
      "compiler" := VString("none"),
      "nodeVersion" := VString(nodeVersion),
      "allDependencies" := VStrings([]),
      "dependencies" := VStrings([]),
      "bundledDependencies" := VStrings([])
    ]
  }

  /** `Object.assign({}, defaults, projectDefaults, overrides)`. */
  function Merge(defaults: Config, projectDefaults: Config, overrides: Config): (r: Config)
    ensures forall k :: k in r <==> k in defaults || k in projectDefaults || k in overrides
    ensures forall k :: k in overrides ==> r[k] == overrides[k]
    ensures forall k :: k in projectDefaults && k !in overrides ==> r[k] == projectDefaults[k]
    ensures forall k :: k in defaults && k !in projectDefaults && k !in overrides ==> r[k] == defaults[k]
  {
    defaults + projectDefaults + overrides
  }

  /**
   * The merged configuration of project `name`: the built-in defaults, overridden by the application's
   * `projectDefaults` (absent means none), overridden by the application's `projects[name]`.
   */
  function ProjectConfigOf(app: AppConfig, nodeVersion: string, name: string): (r: Config)
    ensures forall k :: k in r <==>
      || k in DefaultConfig(nodeVersion)
      || (app.projectDefaults.Some? && k in app.projectDefaults.value)
      || (name in app.projects && k in app.projects[name])
    ensures forall k :: name in app.projects && k in app.projects[name] ==> r[k] == app.projects[name][k]
    ensures forall k ::
      (app.projectDefaults.Some? && k in app.projectDefaults.value && (name !in app.projects || k !in app.projects[name]))
      ==> r[k] == app.projectDefaults.value[k]
    ensures forall k ::
      (k in DefaultConfig(nodeVersion) && (app.projectDefaults.None? || k !in app.projectDefaults.value)
        && (name !in app.projects || k !in app.projects[name]))
      ==> r[k] == DefaultConfig(nodeVersion)[k]
  {
    var overrides := if name in app.projects then app.projects[name] else map[];
    Merge(DefaultConfig(nodeVersion), app.projectDefaults.GetOr(map[]), overrides)
  }
}

=== FILE: project_graph.dfy ===
/**
 * The project graph (projects/constellate-dev-utils/modules/projects/getAllProjects.js): discovery,
 * dependency resolution, direct dependants, the build order and each project's transitive dependants,
 * computed once per run and cached.
 */
module ProjectGraph {
  import opened Results
  import opened Seqs
  import opened ProjectConfig
  import opened Compilers
  import opened ProjectPaths
  import Toposort

  /** One sub-project. The graph fields are empty until the corresponding stage has run. */
  datatype Project = Project(
    name: string,
    packageName: Option<string>,
    config: Config,
    compiler: Option<Plugin>,
    paths: Paths,
    dependencies: seq<string>,
    bundledDependencies: seq<string>,
    allDependencies: seq<string>,
    dependants: seq<string>,
    allDependants: seq<Project>)

  datatype GraphError =
    | CompilerUnresolved(cause: CompilerError)
    | ManifestUnreadable(project: string)
    | DependencyListMalformed(project: string, key: string)
    | CyclicDependency(nodes: seq<string>)

  /** An entry of the `./projects` directory listing. */
  datatype DirEntry = DirEntry(name: string, isDirectory: bool)

  /** Everything the graph reads from outside: the directory listing, configuration, manifests and plugins. */
  datatype Env = Env(
    entries: seq<DirEntry>,
    app: AppConfig,
    manifests: map<string, Manifest>,
    installed: map<string, Plugin>,
    nodeVersion: string)

  function Names(ps: seq<Project>): (r: seq<string>)
    ensures |r| == |ps| && forall i :: 0 <= i < |ps| ==> r[i] == ps[i].name
  {
    Map(ps, (p: Project) => p.name)
  }

  /** Only directories under `./projects` are projects, in listing order. */
  function ProjectDirectories(entries: seq<DirEntry>): (r: seq<string>)
    ensures forall n :: n in r <==> DirEntry(n, true) in entries
  {
    var dirs := Filter(entries, (e: DirEntry) => e.isDirectory);
    var r := Map(dirs, (e: DirEntry) => e.name);
    forall n ensures n in r <==> DirEntry(n, true) in entries {
      if DirEntry(n, true) in entries {
        assert DirEntry(n, true) in dirs;
        var i :| 0 <= i < |dirs| && dirs[i] == DirEntry(n, true);
        assert r[i] == n;
      }
      if n in r {
        var i :| 0 <= i < |r| && r[i] == n;
        assert dirs[i] in dirs;
        assert dirs[i] == DirEntry(n, true);
      }
    }
    r
  }

  /** A project with the graph fields still unset, as produced by `ToProject`. */
  predicate Fresh(p: Project) {
    p.dependencies == [] && p.bundledDependencies == [] && p.allDependencies == []
    && p.dependants == [] && p.allDependants == []
  }

  /** The `compiler` setting of a merged configuration, if it has one. */
  function CompilerSetting(config: Config): Option<Value> {
    if "compiler" in config then Some(config["compiler"]) else None
  }

  /**
   * What discovery establishes about a project: merged configuration, manifest name, a compiler exactly
   * when the configuration names one, and paths that follow from that.
   */
  predicate ToProjectFacts(env: Env, p: Project) {
    && p.config == ProjectConfigOf(env.app, env.nodeVersion, p.name)
    && p.name in env.manifests && p.packageName == env.manifests[p.name].name
    && (p.compiler.None? <==> NoCompiler(CompilerSetting(p.config)))
    && p.paths == PathsOf(p.name, p.compiler.Some?)
  }

  /** The project's compiler plugin is the one `cache` holds under its compiler's name. */
  predicate CompilerCached(cache: CompilerCache, p: Project) {
    p.compiler.Some? ==>
      && !NoCompiler(CompilerSetting(p.config))
      && CompilerKey(CompilerSetting(p.config).value) in cache
      && cache[CompilerKey(CompilerSetting(p.config).value)] == p.compiler.value
  }

  /** `cache'` keeps every entry of `cache` and adds only plugins that are installed. */
  predicate CacheExtends(cache: CompilerCache, cache': CompilerCache, installed: map<string, Plugin>) {
    && (forall k :: k in cache ==> k in cache' && cache'[k] == cache[k])
    && (forall k :: k in cache' && k !in cache ==> PluginPackage(k) in installed)
  }

  /** Directory `name`'s compiler can be resolved with `cache` and the installed plugins. */
  predicate CompilerAvailable(env: Env, cache: CompilerCache, name: string) {
    Available(cache, env.installed, CompilerSetting(ProjectConfigOf(env.app, env.nodeVersion, name)))
  }

  /** The message `resolveCompiler` throws for directory `name`'s compiler. */
  function CompilerFailure(env: Env, name: string): CompilerError
    requires !NoCompiler(CompilerSetting(ProjectConfigOf(env.app, env.nodeVersion, name)))
  {
    var key := CompilerKey(CompilerSetting(ProjectConfigOf(env.app, env.nodeVersion, name)).value);
    CompilerNotFound(key, name, "npm install " + PluginPackage(key))
  }

  /**
   * Turns directory `name` into a project: merged configuration, compiler plugin, manifest name and
   * paths. The compiler is resolved before the manifest is read.
   */
  function ToProject(env: Env, cache: CompilerCache, name: string): (r: (Result<Project, GraphError>, CompilerCache))
    ensures r.0.Ok? ==> Fresh(r.0.value) && r.0.value.name == name && ToProjectFacts(env, r.0.value)
    ensures r.0.Ok? ==> CompilerCached(r.1, r.0.value)
    ensures r.0.Ok? <==> name in env.manifests && CompilerAvailable(env, cache, name)
    ensures name !in env.manifests ==> r.0.Err?
    ensures r.0.Err? && r.0.error.ManifestUnreadable? ==> name !in env.manifests
    // the compiler is resolved first: its failure wins over a missing manifest
    ensures !CompilerAvailable(env, cache, name) ==> r.0 == Err(CompilerUnresolved(CompilerFailure(env, name)))
    ensures CompilerAvailable(env, cache, name) && r.0.Err? ==> r.0 == Err(ManifestUnreadable(name))
    ensures CacheExtends(cache, r.1, env.installed)
  {
    var config := ProjectConfigOf(env.app, env.nodeVersion, name);
    var setting := CompilerSetting(config);
    var (compiler, cache') := ResolveCompiler(cache, env.installed, name, setting);
    match compiler
    case Err(e) => (Err(CompilerUnresolved(e)), cache')
    case Ok(c) =>
      if name !in env.manifests then (Err(ManifestUnreadable(name)), cache')
      else (Ok(Project(name, env.manifests[name].name, config, c, PathsOf(name, c.Some?), [], [], [], [], [])), cache')
  }

  /** `names.map(toProject)`: the first failure aborts; the compiler cache is threaded through. */
  function ToProjects(env: Env, cache: CompilerCache, names: seq<string>): (r: (Result<seq<Project>, GraphError>, CompilerCache))
    ensures r.0.Ok? ==> Names(r.0.value) == names && forall p :: p in r.0.value ==> Fresh(p) && ToProjectFacts(env, p)
    ensures r.0.Ok? ==> forall p :: p in r.0.value ==> CompilerCached(r.1, p)
    ensures (exists n :: n in names && n !in env.manifests) ==> r.0.Err?
    ensures CacheExtends(cache, r.1, env.installed)
    decreases |names|
  {
    if |names| == 0 then (Ok([]), cache)
    else
      var (first, cache1) := ToProject(env, cache, names[0]);
      if first.Err? then (Err(first.error), cache1)
      else
        var (rest, cache2) := ToProjects(env, cache1, names[1..]);
        CacheExtendsTrans(cache, cache1, cache2, env.installed);
        if rest.Err? then (Err(rest.error), cache2)
        else
          assert names == [names[0]] + names[1..];
          CompilerCachedExtends(cache1, cache2, env.installed, first.value);
          assert forall p :: p in [first.value] + rest.value <==> p == first.value || p in rest.value;
          (Ok([first.value] + rest.value), cache2)
  }

  /** Discovery succeeds exactly when every directory has a manifest and a resolvable compiler. */
  lemma {:induction false} ToProjectsSucceeds(env: Env, cache: CompilerCache, names: seq<string>)
    ensures ToProjects(env, cache, names).0.Ok? <==> forall n :: n in names ==> n in env.manifests && CompilerAvailable(env, cache, n)
    decreases |names|
  {
    if |names| > 0 {
      var (first, cache1) := ToProject(env, cache, names[0]);
      if first.Ok? {
        ToProjectsSucceeds(env, cache1, names[1..]);
        AvailableStable(env, cache, cache1, names[1..]);
        assert forall n :: n in names <==> n == names[0] || n in names[1..];
      }
    }
  }

  /** A failure is a compiler that cannot be resolved, or a missing manifest, of one of the directories. */
  lemma {:induction false} ToProjectsFailure(env: Env, cache: CompilerCache, names: seq<string>)
    ensures var r := ToProjects(env, cache, names).0;
      r.Err? ==>
        || (r.error.CompilerUnresolved? && r.error.cause.project in names)
        || (r.error.ManifestUnreadable? && r.error.project in names && r.error.project !in env.manifests)
    decreases |names|
  {
    if |names| > 0 {
      var (first, cache1) := ToProject(env, cache, names[0]);
      if first.Ok? {
        ToProjectsFailure(env, cache1, names[1..]);
      }
    }
  }

  /** A cache that grows only by installed plugins makes no compiler more or less available. */
  lemma AvailableStable(env: Env, cache: CompilerCache, cache': CompilerCache, names: seq<string>)
    requires CacheExtends(cache, cache', env.installed)
    ensures forall n :: n in names ==> (CompilerAvailable(env, cache', n) <==> CompilerAvailable(env, cache, n))
  {
  }

  lemma CacheExtendsTrans(c0: CompilerCache, c1: CompilerCache, c2: CompilerCache, installed: map<string, Plugin>)
    requires CacheExtends(c0, c1, installed) && CacheExtends(c1, c2, installed)
    ensures CacheExtends(c0, c2, installed)
  {
  }

  lemma CompilerCachedExtends(c1: CompilerCache, c2: CompilerCache, installed: map<string, Plugin>, p: Project)
    requires CacheExtends(c1, c2, installed) && CompilerCached(c1, p)
    ensures CompilerCached(c2, p)
  {
  }

  /**
   * `getDependencies`: the declared names that are names of discovered projects, in declared order,
   * duplicates kept. Unknown names are dropped (the source only warns about them).
   */
  function GetDependencies(declared: seq<string>, known: seq<string>): (r: seq<string>)
    ensures forall x :: x in r <==> x in declared && x in known
    ensures forall x :: multiset(r)[x] == if x in known then multiset(declared)[x] else 0
    ensures forall x, y :: Before(r, x, y) ==> Before(declared, x, y)
  {
    var r := Filter(declared, IsKnown(known));
    forall x ensures multiset(r)[x] == if x in known then multiset(declared)[x] else 0 {
      FilterMultiset(declared, IsKnown(known), x);
    }
    forall x, y | Before(r, x, y) ensures Before(declared, x, y) {
      FilterBefore(declared, IsKnown(known), x, y);
    }
    r
  }

  /** The test `getDependencies` filters with: the name is a discovered project. */
  function IsKnown(known: seq<string>): string -> bool {
    (n: string) => n in known
  }

  /**
   * Resolution works declaration by declaration: resolving a concatenation resolves each part, so the
   * kept names appear exactly where they were declared, repeats included.
   */
  lemma GetDependenciesAppend(x: seq<string>, y: seq<string>, known: seq<string>)
    ensures GetDependencies(x + y, known) == GetDependencies(x, known) + GetDependencies(y, known)
  {
    FilterAppend(x, y, IsKnown(known));
  }

  /** A single declaration is kept exactly when it names a discovered project. */
  lemma GetDependenciesSingle(n: string, known: seq<string>)
    ensures GetDependencies([n], known) == if n in known then [n] else []
  {
    assert [n][1..] == [];
  }

  /** The declared list under `key`; anything but a list of names makes the source's `reduce` throw. */
  function DeclaredList(p: Project, key: string): (r: Result<seq<string>, GraphError>)
    ensures r.Ok? <==> key in p.config && p.config[key].VStrings?
    ensures r.Ok? ==> r.value == p.config[key].items
    ensures r.Err? ==> r.error == DependencyListMalformed(p.name, key)
  {
    if key in p.config && p.config[key].VStrings? then Ok(p.config[key].items)
    else Err(DependencyListMalformed(p.name, key))
  }

  /** Sets `dependencies`, `bundledDependencies` and `allDependencies` (dependencies first). */
  function WithDependencies(p: Project, known: seq<string>): (r: Result<Project, GraphError>)
    ensures r.Ok? <==> DeclaredList(p, "dependencies").Ok? && DeclaredList(p, "bundledDependencies").Ok?
    ensures r.Ok? ==>
      && r.value == p.(dependencies := r.value.dependencies, bundledDependencies := r.value.bundledDependencies,
                       allDependencies := r.value.allDependencies)
      && r.value.dependencies == GetDependencies(DeclaredList(p, "dependencies").value, known)
      && r.value.bundledDependencies == GetDependencies(DeclaredList(p, "bundledDependencies").value, known)
      && r.value.allDependencies == r.value.dependencies + r.value.bundledDependencies
  {
    var deps :- DeclaredList(p, "dependencies");
    var bundled :- DeclaredList(p, "bundledDependencies");
    var dependencies := GetDependencies(deps, known);
    var bundledDependencies := GetDependencies(bundled, known);
    Ok(p.(dependencies := dependencies, bundledDependencies := bundledDependencies,
          allDependencies := dependencies + bundledDependencies))
  }

  /** Both dependency lists of the configuration are lists (the defaults are empty lists). */
  predicate ListsWellFormed(p: Project) {
    DeclaredList(p, "dependencies").Ok? && DeclaredList(p, "bundledDependencies").Ok?
  }

  /** Every dependency edge ends at a project of `ps`. */
  ghost predicate DependenciesKnown(ps: seq<Project>) {
    forall p, d :: p in ps && d in p.allDependencies ==> d in Names(ps)
  }

  /** Runs `WithDependencies` over `ps` in order; the first malformed list aborts. */
  function ResolveDependencies(ps: seq<Project>, known: seq<string>): (r: Result<seq<Project>, GraphError>)
    ensures r.Ok? <==> forall p :: p in ps ==> ListsWellFormed(p)
    ensures r.Err? ==> r.error.DependencyListMalformed?
    ensures r.Ok? ==> |r.value| == |ps|
    ensures r.Ok? ==> forall i :: 0 <= i < |ps| ==> WithDependencies(ps[i], known) == Ok(r.value[i])
    ensures r.Err? ==> exists i :: 0 <= i < |ps| && WithDependencies(ps[i], known).Err?
    decreases |ps|
  {
    if |ps| == 0 then Ok([])
    else
      assert ps[0] in ps;
      var first :- WithDependencies(ps[0], known);
      var rest :- ResolveDependencies(ps[1..], known);
      Ok([first] + rest)
  }

  /** `getDependants`: the projects, in `ps` order, that list `name` among their dependencies. */
  function Dependants(name: string, ps: seq<Project>): (r: seq<string>)
    ensures forall x :: x in r <==> exists q :: q in ps && q.name == x && name in q.allDependencies
  {
    var qs := Filter(ps, ListsName(name));
    var r := Names(qs);
    forall x ensures x in r <==> exists q :: q in ps && q.name == x && name in q.allDependencies {
      if exists q :: q in ps && q.name == x && name in q.allDependencies {
        var q :| q in ps && q.name == x && name in q.allDependencies;
        assert q in qs;
        var i :| 0 <= i < |qs| && qs[i] == q;
        assert r[i] == x;
      }
      if x in r {
        var i :| 0 <= i < |r| && r[i] == x;
        assert qs[i] in qs;
      }
    }
    r
  }

  /** The test `getDependants` filters with: `name` is among the project's `allDependencies`. */
  function ListsName(name: string): Project -> bool {
    (q: Project) => name in q.allDependencies
  }

  /** `getDependants` keeps the order of `ps`. */
  lemma DependantsInOrder(name: string, ps: seq<Project>, x: string, y: string)
    requires Before(Dependants(name, ps), x, y)
    ensures Before(Names(ps), x, y)
  {
    var qs := Filter(ps, ListsName(name));
    assert Dependants(name, ps) == Names(qs);
    var i, j :| 0 <= i < j < |qs| && Names(qs)[i] == x && Names(qs)[j] == y;
    assert Before(qs, qs[i], qs[j]);
    FilterBefore(ps, ListsName(name), qs[i], qs[j]);
    NamesBefore(ps, qs[i], qs[j]);
  }

  function WithDependants(ps: seq<Project>): (r: seq<Project>)
    ensures |r| == |ps|
    ensures forall i :: 0 <= i < |ps| ==> r[i] == ps[i].(dependants := Dependants(ps[i].name, ps))
  {
    Map(ps, (p: Project) => p.(dependants := Dependants(p.name, ps)))
  }

  // ---------------------------------------------------------------------------------------------
  // Build order

  /** The edge list `dependency -> dependant` over all projects. */
  function DependencyEdges(ps: seq<Project>): (r: seq<Toposort.Edge>)
    ensures forall e :: e in r <==> exists q :: q in ps && q.name == e.1 && e.0 in q.allDependencies
  {
    if |ps| == 0 then []
    else
      var here := Map(ps[0].allDependencies, (d: string) => (d, ps[0].name));
      var r := here + DependencyEdges(ps[1..]);
      forall e ensures e in here <==> e.1 == ps[0].name && e.0 in ps[0].allDependencies {
        if e in here {
          var i :| 0 <= i < |here| && here[i] == e;
          assert e.0 == ps[0].allDependencies[i];
        }
        if e.1 == ps[0].name && e.0 in ps[0].allDependencies {
          var i :| 0 <= i < |ps[0].allDependencies| && ps[0].allDependencies[i] == e.0;
          assert here[i] == e;
        }
      }
      assert forall q :: q in ps <==> q == ps[0] || q in ps[1..] by {
        assert ps == [ps[0]] + ps[1..];
      }
      r
  }

  predicate HasNoDependencies(p: Project) {
    |p.allDependencies| == 0
  }

  /** `findProjectByName`: the first project called `name`. */
  function FindByName(ps: seq<Project>, name: string): (p: Project)
    requires name in Names(ps)
    ensures p in ps && p.name == name
  {
    ps[IndexOf(Names(ps), name)]
  }

  /** The build order of names: projects without dependencies first, then the rest in topological order. */
  function OrderNames(ps: seq<Project>): Result<seq<string>, seq<string>> {
    var first := Names(Filter(ps, HasNoDependencies));
    match Toposort.Sort(DependencyEdges(ps))
    case Err(c) => Err(c)
    case Ok(sorted) => Ok(first + Without(first, sorted))
  }

  lemma UniqueName(ps: seq<Project>, p: Project, q: Project)
    requires NoDups(Names(ps)) && p in ps && q in ps && p.name == q.name
    ensures p == q
  {
    var i :| 0 <= i < |ps| && ps[i] == p;
    var j :| 0 <= j < |ps| && ps[j] == q;
    assert Names(ps)[i] == Names(ps)[j];
  }

  lemma FindOwnName(ps: seq<Project>, p: Project)
    requires NoDups(Names(ps)) && p in ps
    ensures p.name in Names(ps) && FindByName(ps, p.name) == p
  {
    var i :| 0 <= i < |ps| && ps[i] == p;
    assert Names(ps)[i] == p.name;
    UniqueName(ps, p, FindByName(ps, p.name));
  }

  lemma {:induction false} NamesFilterNoDups(ps: seq<Project>, f: Project -> bool)
    requires NoDups(Names(ps))
    ensures NoDups(Names(Filter(ps, f)))
    ensures forall x :: x in Names(Filter(ps, f)) <==> exists q :: q in ps && f(q) && q.name == x
  {
    var fs := Filter(ps, f);
    forall x ensures x in Names(fs) <==> exists q :: q in ps && f(q) && q.name == x {
      if exists q :: q in ps && f(q) && q.name == x {
        var q :| q in ps && f(q) && q.name == x;
        var i :| 0 <= i < |fs| && fs[i] == q;
        assert Names(fs)[i] == x;
      }
    }
    forall i, j | 0 <= i < j < |fs| ensures Names(fs)[i] != Names(fs)[j] {
      FilterNoDups(ps, f) by {
        NoDupsOfNames(ps);
      }
      if fs[i].name == fs[j].name {
        UniqueName(ps, fs[i], fs[j]);
      }
    }
  }

  lemma NoDupsOfNames(ps: seq<Project>)
    requires NoDups(Names(ps))
    ensures NoDups(ps)
  {
    forall i, j | 0 <= i < j < |ps| ensures ps[i] != ps[j] {
      assert Names(ps)[i] != Names(ps)[j];
    }
  }

  /** The nodes the sort sees are exactly the projects that have a dependency or are one. */
  lemma EdgeNodes(ps: seq<Project>, x: string)
    requires NoDups(Names(ps)) && DependenciesKnown(ps)
    ensures Toposort.IsNode(DependencyEdges(ps), x) ==> x in Names(ps)
    ensures x in Names(ps) && !HasNoDependencies(FindByName(ps, x)) ==> Toposort.IsNode(DependencyEdges(ps), x)
  {
    var edges := DependencyEdges(ps);
    if Toposort.IsNode(edges, x) {
      var e :| e in edges && (e.0 == x || e.1 == x);
      var q :| q in ps && q.name == e.1 && e.0 in q.allDependencies;
      assert q.name in Names(ps) by {
        var i :| 0 <= i < |ps| && ps[i] == q;
        assert Names(ps)[i] == q.name;
      }
    }
    if x in Names(ps) && !HasNoDependencies(FindByName(ps, x)) {
      var p := FindByName(ps, x);
      assert (p.allDependencies[0], p.name) in edges;
    }
  }

  /** A project is among the no-dependency names exactly when it has no dependencies. */
  lemma FirstNames(ps: seq<Project>, p: Project)
    requires NoDups(Names(ps)) && p in ps
    ensures p.name in Names(Filter(ps, HasNoDependencies)) <==> HasNoDependencies(p)
  {
    NamesFilterNoDups(ps, HasNoDependencies);
    if p.name in Names(Filter(ps, HasNoDependencies)) {
      var q :| q in ps && HasNoDependencies(q) && q.name == p.name;
      UniqueName(ps, p, q);
    }
  }

  /** The build order of names lists every project exactly once. */
  lemma OrderNamesPermutation(ps: seq<Project>)
    requires NoDups(Names(ps)) && DependenciesKnown(ps)
    ensures OrderNames(ps).Ok? ==>
      && NoDups(OrderNames(ps).value)
      && (forall x :: x in OrderNames(ps).value <==> x in Names(ps))
  {
    var edges := DependencyEdges(ps);
    var first := Names(Filter(ps, HasNoDependencies));
    NamesFilterNoDups(ps, HasNoDependencies);
    match Toposort.Sort(edges)
    case Err(c) =>
    case Ok(sorted) =>
      var rest := Without(first, sorted);
      FilterNoDups(sorted, x => x !in first);
      NoDupsConcat(first, rest);
      forall x ensures x in first + rest <==> x in Names(ps) {
        EdgeNodes(ps, x);
        if x in Names(ps) && x !in first {
          FirstNames(ps, FindByName(ps, x));
        }
      }
  }

  /** In the build order every project comes after each of its dependencies. */
  lemma OrderNamesRespectsDependencies(ps: seq<Project>, p: Project, d: string)
    requires NoDups(Names(ps)) && DependenciesKnown(ps)
    requires p in ps && d in p.allDependencies
    ensures OrderNames(ps).Ok? ==> Before(OrderNames(ps).value, d, p.name)
  {
    var edges := DependencyEdges(ps);
    var first := Names(Filter(ps, HasNoDependencies));
    match Toposort.Sort(edges)
    case Err(c) =>
    case Ok(sorted) =>
      var rest := Without(first, sorted);
      FirstNames(ps, p);
      assert (d, p.name) in edges;
      assert p.name in rest by {
        assert Toposort.IsNode(edges, p.name);
      }
      if d in first {
        BeforeAcross(first, rest, d, p.name);
      } else {
        assert Before(sorted, d, p.name);
        BeforeFilter(sorted, x => x !in first, d, p.name);
        BeforePrepend(first, rest, d, p.name);
      }
  }

  /** The build order of names lists every project once, no-dependency projects first. */
  lemma OrderNamesFacts(ps: seq<Project>)
    requires NoDups(Names(ps)) && DependenciesKnown(ps)
    ensures OrderNames(ps).Err? <==> Toposort.HasCycle(DependencyEdges(ps))
    ensures OrderNames(ps).Err? ==> |OrderNames(ps).error| > 0
    ensures OrderNames(ps).Ok? ==>
      var order := OrderNames(ps).value;
      && NoDups(order)
      && (forall x :: x in order <==> x in Names(ps))
      && order[..|Filter(ps, HasNoDependencies)|] == Names(Filter(ps, HasNoDependencies))
      && forall p, d :: p in ps && d in p.allDependencies ==> Before(order, d, p.name)
  {
    Toposort.SortFailsIffCycle(DependencyEdges(ps));
    OrderNamesPermutation(ps);
    forall p, d | p in ps && d in p.allDependencies ensures OrderNames(ps).Ok? ==> Before(OrderNames(ps).value, d, p.name) {
      OrderNamesRespectsDependencies(ps, p, d);
    }
    if OrderNames(ps).Ok? {
      var first := Names(Filter(ps, HasNoDependencies));
      assert |first| == |Filter(ps, HasNoDependencies)|;
      assert OrderNames(ps).value[..|first|] == first;
    }
  }

  lemma OrderProjectsFacts(ps: seq<Project>, order: seq<string>, r: seq<Project>)
    requires NoDups(Names(ps)) && NoDups(order)
    requires forall x :: x in order <==> x in Names(ps)
    requires |Filter(ps, HasNoDependencies)| <= |order|
    requires order[..|Filter(ps, HasNoDependencies)|] == Names(Filter(ps, HasNoDependencies))
    requires |r| == |order| && forall i :: 0 <= i < |order| ==> r[i] == FindByName(ps, order[i])
    ensures Names(r) == order && NoDups(Names(r))
    ensures multiset(r) == multiset(ps)
    ensures r[..|Filter(ps, HasNoDependencies)|] == Filter(ps, HasNoDependencies)
  {
    assert Names(r) == order;
    forall p ensures p in r <==> p in ps {
      if p in ps {
        FindOwnName(ps, p);
        var i :| 0 <= i < |order| && order[i] == p.name;
        assert r[i] == p;
      }
    }
    NoDupsOfNames(r);
    NoDupsOfNames(ps);
    SameElementsPermutation(r, ps);
    var fs := Filter(ps, HasNoDependencies);
    forall i | 0 <= i < |fs| ensures r[i] == fs[i] {
      assert order[i] == Names(fs)[i] == fs[i].name;
      FindOwnName(ps, fs[i]);
    }
  }

  /**
   * `orderByAllDependencies`: the projects in build order, or the cycle error the sort raises.
   * Projects without dependencies come first, in discovery order; every project comes after each of
   * its dependencies; the result is a permutation of the input.
   */
  function OrderByAllDependencies(ps: seq<Project>): (r: Result<seq<Project>, GraphError>)
    requires NoDups(Names(ps)) && DependenciesKnown(ps)
    ensures r.Err? <==> Toposort.HasCycle(DependencyEdges(ps))
    ensures r.Err? ==> r.error.CyclicDependency? && |r.error.nodes| > 0
    ensures r.Ok? ==> multiset(r.value) == multiset(ps) && NoDups(Names(r.value))
    ensures r.Ok? ==> r.value[..|Filter(ps, HasNoDependencies)|] == Filter(ps, HasNoDependencies)
    ensures r.Ok? ==> forall p, d :: p in r.value && d in p.allDependencies ==> Before(Names(r.value), d, p.name)
  {
    OrderNamesFacts(ps);
    match OrderNames(ps)
    case Err(c) => Err(CyclicDependency(c))
    case Ok(order) =>
      var r := seq(|order|, i requires 0 <= i < |order| => FindByName(ps, order[i]));
      OrderProjectsFacts(ps, order, r);
      assert forall p :: p in r ==> p in ps by {
        assert multiset(r) == multiset(ps);
        forall p | p in r ensures p in ps {
          assert p in multiset(r);
        }
      }
      Ok(r)
  }

  // ---------------------------------------------------------------------------------------------
  // Transitive dependants

  /** A JavaScript value as built by `resolveDependants`: names, nested arrays, or project records. */
  datatype JsValue = JsString(s: string) | JsArray(items: seq<JsValue>) | JsObject(project: Project)

  /** Every project's direct dependants are projects placed after it: the recursion below terminates. */
  ghost predicate DependantsLater(order: seq<Project>) {
    && NoDups(Names(order))
    && forall i, d :: 0 <= i < |order| && d in order[i].dependants ==>
         d in Names(order) && IndexOf(Names(order), d) > i
  }

  /**
   * `resolveDependants(name)`: `[name, ...dependants, ...dependants.map(resolveDependants)]`; the last
   * part is an array per dependant, not flattened.
   */
  function ResolveDependants(order: seq<Project>, name: string): (r: seq<JsValue>)
    requires DependantsLater(order) && name in Names(order)
    ensures forall v :: v in r ==> !v.JsObject?
    decreases |order| - IndexOf(Names(order), name), 1, 0
  {
    var i := IndexOf(Names(order), name);
    var dependant := order[i];
    [JsString(dependant.name)] + Map(dependant.dependants, (n: string) => JsString(n))
      + ResolveEach(order, dependant.dependants, i)
  }

  /** `R.map(resolveDependants, names)` for names placed after index `lo`. */
  function ResolveEach(order: seq<Project>, names: seq<string>, lo: nat): (r: seq<JsValue>)
    requires DependantsLater(order) && lo < |order|
    requires forall n :: n in names ==> n in Names(order) && IndexOf(Names(order), n) > lo
    ensures |r| == |names|
    ensures forall k :: 0 <= k < |names| ==> r[k] == JsArray(ResolveDependants(order, names[k]))
    decreases |order| - lo, 0, |names|
  {
    if |names| == 0 then []
    else [JsArray(ResolveDependants(order, names[0]))] + ResolveEach(order, names[1..], lo)
  }

  /** `R.chain(resolveDependants, names)`: the per-name results concatenated. */
  function ChainResolve(order: seq<Project>, names: seq<string>): (r: seq<JsValue>)
    requires DependantsLater(order) && forall n :: n in names ==> n in Names(order)
    ensures forall v :: v in r ==> !v.JsObject?
  {
    if |names| == 0 then []
    else ResolveDependants(order, names[0]) + ChainResolve(order, names[1..])
  }

  lemma DependantsOfMember(order: seq<Project>, p: Project)
    requires DependantsLater(order) && p in order
    ensures forall n :: n in p.dependants ==> n in Names(order)
  {
  }

  /**
   * `getAllDependants` as written: keeps the projects `cur` of `order` for which
   * `R.find(R.equals(cur), allDependants)` finds something. The collected values are names and arrays,
   * never project records.
   */
  function LiteralAllDependants(p: Project, order: seq<Project>): (r: seq<Project>)
    requires DependantsLater(order) && p in order
  {
    DependantsOfMember(order, p);
    var all := ChainResolve(order, p.dependants);
    Filter(order, (cur: Project) => JsObject(cur) in all)
  }

  /** The comparison at the heart of the as-written filter never succeeds: the result is always empty. */
  lemma LiteralAllDependantsAlwaysEmpty(p: Project, order: seq<Project>)
    requires DependantsLater(order) && p in order
    ensures LiteralAllDependants(p, order) == []
  {
    EmptyIfNoMembers(LiteralAllDependants(p, order));
  }

  /** Every name string occurring in a value, depth first. */
  function Leaves(v: JsValue): seq<string>
    decreases v
  {
    match v
    case JsString(s) => [s]
    case JsArray(items) => LeavesAll(items)
    case JsObject(_) => []
  }

  function LeavesAll(vs: seq<JsValue>): seq<string>
    decreases vs
  {
    if |vs| == 0 then [] else Leaves(vs[0]) + LeavesAll(vs[1..])
  }

  lemma {:induction false} LeavesAllConcat(a: seq<JsValue>, b: seq<JsValue>)
    ensures LeavesAll(a + b) == LeavesAll(a) + LeavesAll(b)
  {
    if |a| > 0 {
      assert (a + b)[1..] == a[1..] + b;
      LeavesAllConcat(a[1..], b);
    } else {
      assert a + b == b;
    }
  }

  lemma {:induction false} LeavesOfNames(names: seq<string>)
    ensures LeavesAll(Map(names, (n: string) => JsString(n))) == names
  {
    if |names| > 0 {
      assert Map(names, (n: string) => JsString(n))[1..] == Map(names[1..], (n: string) => JsString(n));
      LeavesOfNames(names[1..]);
    }
  }

  lemma {:induction false} LeavesAllMember(vs: seq<JsValue>, x: string)
    ensures x in LeavesAll(vs) <==> exists k :: 0 <= k < |vs| && x in Leaves(vs[k])
  {
    if |vs| > 0 {
      LeavesAllMember(vs[1..], x);
      if exists k :: 0 <= k < |vs| && x in Leaves(vs[k]) {
        var k :| 0 <= k < |vs| && x in Leaves(vs[k]);
        if k > 0 {
          assert vs[1..][k - 1] == vs[k];
        }
      }
      if exists k :: 0 <= k < |vs[1..]| && x in Leaves(vs[1..][k]) {
        var k :| 0 <= k < |vs[1..]| && x in Leaves(vs[1..][k]);
        assert vs[k + 1] == vs[1..][k];
      }
    }
  }

  /** `w` follows `dependants` links between the projects of `order`. */
  ghost predicate DependantWalk(order: seq<Project>, w: seq<string>) {
    forall k :: 0 <= k < |w| - 1 ==> w[k] in Names(order) && w[k + 1] in FindByName(order, w[k]).dependants
  }

  /** `x` is `n` or reached from `n` by following `dependants` links. */
  ghost predicate ReachesFrom(order: seq<Project>, n: string, x: string) {
    exists w :: |w| >= 1 && w[0] == n && w[|w| - 1] == x && DependantWalk(order, w)
  }

  /** `x` is reached from `n` by following at least one `dependants` link. */
  ghost predicate ReachesByDependants(order: seq<Project>, n: string, x: string) {
    exists w :: |w| >= 2 && w[0] == n && w[|w| - 1] == x && DependantWalk(order, w)
  }

  lemma WalkPrepend(order: seq<Project>, n: string, w': seq<string>)
    requires n in Names(order) && |w'| >= 1 && w'[0] in FindByName(order, n).dependants
    requires DependantWalk(order, w')
    ensures DependantWalk(order, [n] + w')
  {
    var w := [n] + w';
    forall j | 0 <= j < |w| - 1
      ensures w[j] in Names(order) && w[j + 1] in FindByName(order, w[j]).dependants
    {
      if j > 0 {
        assert w[j] == w'[j - 1] && w[j + 1] == w'[j];
      }
    }
  }

  lemma WalkTail(order: seq<Project>, w: seq<string>)
    requires |w| >= 1 && DependantWalk(order, w)
    ensures DependantWalk(order, w[1..])
  {
    var w' := w[1..];
    forall j | 0 <= j < |w'| - 1
      ensures w'[j] in Names(order) && w'[j + 1] in FindByName(order, w'[j]).dependants
    {
      assert w'[j] == w[j + 1] && w'[j + 1] == w[j + 2];
    }
  }

  /** `resolveDependants(n)` mentions `n`, its direct dependants, and what each of those mentions. */
  lemma ResolveShape(order: seq<Project>, n: string)
    requires DependantsLater(order) && n in Names(order)
    ensures var i := IndexOf(Names(order), n);
      var deps := order[i].dependants;
      var each := ResolveEach(order, deps, i);
      && FindByName(order, n) == order[i]
      && LeavesAll(ResolveDependants(order, n)) == [n] + deps + LeavesAll(each)
      && forall x :: x in LeavesAll(each) <==> exists k :: 0 <= k < |deps| && x in LeavesAll(ResolveDependants(order, deps[k]))
  {
    var i := IndexOf(Names(order), n);
    var deps := order[i].dependants;
    var strings := Map(deps, (m: string) => JsString(m));
    var each := ResolveEach(order, deps, i);
    assert ResolveDependants(order, n) == [JsString(n)] + strings + each;
    LeavesAllConcat([JsString(n)] + strings, each);
    LeavesAllConcat([JsString(n)], strings);
    LeavesOfNames(deps);
    assert LeavesAll([JsString(n)]) == [n];
    forall x ensures x in LeavesAll(each) <==> exists k :: 0 <= k < |deps| && x in LeavesAll(ResolveDependants(order, deps[k])) {
      LeavesAllMember(each, x);
      assert forall k :: 0 <= k < |deps| ==> Leaves(each[k]) == LeavesAll(ResolveDependants(order, deps[k]));
    }
  }

  lemma ResolveMember(order: seq<Project>, n: string, x: string)
    requires DependantsLater(order) && n in Names(order)
    requires x in LeavesAll(ResolveDependants(order, n))
    ensures var deps := FindByName(order, n).dependants;
      x == n || x in deps || exists k :: 0 <= k < |deps| && x in LeavesAll(ResolveDependants(order, deps[k]))
  {
    ResolveShape(order, n);
  }

  lemma {:induction false} ResolveLeavesSound(order: seq<Project>, n: string, x: string)
    requires DependantsLater(order) && n in Names(order)
    requires x in LeavesAll(ResolveDependants(order, n))
    ensures ReachesFrom(order, n, x)
    decreases |order| - IndexOf(Names(order), n)
  {
    var deps := FindByName(order, n).dependants;
    ResolveMember(order, n, x);
    if x == n {
      ReachesWitness(order, n, x, [n]);
    } else if x in deps {
      ReachesDirect(order, n, x);
    } else {
      var k :| 0 <= k < |deps| && x in LeavesAll(ResolveDependants(order, deps[k]));
      DependantLater(order, n, deps[k]);
      ResolveLeavesSound(order, deps[k], x);
      ReachesPrepend(order, n, deps[k], x);
    }
  }

  /** A direct dependant comes later in the order. */
  lemma DependantLater(order: seq<Project>, n: string, d: string)
    requires DependantsLater(order) && n in Names(order) && d in FindByName(order, n).dependants
    ensures d in Names(order) && IndexOf(Names(order), d) > IndexOf(Names(order), n)
  {
    var i := IndexOf(Names(order), n);
    assert Names(order)[i] == order[i].name;
    NoDupsOfNames(order);
    UniqueName(order, FindByName(order, n), order[i]);
  }

  /** A direct dependant is reached by a one-link walk. */
  lemma ReachesDirect(order: seq<Project>, n: string, d: string)
    requires n in Names(order) && d in FindByName(order, n).dependants
    ensures ReachesFrom(order, n, d)
  {
    var w := [n, d];
    assert DependantWalk(order, w);
    ReachesWitness(order, n, d, w);
  }

  lemma ReachesPrepend(order: seq<Project>, n: string, d: string, x: string)
    requires n in Names(order) && d in FindByName(order, n).dependants && ReachesFrom(order, d, x)
    ensures ReachesFrom(order, n, x)
  {
    var w' :| |w'| >= 1 && w'[0] == d && w'[|w'| - 1] == x && DependantWalk(order, w');
    WalkPrepend(order, n, w');
    var w := [n] + w';
    assert w[|w| - 1] == x;
    ReachesWitness(order, n, x, w);
  }

  lemma ReachesWitness(order: seq<Project>, n: string, x: string, w: seq<string>)
    requires |w| >= 1 && w[0] == n && w[|w| - 1] == x && DependantWalk(order, w)
    ensures ReachesFrom(order, n, x)
  {
  }

  lemma {:induction false} ResolveLeavesComplete(order: seq<Project>, n: string, x: string, w: seq<string>)
    requires DependantsLater(order) && n in Names(order)
    requires |w| >= 1 && w[0] == n && w[|w| - 1] == x && DependantWalk(order, w)
    ensures x in LeavesAll(ResolveDependants(order, n))
    decreases |w|
  {
    var i := IndexOf(Names(order), n);
    var deps := order[i].dependants;
    ResolveShape(order, n);
    if |w| > 1 {
      var d := w[1];
      assert d in deps;
      var k :| 0 <= k < |deps| && deps[k] == d;
      WalkTail(order, w);
      ResolveLeavesComplete(order, d, x, w[1..]);
    }
  }

  /** The names mentioned by `resolveDependants(n)` are exactly those reachable from `n`. */
  lemma ResolveLeaves(order: seq<Project>, n: string, x: string)
    requires DependantsLater(order) && n in Names(order)
    ensures x in LeavesAll(ResolveDependants(order, n)) <==> ReachesFrom(order, n, x)
  {
    if x in LeavesAll(ResolveDependants(order, n)) {
      ResolveLeavesSound(order, n, x);
    }
    if ReachesFrom(order, n, x) {
      var w :| |w| >= 1 && w[0] == n && w[|w| - 1] == x && DependantWalk(order, w);
      ResolveLeavesComplete(order, n, x, w);
    }
  }

  lemma {:induction false} ChainLeaves(order: seq<Project>, names: seq<string>, x: string)
    requires DependantsLater(order) && forall n :: n in names ==> n in Names(order)
    ensures x in LeavesAll(ChainResolve(order, names)) <==> exists k :: 0 <= k < |names| && ReachesFrom(order, names[k], x)
  {
    if |names| > 0 {
      LeavesAllConcat(ResolveDependants(order, names[0]), ChainResolve(order, names[1..]));
      ResolveLeaves(order, names[0], x);
      ChainLeaves(order, names[1..], x);
      if exists k :: 0 <= k < |names| && ReachesFrom(order, names[k], x) {
        var k :| 0 <= k < |names| && ReachesFrom(order, names[k], x);
        if k > 0 {
          assert names[1..][k - 1] == names[k];
        }
      }
      if exists k :: 0 <= k < |names[1..]| && ReachesFrom(order, names[1..][k], x) {
        var k :| 0 <= k < |names[1..]| && ReachesFrom(order, names[1..][k], x);
        assert names[k + 1] == names[1..][k];
      }
    }
  }

  /** Reaching `x` through at least one link means reaching it from one of `p`'s direct dependants. */
  lemma ReachesViaDependant(order: seq<Project>, p: Project, x: string)
    requires DependantsLater(order) && p in order
    ensures ReachesByDependants(order, p.name, x) <==>
      exists k :: 0 <= k < |p.dependants| && ReachesFrom(order, p.dependants[k], x)
  {
    FindOwnName(order, p);
    if ReachesByDependants(order, p.name, x) {
      var w :| |w| >= 2 && w[0] == p.name && w[|w| - 1] == x && DependantWalk(order, w);
      WalkTail(order, w);
      assert w[1] in p.dependants;
      var k :| 0 <= k < |p.dependants| && p.dependants[k] == w[1];
      assert ReachesFrom(order, p.dependants[k], x);
    }
    if exists k :: 0 <= k < |p.dependants| && ReachesFrom(order, p.dependants[k], x) {
      var k :| 0 <= k < |p.dependants| && ReachesFrom(order, p.dependants[k], x);
      var w' :| |w'| >= 1 && w'[0] == p.dependants[k] && w'[|w'| - 1] == x && DependantWalk(order, w');
      var w := [p.name] + w';
      WalkPrepend(order, p.name, w');
      assert w[|w| - 1] == x;
    }
  }

  /**
   * `getAllDependants` as evidently intended: the projects of `order` whose name occurs anywhere in the
   * collected dependant names, i.e. every project that transitively depends on `p`, in build order.
   */
  function IntendedAllDependants(p: Project, order: seq<Project>): (r: seq<Project>)
    requires DependantsLater(order) && p in order
    ensures NoDups(r)
    ensures forall x, y :: Before(r, x, y) ==> Before(order, x, y)
    ensures forall x :: x in r <==> x in order && ReachesByDependants(order, p.name, x.name)
  {
    DependantsOfMember(order, p);
    var all := ChainResolve(order, p.dependants);
    var keep := (cur: Project) => cur.name in LeavesAll(all);
    var r := Filter(order, keep);
    NoDupsOfNames(order);
    FilterNoDups(order, keep);
    forall x, y | Before(r, x, y) ensures Before(order, x, y) {
      FilterBefore(order, keep, x, y);
    }
    forall x | x in order ensures keep(x) <==> ReachesByDependants(order, p.name, x.name) {
      ChainLeaves(order, p.dependants, x.name);
      ReachesViaDependant(order, p, x.name);
    }
    r
  }

  // ---------------------------------------------------------------------------------------------
  // The whole construction

  /** Every project's `dependants` are exactly the projects of `ps` that list it among their dependencies. */
  ghost predicate DependantsExact(ps: seq<Project>) {
    forall p, x :: p in ps ==> (x in p.dependants <==> exists q :: q in ps && q.name == x && p.name in q.allDependencies)
  }

  /** The invariants the construction establishes before ordering. */
  ghost predicate WellLinked(ps: seq<Project>) {
    && NoDups(Names(ps))
    && DependenciesKnown(ps)
    && (forall p :: p in ps ==> p.allDependencies == p.dependencies + p.bundledDependencies)
    && DependantsExact(ps)
  }

  /** Sets every project's `allDependants` (the intended reading of the source). */
  function WithAllDependants(order: seq<Project>): (r: seq<Project>)
    requires DependantsLater(order)
    ensures |r| == |order|
    ensures forall i :: 0 <= i < |order| ==> r[i] == order[i].(allDependants := IntendedAllDependants(order[i], order))
  {
    seq(|order|, i requires 0 <= i < |order| => order[i].(allDependants := IntendedAllDependants(order[i], order)))
  }

  lemma ResolvedAt(made: seq<Project>, resolved: seq<Project>, i: nat)
    requires |resolved| == |made| && i < |made|
    requires WithDependencies(made[i], Names(made)) == Ok(resolved[i])
    ensures resolved[i].name == made[i].name
    ensures forall d :: d in resolved[i].allDependencies ==> d in Names(made)
    ensures resolved[i].allDependencies == resolved[i].dependencies + resolved[i].bundledDependencies
  {
  }

  lemma ResolvedFacts(made: seq<Project>, resolved: seq<Project>)
    requires NoDups(Names(made))
    requires ResolveDependencies(made, Names(made)) == Ok(resolved)
    ensures Names(resolved) == Names(made)
    ensures NoDups(Names(resolved)) && DependenciesKnown(resolved)
    ensures forall p :: p in resolved ==> p.allDependencies == p.dependencies + p.bundledDependencies
  {
    forall i | 0 <= i < |made| ensures Names(resolved)[i] == Names(made)[i] {
      ResolvedAt(made, resolved, i);
    }
    assert Names(resolved) == Names(made);
    forall p | p in resolved
      ensures (forall d :: d in p.allDependencies ==> d in Names(resolved))
      ensures p.allDependencies == p.dependencies + p.bundledDependencies
    {
      var i :| 0 <= i < |resolved| && resolved[i] == p;
      ResolvedAt(made, resolved, i);
    }
  }

  /** One project after `WithDependants`: its `dependants` by the linked list itself. */
  lemma LinkedAt(resolved: seq<Project>, linked: seq<Project>, i: nat, x: string)
    requires linked == WithDependants(resolved) && i < |linked|
    ensures x in linked[i].dependants <==> exists q :: q in linked && q.name == x && linked[i].name in q.allDependencies
  {
    var p := linked[i];
    assert p.dependants == Dependants(resolved[i].name, resolved);
    if exists q :: q in linked && q.name == x && p.name in q.allDependencies {
      var q :| q in linked && q.name == x && p.name in q.allDependencies;
      var j :| 0 <= j < |linked| && linked[j] == q;
      assert resolved[j] in resolved;
    }
    if x in p.dependants {
      var q :| q in resolved && q.name == x && p.name in q.allDependencies;
      var j :| 0 <= j < |resolved| && resolved[j] == q;
      assert linked[j] in linked;
    }
  }

  lemma LinkedFacts(resolved: seq<Project>)
    requires NoDups(Names(resolved)) && DependenciesKnown(resolved)
    requires forall p :: p in resolved ==> p.allDependencies == p.dependencies + p.bundledDependencies
    ensures Names(WithDependants(resolved)) == Names(resolved)
    ensures WellLinked(WithDependants(resolved))
  {
    var linked := WithDependants(resolved);
    assert Names(linked) == Names(resolved);
    forall p | p in linked
      ensures (forall d :: d in p.allDependencies ==> d in Names(linked))
      ensures p.allDependencies == p.dependencies + p.bundledDependencies
    {
      var i :| 0 <= i < |linked| && linked[i] == p;
      assert resolved[i] in resolved;
    }
    forall p, x | p in linked
      ensures x in p.dependants <==> exists q :: q in linked && q.name == x && p.name in q.allDependencies
    {
      var i :| 0 <= i < |linked| && linked[i] == p;
      LinkedAt(resolved, linked, i, x);
    }
  }

  /** The invariants only speak about which projects there are, so any permutation keeps them. */
  lemma WellLinkedPermutation(a: seq<Project>, b: seq<Project>)
    requires WellLinked(a) && multiset(a) == multiset(b) && NoDups(Names(b))
    ensures WellLinked(b)
    ensures forall x :: x in Names(b) <==> x in Names(a)
  {
    assert forall p :: p in a <==> p in b by {
      forall p ensures p in a <==> p in b {
        assert p in a <==> p in multiset(a);
      }
    }
    forall x ensures x in Names(b) <==> x in Names(a) {
      if x in Names(b) {
        var i :| 0 <= i < |b| && Names(b)[i] == x;
        assert b[i] in a;
        var j :| 0 <= j < |a| && a[j] == b[i];
        assert Names(a)[j] == x;
      }
      if x in Names(a) {
        var i :| 0 <= i < |a| && Names(a)[i] == x;
        assert a[i] in b;
        var j :| 0 <= j < |b| && b[j] == a[i];
        assert Names(b)[j] == x;
      }
    }
  }

  /** In a dependency-respecting order every project's dependants come later. */
  lemma OrderedDependantsLater(order: seq<Project>)
    requires WellLinked(order)
    requires forall p, d :: p in order && d in p.allDependencies ==> Before(Names(order), d, p.name)
    ensures DependantsLater(order)
  {
    forall i, d | 0 <= i < |order| && d in order[i].dependants
      ensures d in Names(order) && IndexOf(Names(order), d) > i
    {
      var p := order[i];
      var q :| q in order && q.name == d && p.name in q.allDependencies;
      assert Before(Names(order), p.name, q.name);
      BeforeIndex(Names(order), p.name, d);
      assert Names(order)[i] == p.name;
    }
  }

  /** `b` is `a` with only the `allDependants` fields changed. */
  predicate SameLinks(a: seq<Project>, b: seq<Project>) {
    |a| == |b| && forall i :: 0 <= i < |a| ==> b[i] == a[i].(allDependants := b[i].allDependants)
  }

  lemma SameLinksAt(a: seq<Project>, b: seq<Project>, i: nat, x: string)
    requires SameLinks(a, b) && DependantsExact(a) && i < |b|
    ensures x in b[i].dependants <==> exists q :: q in b && q.name == x && b[i].name in q.allDependencies
  {
    assert a[i] in a;
    if exists q :: q in b && q.name == x && b[i].name in q.allDependencies {
      var q :| q in b && q.name == x && b[i].name in q.allDependencies;
      var j :| 0 <= j < |b| && b[j] == q;
      assert a[j] in a;
    }
    if x in b[i].dependants {
      var q :| q in a && q.name == x && a[i].name in q.allDependencies;
      var j :| 0 <= j < |a| && a[j] == q;
      assert b[j] in b;
    }
  }

  lemma SameLinksEdge(a: seq<Project>, b: seq<Project>, e: Toposort.Edge)
    requires SameLinks(a, b)
    ensures e in DependencyEdges(b) <==> e in DependencyEdges(a)
  {
    if e in DependencyEdges(b) {
      var q :| q in b && q.name == e.1 && e.0 in q.allDependencies;
      var j :| 0 <= j < |b| && b[j] == q;
      assert a[j] in a;
    }
    if e in DependencyEdges(a) {
      var q :| q in a && q.name == e.1 && e.0 in q.allDependencies;
      var j :| 0 <= j < |a| && a[j] == q;
      assert b[j] in b;
    }
  }

  /** Changing only `allDependants` keeps names, dependencies and dependants. */
  lemma SameLinksFacts(a: seq<Project>, b: seq<Project>)
    requires SameLinks(a, b) && WellLinked(a)
    ensures Names(b) == Names(a)
    ensures WellLinked(b)
    ensures forall e :: e in DependencyEdges(b) <==> e in DependencyEdges(a)
  {
    assert Names(b) == Names(a);
    forall p | p in b
      ensures (forall d :: d in p.allDependencies ==> d in Names(b))
      ensures p.allDependencies == p.dependencies + p.bundledDependencies
    {
      var i :| 0 <= i < |b| && b[i] == p;
      assert a[i] in a;
    }
    forall p, x | p in b
      ensures x in p.dependants <==> exists q :: q in b && q.name == x && p.name in q.allDependencies
    {
      var i :| 0 <= i < |b| && b[i] == p;
      SameLinksAt(a, b, i, x);
    }
    forall e ensures e in DependencyEdges(b) <==> e in DependencyEdges(a) {
      SameLinksEdge(a, b, e);
    }
  }

  /** `x` transitively depends on `p`: a chain of dependency edges leads from `p` to `x`. */
  ghost predicate DependsOn(ps: seq<Project>, x: string, p: string) {
    exists w :: |w| >= 2 && w[0] == p && w[|w| - 1] == x && DependencyWalk(ps, w)
  }

  ghost predicate DependencyWalk(ps: seq<Project>, w: seq<string>) {
    forall k :: 0 <= k < |w| - 1 ==> (w[k], w[k + 1]) in DependencyEdges(ps)
  }

  /** In a well-linked graph, one `dependants` link is one dependency edge. */
  lemma DependantStep(order: seq<Project>, a: string, b: string)
    requires WellLinked(order)
    ensures (a in Names(order) && b in FindByName(order, a).dependants) <==> (a, b) in DependencyEdges(order)
  {
    if a in Names(order) && b in FindByName(order, a).dependants {
      var p := FindByName(order, a);
      var q :| q in order && q.name == b && p.name in q.allDependencies;
      assert (a, b).1 == q.name && (a, b).0 in q.allDependencies;
    }
    if (a, b) in DependencyEdges(order) {
      var q :| q in order && q.name == b && a in q.allDependencies;
      assert a in Names(order);
      var p := FindByName(order, a);
      assert exists q :: q in order && q.name == b && p.name in q.allDependencies;
    }
  }

  /** In a well-linked graph, following `dependants` is following dependency edges. */
  lemma DependantWalkIsDependencyWalk(order: seq<Project>, w: seq<string>)
    requires WellLinked(order)
    ensures DependantWalk(order, w) <==> DependencyWalk(order, w)
  {
    if DependantWalk(order, w) {
      forall k | 0 <= k < |w| - 1 ensures (w[k], w[k + 1]) in DependencyEdges(order) {
        DependantStep(order, w[k], w[k + 1]);
      }
    }
    if DependencyWalk(order, w) {
      forall k | 0 <= k < |w| - 1 ensures w[k] in Names(order) && w[k + 1] in FindByName(order, w[k]).dependants {
        DependantStep(order, w[k], w[k + 1]);
      }
    }
  }

  /** The intended `allDependants` of a well-linked, ordered graph, by name. */
  lemma AllDependantsByName(order: seq<Project>, p: Project, x: string)
    requires DependantsLater(order) && WellLinked(order) && p in order
    ensures x in Names(IntendedAllDependants(p, order)) <==> x in Names(order) && DependsOn(order, x, p.name)
  {
    if x in Names(IntendedAllDependants(p, order)) {
      AllDependantsOnlyDependants(order, p, x);
    }
    if x in Names(order) && DependsOn(order, x, p.name) {
      AllDependantsEveryDependant(order, p, x);
    }
  }

  lemma AllDependantsOnlyDependants(order: seq<Project>, p: Project, x: string)
    requires DependantsLater(order) && WellLinked(order) && p in order
    requires x in Names(IntendedAllDependants(p, order))
    ensures x in Names(order) && DependsOn(order, x, p.name)
  {
    var r := IntendedAllDependants(p, order);
    var i :| 0 <= i < |r| && Names(r)[i] == x;
    assert r[i] in order && ReachesByDependants(order, p.name, x);
    var w :| |w| >= 2 && w[0] == p.name && w[|w| - 1] == x && DependantWalk(order, w);
    DependantWalkIsDependencyWalk(order, w);
    var j :| 0 <= j < |order| && order[j] == r[i];
    assert Names(order)[j] == x;
  }

  lemma AllDependantsEveryDependant(order: seq<Project>, p: Project, x: string)
    requires DependantsLater(order) && WellLinked(order) && p in order
    requires x in Names(order) && DependsOn(order, x, p.name)
    ensures x in Names(IntendedAllDependants(p, order))
  {
    var r := IntendedAllDependants(p, order);
    var w :| |w| >= 2 && w[0] == p.name && w[|w| - 1] == x && DependencyWalk(order, w);
    DependantWalkIsDependencyWalk(order, w);
    var q := FindByName(order, x);
    assert q in r;
    var i :| 0 <= i < |r| && r[i] == q;
    assert Names(r)[i] == x;
  }

  /** The intended `allDependants`, stated by name. */
  lemma IntendedByName(order: seq<Project>, p: Project)
    requires DependantsLater(order) && WellLinked(order) && p in order
    ensures var r := IntendedAllDependants(p, order);
      && NoDups(Names(r))
      && (forall x :: x in Names(r) <==> x in Names(order) && DependsOn(order, x, p.name))
      && (forall x, y :: Before(Names(r), x, y) ==> Before(Names(order), x, y))
  {
    var r := IntendedAllDependants(p, order);
    forall x ensures x in Names(r) <==> x in Names(order) && DependsOn(order, x, p.name) {
      AllDependantsByName(order, p, x);
    }
    forall a, b | 0 <= a < b < |r| ensures Names(r)[a] != Names(r)[b] {
      if r[a].name == r[b].name {
        UniqueName(order, r[a], r[b]);
      }
    }
    forall x, y | Before(Names(r), x, y) ensures Before(Names(order), x, y) {
      var a, b :| 0 <= a < b < |Names(r)| && Names(r)[a] == x && Names(r)[b] == y;
      assert Before(r, r[a], r[b]);
      NamesBefore(order, r[a], r[b]);
    }
  }

  /** `Before` on projects carries over to their names. */
  lemma NamesBefore(ps: seq<Project>, a: Project, b: Project)
    requires Before(ps, a, b)
    ensures Before(Names(ps), a.name, b.name)
  {
    var i, j :| 0 <= i < j < |ps| && ps[i] == a && ps[j] == b;
    assert Names(ps)[i] == a.name && Names(ps)[j] == b.name;
  }

  /** `DependsOn` only looks at the dependency edges. */
  lemma DependsOnSameEdges(a: seq<Project>, b: seq<Project>, x: string, y: string)
    requires forall e :: e in DependencyEdges(a) <==> e in DependencyEdges(b)
    ensures DependsOn(a, x, y) <==> DependsOn(b, x, y)
  {
    if DependsOn(a, x, y) {
      var w :| |w| >= 2 && w[0] == y && w[|w| - 1] == x && DependencyWalk(a, w);
      assert DependencyWalk(b, w);
    }
    if DependsOn(b, x, y) {
      var w :| |w| >= 2 && w[0] == y && w[|w| - 1] == x && DependencyWalk(b, w);
      assert DependencyWalk(a, w);
    }
  }

  /** A dependency cycle is a project that transitively depends on itself. */
  lemma CycleIsSelfDependence(ps: seq<Project>)
    ensures Toposort.HasCycle(DependencyEdges(ps)) <==> exists x :: DependsOn(ps, x, x)
  {
    if Toposort.HasCycle(DependencyEdges(ps)) {
      var w :| Toposort.IsCycle(DependencyEdges(ps), w);
      assert DependsOn(ps, w[0], w[0]);
    }
    if exists x :: DependsOn(ps, x, x) {
      var x :| DependsOn(ps, x, x);
      var w :| |w| >= 2 && w[0] == x && w[|w| - 1] == x && DependencyWalk(ps, w);
      assert Toposort.IsCycle(DependencyEdges(ps), w);
    }
  }

  /** `WithDependants` does not change the dependency edges. */
  lemma LinkedEdge(resolved: seq<Project>, e: Toposort.Edge)
    ensures e in DependencyEdges(WithDependants(resolved)) <==> e in DependencyEdges(resolved)
  {
    var linked := WithDependants(resolved);
    if e in DependencyEdges(linked) {
      var q :| q in linked && q.name == e.1 && e.0 in q.allDependencies;
      var j :| 0 <= j < |linked| && linked[j] == q;
      assert resolved[j] in resolved;
    }
    if e in DependencyEdges(resolved) {
      var q :| q in resolved && q.name == e.1 && e.0 in q.allDependencies;
      var j :| 0 <= j < |resolved| && resolved[j] == q;
      assert linked[j] in linked;
    }
  }

  // ---------------------------------------------------------------------------------------------
  // Properties of the finished graph

  /** The names are a permutation of the project directories. */
  ghost predicate NamesPermute(dirs: seq<string>, g: seq<Project>) {
    multiset(Names(g)) == multiset(dirs)
  }

  /** Every project comes after each of its dependencies: building in order is safe. */
  ghost predicate RespectsDependencies(g: seq<Project>) {
    forall p, d :: p in g && d in p.allDependencies ==> Before(Names(g), d, p.name)
  }

  /** Projects without dependencies come first, in directory order. */
  ghost predicate IndependentFirst(dirs: seq<string>, g: seq<Project>) {
    && (forall i, j :: 0 <= i < j < |g| && HasNoDependencies(g[j]) ==> HasNoDependencies(g[i]))
    && (forall i, j :: 0 <= i < j < |g| && HasNoDependencies(g[j]) ==> Before(dirs, g[i].name, g[j].name))
  }

  /** Every project's `allDependants` are exactly its transitive dependants, once each, in build order. */
  ghost predicate AllDependantsReach(g: seq<Project>) {
    forall p :: p in g ==> ReachedBy(g, p)
  }

  /** `p.allDependants` lists, once each and in graph order, exactly the projects of `g` that depend on `p`. */
  ghost predicate ReachedBy(g: seq<Project>, p: Project) {
    && NoDups(Names(p.allDependants))
    && (forall x :: x in Names(p.allDependants) <==> x in Names(g) && DependsOn(g, x, p.name))
    && (forall x, y :: Before(Names(p.allDependants), x, y) ==> Before(Names(g), x, y))
  }

  ghost predicate GraphFacts(dirs: seq<string>, g: seq<Project>) {
    && NamesPermute(dirs, g)
    && WellLinked(g)
    && RespectsDependencies(g)
    && IndependentFirst(dirs, g)
    && AllDependantsReach(g)
  }

  lemma FinalNames(dirs: seq<string>, linked: seq<Project>, ordered: seq<Project>, g: seq<Project>)
    requires NoDups(dirs) && Names(linked) == dirs && WellLinked(linked)
    requires multiset(ordered) == multiset(linked) && NoDups(Names(ordered)) && Names(g) == Names(ordered)
    ensures NamesPermute(dirs, g) && WellLinked(ordered)
  {
    WellLinkedPermutation(linked, ordered);
    SameElementsPermutation(Names(g), dirs);
  }

  lemma FinalRespects(ordered: seq<Project>, g: seq<Project>)
    requires SameLinks(ordered, g) && Names(g) == Names(ordered)
    requires forall p, d :: p in ordered && d in p.allDependencies ==> Before(Names(ordered), d, p.name)
    ensures RespectsDependencies(g)
  {
    forall p, d | p in g && d in p.allDependencies ensures Before(Names(g), d, p.name) {
      var i :| 0 <= i < |g| && g[i] == p;
      assert ordered[i] in ordered;
    }
  }

  lemma FinalIndependentFirst(dirs: seq<string>, linked: seq<Project>, ordered: seq<Project>, g: seq<Project>)
    requires Names(linked) == dirs && NoDups(Names(ordered)) && multiset(ordered) == multiset(linked)
    requires |Filter(linked, HasNoDependencies)| <= |ordered|
    requires ordered[..|Filter(linked, HasNoDependencies)|] == Filter(linked, HasNoDependencies)
    requires SameLinks(ordered, g)
    ensures IndependentFirst(dirs, g)
  {
    var fs := Filter(linked, HasNoDependencies);
    var k := |fs|;
    NoDupsOfNames(ordered);
    forall j | 0 <= j < |g| && HasNoDependencies(g[j]) ensures j < k {
      assert HasNoDependencies(ordered[j]);
      assert ordered[j] in multiset(linked);
      assert ordered[j] in fs;
      var m :| 0 <= m < k && fs[m] == ordered[j];
      assert ordered[m] == ordered[j];
    }
    forall i, j | 0 <= i < j < |g| && HasNoDependencies(g[j])
      ensures HasNoDependencies(g[i]) && Before(dirs, g[i].name, g[j].name)
    {
      assert ordered[i] == fs[i] && ordered[j] == fs[j];
      assert fs[i] in fs;
      assert Before(fs, fs[i], fs[j]);
      FilterBefore(linked, HasNoDependencies, fs[i], fs[j]);
      NamesBefore(linked, fs[i], fs[j]);
    }
  }

  lemma FinalAllDependants(ordered: seq<Project>, g: seq<Project>)
    requires DependantsLater(ordered) && WellLinked(ordered)
    requires g == WithAllDependants(ordered)
    ensures AllDependantsReach(g)
  {
    forall p | p in g ensures ReachedBy(g, p) {
      var i :| 0 <= i < |g| && g[i] == p;
      FinalAllDependantsAt(ordered, g, i);
    }
  }

  lemma FinalAllDependantsAt(ordered: seq<Project>, g: seq<Project>, i: nat)
    requires DependantsLater(ordered) && WellLinked(ordered)
    requires g == WithAllDependants(ordered) && i < |g|
    ensures ReachedBy(g, g[i])
  {
    SameLinksFacts(ordered, g);
    IntendedByName(ordered, ordered[i]);
    forall x ensures DependsOn(g, x, g[i].name) <==> DependsOn(ordered, x, g[i].name) {
      DependsOnSameEdges(g, ordered, x, g[i].name);
    }
  }

  /**
   * The pipeline of `getAllProjects` after discovery: dependencies (unknown names dropped), direct
   * dependants, build order, transitive dependants. The source's third stage recomputes
   * `allDependencies` from the same two lists; `WellLinked` states that it changes nothing.
   */
  function Link(made: seq<Project>): (r: Result<seq<Project>, GraphError>)
    requires NoDups(Names(made))
    ensures (exists p :: p in made && !ListsWellFormed(p)) ==> r.Err? && r.error.DependencyListMalformed?
    ensures ResolveDependencies(made, Names(made)).Ok? ==>
      (r.Err? <==> exists x :: DependsOn(ResolveDependencies(made, Names(made)).value, x, x))
    ensures r.Ok? ==> GraphFacts(Names(made), r.value)
    ensures r.Ok? ==> forall p :: p in r.value ==> exists q :: q in made && SameDiscovery(p, q)
    ensures r.Ok? ==> forall p :: p in r.value ==> DeclaredLinks(p, Names(made))
  {
    match ResolveDependencies(made, Names(made))
    case Err(e) => Err(e)
    case Ok(resolved) =>
      LinkResolved(made, resolved);
      var linked := WithDependants(resolved);
      match OrderByAllDependencies(linked)
      case Err(e) => Err(e)
      case Ok(ordered) =>
        LinkOrdered(made, resolved, ordered);
        Ok(WithAllDependants(ordered))
  }

  /** The graph after dependencies and direct dependants: well linked, with the same cycles. */
  lemma LinkResolved(made: seq<Project>, resolved: seq<Project>)
    requires NoDups(Names(made)) && ResolveDependencies(made, Names(made)) == Ok(resolved)
    ensures Names(WithDependants(resolved)) == Names(made) && WellLinked(WithDependants(resolved))
    ensures Toposort.HasCycle(DependencyEdges(WithDependants(resolved))) <==> exists x :: DependsOn(resolved, x, x)
  {
    ResolvedFacts(made, resolved);
    LinkedFacts(resolved);
    var linked := WithDependants(resolved);
    CycleIsSelfDependence(linked);
    forall e ensures e in DependencyEdges(linked) <==> e in DependencyEdges(resolved) {
      LinkedEdge(resolved, e);
    }
    forall x ensures DependsOn(linked, x, x) <==> DependsOn(resolved, x, x) {
      DependsOnSameEdges(linked, resolved, x, x);
    }
  }

  /** The finished graph: everything `GraphFacts` promises, and discovery data untouched. */
  lemma LinkOrdered(made: seq<Project>, resolved: seq<Project>, ordered: seq<Project>)
    requires NoDups(Names(made)) && ResolveDependencies(made, Names(made)) == Ok(resolved)
    requires Names(WithDependants(resolved)) == Names(made) && WellLinked(WithDependants(resolved))
    requires OrderByAllDependencies(WithDependants(resolved)) == Ok(ordered)
    ensures DependantsLater(ordered)
    ensures GraphFacts(Names(made), WithAllDependants(ordered))
    ensures forall p :: p in WithAllDependants(ordered) ==> exists q :: q in made && SameDiscovery(p, q)
    ensures forall p :: p in WithAllDependants(ordered) ==> DeclaredLinks(p, Names(made))
  {
    var linked := WithDependants(resolved);
    FinalNames(Names(made), linked, ordered, ordered);
    OrderedDependantsLater(ordered);
    var g := WithAllDependants(ordered);
    assert SameLinks(ordered, g);
    SameLinksFacts(ordered, g);
    FinalNames(Names(made), linked, ordered, g);
    FinalRespects(ordered, g);
    FinalIndependentFirst(Names(made), linked, ordered, g);
    FinalAllDependants(ordered, g);
    LinkKeepsDiscovery(made, resolved, ordered, g);
  }

  /** The part of a project that discovery fixes: the later stages leave it alone. */
  predicate SameDiscovery(p: Project, q: Project) {
    && p.name == q.name && p.packageName == q.packageName && p.config == q.config
    && p.compiler == q.compiler && p.paths == q.paths
  }

  /**
   * The edges a project keeps are the ones it declares: its `dependencies` and `bundledDependencies`
   * are its configured lists, in order, restricted to the `known` project names.
   */
  predicate DeclaredLinks(p: Project, known: seq<string>) {
    && ListsWellFormed(p)
    && p.dependencies == GetDependencies(DeclaredList(p, "dependencies").value, known)
    && p.bundledDependencies == GetDependencies(DeclaredList(p, "bundledDependencies").value, known)
  }

  lemma LinkKeepsDiscovery(made: seq<Project>, resolved: seq<Project>, ordered: seq<Project>, g: seq<Project>)
    requires ResolveDependencies(made, Names(made)) == Ok(resolved)
    requires multiset(ordered) == multiset(WithDependants(resolved)) && SameLinks(ordered, g)
    ensures forall p :: p in g ==> exists q :: q in made && SameDiscovery(p, q)
    ensures forall p :: p in g ==> DeclaredLinks(p, Names(made))
  {
    var linked := WithDependants(resolved);
    forall p | p in g ensures (exists q :: q in made && SameDiscovery(p, q)) && DeclaredLinks(p, Names(made)) {
      var i :| 0 <= i < |g| && g[i] == p;
      assert ordered[i] in multiset(linked);
      var j :| 0 <= j < |linked| && linked[j] == ordered[i];
      assert WithDependencies(made[j], Names(made)) == Ok(resolved[j]);
      assert made[j] in made && SameDiscovery(p, made[j]);
    }
  }

  /**
   * `getAllProjects` without its cache: list `./projects`, keep the directories, turn each into a
   * project, then link them. The compiler cache is threaded through.
   */
  function BuildGraph(env: Env, cache: CompilerCache): (r: (Result<seq<Project>, GraphError>, CompilerCache))
    requires NoDups(ProjectDirectories(env.entries))
    ensures (exists n :: n in ProjectDirectories(env.entries) && n !in env.manifests) ==> r.0.Err?
    ensures r.0.Ok? ==> GraphFacts(ProjectDirectories(env.entries), r.0.value)
    ensures r.0.Ok? ==> forall p :: p in r.0.value ==> ToProjectFacts(env, p) && CompilerCached(r.1, p)
    ensures r.0.Ok? ==> forall p :: p in r.0.value ==> DeclaredLinks(p, ProjectDirectories(env.entries))
    ensures (exists n :: n in ProjectDirectories(env.entries) && !CompilerAvailable(env, cache, n)) ==> r.0.Err?
    ensures CacheExtends(cache, r.1, env.installed)
    ensures var made := ToProjects(env, cache, ProjectDirectories(env.entries));
      && r.1 == made.1
      && (made.0.Err? ==> r.0 == Err(made.0.error))
      && (made.0.Ok? ==> r.0 == Link(made.0.value))
  {
    var dirs := ProjectDirectories(env.entries);
    var (made, cache') := ToProjects(env, cache, dirs);
    ToProjectsSucceeds(env, cache, dirs);
    if made.Err? then (Err(made.error), cache')
    else
      var linked := Link(made.value);
      if linked.Ok? then
        DiscoveryCarriesOver(env, cache', made.value, linked.value);
        (linked, cache')
      else (linked, cache')
  }

  /** The discovered projects link: every dependency list is well formed and no project depends on itself. */
  ghost predicate Linkable(made: Result<seq<Project>, GraphError>) {
    && made.Ok?
    && (forall p :: p in made.value ==> ListsWellFormed(p))
    && !exists x :: DependsOn(ResolveDependencies(made.value, Names(made.value)).value, x, x)
  }

  /**
   * The graph is built exactly when every project directory has a readable manifest and an available
   * compiler, every dependency list is a list, and the dependencies have no cycle.
   */
  lemma BuildGraphSucceeds(env: Env, cache: CompilerCache)
    requires NoDups(ProjectDirectories(env.entries))
    ensures var dirs := ProjectDirectories(env.entries);
      BuildGraph(env, cache).0.Ok? <==>
        && (forall n :: n in dirs ==> n in env.manifests && CompilerAvailable(env, cache, n))
        && Linkable(ToProjects(env, cache, dirs).0)
  {
    ToProjectsSucceeds(env, cache, ProjectDirectories(env.entries));
  }

  /** Discovery data established by `ToProject`, the compiler included, survives linking. */
  lemma DiscoveryCarriesOver(env: Env, cache: CompilerCache, made: seq<Project>, g: seq<Project>)
    requires forall q :: q in made ==> ToProjectFacts(env, q) && CompilerCached(cache, q)
    requires forall p :: p in g ==> exists q :: q in made && SameDiscovery(p, q)
    ensures forall p :: p in g ==> ToProjectFacts(env, p) && CompilerCached(cache, p)
  {
    forall p | p in g ensures ToProjectFacts(env, p) && CompilerCached(cache, p) {
      var q :| q in made && SameDiscovery(p, q);
    }
  }

  // ---------------------------------------------------------------------------------------------
  // The cache and the object map

  /** The module-level `cache` of `getAllProjects` and the compiler plugin cache. */
  datatype Context = Context(graph: Option<seq<Project>>, compilers: CompilerCache)

  /**
   * `getAllProjects`: a cached graph is returned as it is, whatever the environment now holds; otherwise
   * the graph is built and, only when that succeeds, cached.
   */
  function GetAllProjects(env: Env, ctx: Context): (r: (Result<seq<Project>, GraphError>, Context))
    requires ctx.graph.None? ==> NoDups(ProjectDirectories(env.entries))
    ensures ctx.graph.Some? ==> r == (Ok(ctx.graph.value), ctx)
    ensures r.0.Ok? <==> r.1.graph.Some?
    ensures r.0.Ok? ==> r.1.graph == Some(r.0.value)
    ensures ctx.graph.None? && r.0.Ok? ==> GraphFacts(ProjectDirectories(env.entries), r.0.value)
    ensures ctx.graph.None? && r.0.Ok? ==> forall p :: p in r.0.value ==> CompilerCached(r.1.compilers, p)
    ensures ctx.graph.None? && r.0.Ok? ==> forall p :: p in r.0.value ==> DeclaredLinks(p, ProjectDirectories(env.entries))
    ensures CacheExtends(ctx.compilers, r.1.compilers, env.installed)
    ensures ctx.graph.None? ==> r.0 == BuildGraph(env, ctx.compilers).0 && r.1.compilers == BuildGraph(env, ctx.compilers).1
  {
    match ctx.graph
    case Some(g) => (Ok(g), ctx)
    case None =>
      var (result, compilers) := BuildGraph(env, ctx.compilers);
      match result
      case Ok(g) => (Ok(g), Context(Some(g), compilers))
      case Err(e) => (Err(e), Context(None, compilers))
  }

  /** Once a graph has been built, every later call returns it unchanged. */
  lemma GetAllProjectsIdempotent(env: Env, later: Env, ctx: Context)
    requires ctx.graph.None? ==> NoDups(ProjectDirectories(env.entries))
    requires GetAllProjects(env, ctx).0.Ok?
    ensures GetAllProjects(later, GetAllProjects(env, ctx).1) == GetAllProjects(env, ctx)
  {
  }

  /** The final `R.reduce` into an object keyed by name; with equal names the later project wins. */
  function ProjectMap(g: seq<Project>): (m: map<string, Project>)
    ensures forall x :: x in m <==> x in Names(g)
    ensures forall x :: x in m ==> m[x] in g && m[x].name == x
    decreases |g|
  {
    if |g| == 0 then map[]
    else
      var init := g[..|g| - 1];
      assert Names(init) == Names(g)[..|g| - 1];
      var m := ProjectMap(init);
      m[g[|g| - 1].name := g[|g| - 1]]
  }

  /** With distinct names every project is found under its own name. */
  lemma {:induction false} ProjectMapFinds(g: seq<Project>, p: Project)
    requires NoDups(Names(g)) && p in g
    ensures p.name in ProjectMap(g) && ProjectMap(g)[p.name] == p
  {
    var m := ProjectMap(g);
    assert m[p.name] in g && m[p.name].name == p.name;
    UniqueName(g, m[p.name], p);
  }

  // ---------------------------------------------------------------------------------------------
  // The `allDependants` comparison, on two projects

  /** `a` with no dependencies and `b` depending on `a`, as they stand after ordering. */
  function PairA(): Project {
    Project("a", Some("a"), map[], None, PathsOf("a", false), [], [], [], ["b"], [])
  }

  function PairB(): Project {
    Project("b", Some("b"), map[], None, PathsOf("b", false), ["a"], [], ["a"], [], [])
  }

  /** The pair is a valid ordering: `b`, the only dependant, comes after `a`. */
  lemma PairDependantsLater()
    ensures DependantsLater([PairA(), PairB()])
  {
    var order := [PairA(), PairB()];
    assert Names(order) == ["a", "b"];
    assert IndexOf(Names(order), "b") == 1;
  }

  /** `b` is reached from `a` by one `dependants` link. */
  lemma PairReaches()
    ensures DependantsLater([PairA(), PairB()])
    ensures ReachesByDependants([PairA(), PairB()], "a", "b")
  {
    PairDependantsLater();
    var order := [PairA(), PairB()];
    assert Names(order) == ["a", "b"];
    assert FindByName(order, "a") == PairA();
    var w := ["a", "b"];
    assert DependantWalk(order, w);
  }

  /** As written, `a` gets no transitive dependants; as intended it gets `b`. */
  lemma AllDependantsDiscrepancy()
    ensures DependantsLater([PairA(), PairB()])
    ensures LiteralAllDependants(PairA(), [PairA(), PairB()]) == []
    ensures PairB() in IntendedAllDependants(PairA(), [PairA(), PairB()])
  {
    PairReaches();
    LiteralAllDependantsAlwaysEmpty(PairA(), [PairA(), PairB()]);
  }
}

=== FILE: project_paths.dfy ===
/**
 * The file-system locations of a project (`toProject` in
 * projects/constellate-dev-utils/modules/projects/getAllProjects.js). A path is the list of its segments
 * relative to the application's working directory; `path.resolve` is not modelled beyond that.
 */
module ProjectPaths {

  type Path = seq<string>

  datatype Paths = Paths(
    root: Path,
    packageJson: Path,
    packageLockJson: Path,
    nodeModules: Path,
    modules: Path,
    modulesEntry: Path,
    webpackCache: Path,
    buildRoot: Path,
    buildPackageJson: Path,
    buildModules: Path,
    buildModulesEntry: Path,
    buildNodeModules: Path)

  /** `./projects/<name>`: where the project's sources live. */
  function SourceRoot(name: string): Path {
    ["projects", name]
  }

  /** `./build/<name>`: where a compiled project is written. */
  function BuildRoot(name: string): Path {
    ["build", name]
  }

  predicate Under(p: Path, dir: Path) {
    |dir| <= |p| && p[..|dir|] == dir
  }

  /** The paths of project `name`; `hasCompiler` says whether a compiler plugin was resolved. */
  function PathsOf(name: string, hasCompiler: bool): (r: Paths)
    ensures r.root == SourceRoot(name)
    ensures Under(r.packageJson, r.root) && Under(r.packageLockJson, r.root) && Under(r.nodeModules, r.root)
    ensures Under(r.modules, r.root) && Under(r.modulesEntry, r.modules)
    ensures Under(r.webpackCache, BuildRoot(name))
    // without a compiler, every build path is its source counterpart
    ensures !hasCompiler ==>
      && r.buildRoot == r.root && r.buildPackageJson == r.packageJson && r.buildModules == r.modules
      && r.buildModulesEntry == r.modulesEntry && r.buildNodeModules == r.nodeModules
    // with a compiler, every build path mirrors its source counterpart under build/<name>
    ensures hasCompiler ==>
      && r.buildRoot == BuildRoot(name)
      && r.buildPackageJson == BuildRoot(name) + r.packageJson[|SourceRoot(name)|..]
      && r.buildModules == BuildRoot(name) + r.modules[|SourceRoot(name)|..]
      && r.buildModulesEntry == BuildRoot(name) + r.modulesEntry[|SourceRoot(name)|..]
      && r.buildNodeModules == BuildRoot(name) + r.nodeModules[|SourceRoot(name)|..]
  {
    var src := SourceRoot(name);
    var build := BuildRoot(name);
    var root := src;
    var packageJson := src + ["package.json"];
    var nodeModules := src + ["node_modules"];
    var modules := src + ["modules"];
    var modulesEntry := src + ["modules", "index.js"];
    Paths(
      root,
      packageJson,
      src + ["package-lock.json"],
      nodeModules,
      modules,
      modulesEntry,
      build + [".webpackcache"],
      if hasCompiler then build else root,
      if hasCompiler then build + ["package.json"] else packageJson,
      if hasCompiler then build + ["modules"] else modules,
      if hasCompiler then build + ["modules", "index.js"] else modulesEntry,
      if hasCompiler then build + ["node_modules"] else nodeModules)
  }
}

=== FILE: publish.dfy ===
/**
 * The publish pipeline (packages/constellate/scripts/publish/index.js): precondition checks, branch
 * checkout, the version prompt, change-set selection, the version map and the strictly sequential
 * build, publish, tag and push chain. Git queries, `semver.clean`, `changedSince`, `getLastVersion`,
 * the prompt and the success of each external step are oracle inputs; the result is an outcome and
 * the trace of effects attempted.
 */
module Publish {
  import opened Results
  import opened Seqs

  /** Everything the pipeline learns from git, npm, the configuration and the user. */
  datatype Oracle = Oracle(
    isInitialized: bool,
    lastVersionTag: Option<string>,
    cleanedTag: Option<string>,
    uncommitted: set<string>,
    configBranch: Option<string>,
    configRemote: Option<string>,
    currentBranch: string,
    checkoutOk: bool,
    nextVersion: Option<string>,
    changedSince: set<string>,
    lastVersions: map<string, string>,
    stepOk: Effect -> bool)

  /** An external action the pipeline performs, in the order it performs them. */
  datatype Effect =
    | Checkout(branch: string)
    | AskVersion(last: Option<string>)
    | Build(project: string, versions: map<string, string>)
    | PublishToNpm(project: string)
    | Tag(tag: string)
    | Push(remote: string, tags: seq<string>)

  datatype AbortReason = NotInitialized | UncommittedChanges(projects: seq<string>)

  datatype Outcome =
    | Abort(reason: AbortReason)
    | PromptFailed
    | NothingToPublish
    | Done
    | Failed(step: Effect)

  const FirstVersion: string := "0.0.0"

  /** A JavaScript string is truthy when it is not empty. */
  predicate Truthy(s: Option<string>) {
    s.Some? && s.value != ""
  }

  /** `x || fallback` on a configured string. */
  function OrDefault(s: Option<string>, fallback: string): (r: string)
    ensures Truthy(s) ==> r == s.value
    ensures !Truthy(s) ==> r == fallback
  {
    if Truthy(s) then s.value else fallback
  }

  /** `lastVersion`: the cleaned tag when there is one (possibly `null`), otherwise `0.0.0`. */
  function LastVersion(o: Oracle): (r: Option<string>)
    ensures Truthy(o.lastVersionTag) ==> r == o.cleanedTag
    ensures !Truthy(o.lastVersionTag) ==> r == Some(FirstVersion)
  {
    if Truthy(o.lastVersionTag) then o.cleanedTag else Some(FirstVersion)
  }

  function TargetBranch(o: Oracle): string {
    OrDefault(o.configBranch, "master")
  }

  function TargetRemote(o: Oracle): string {
    OrDefault(o.configRemote, "origin")
  }

  /**
   * `toPublish`: on a first publish every project; otherwise the requested projects that changed
   * since the last tag, in the requested order.
   */
  function ToPublish(last: Option<string>, all: seq<string>, requested: seq<string>, changed: set<string>): (r: seq<string>)
    ensures last == Some(FirstVersion) ==> r == all
    ensures last != Some(FirstVersion) ==>
      && (forall x :: x in r <==> x in requested && x in changed)
      && (forall x, y :: Before(r, x, y) ==> Before(requested, x, y))
  {
    if last == Some(FirstVersion) then all
    else
      var r := Filter(requested, x => x in changed);
      forall x, y | Before(r, x, y) ensures Before(requested, x, y) {
        FilterBefore(requested, x => x in changed, x, y);
      }
      r
  }

  /** `Object.assign({}, {name: lastVersion}…, {name: nextVersion}…)`: the version each project is built with. */
  function Versions(all: seq<string>, toPublish: seq<string>, lastVersions: map<string, string>, next: string): (r: map<string, string>)
    ensures forall x :: x in r <==> x in all || x in toPublish
    ensures forall x :: x in toPublish ==> r[x] == next
    ensures forall x :: x in all && x !in toPublish ==> r[x] == LastVersionOf(lastVersions, x)
  {
    var last := map x | x in all :: LastVersionOf(lastVersions, x);
    var nexts := map x | x in toPublish :: next;
    last + nexts
  }

  /** `getLastVersion`: the project's last published version, empty when unknown. */
  function LastVersionOf(lastVersions: map<string, string>, project: string): string {
    if project in lastVersions then lastVersions[project] else ""
  }

  /** Build, publish, tag and push are the only effects after the prompt. */
  predicate ReleaseEffect(e: Effect) {
    e.Build? || e.PublishToNpm? || e.Tag? || e.Push?
  }

  /** The release chain: build each, then publish each, then tag, then push the tag. */
  function Plan(toPublish: seq<string>, versions: map<string, string>, next: string, remote: string): (r: seq<Effect>)
    ensures |r| == 2 * |toPublish| + 2
    ensures forall k :: 0 <= k < |toPublish| ==>
      r[k] == Build(toPublish[k], versions) && r[|toPublish| + k] == PublishToNpm(toPublish[k])
    ensures r[2 * |toPublish|] == Tag("v" + next)
    ensures r[2 * |toPublish| + 1] == Push(remote, ["v" + next])
    ensures forall e :: e in r ==> ReleaseEffect(e)
  {
    Map(toPublish, p => Build(p, versions)) + Map(toPublish, p => PublishToNpm(p))
      + [Tag("v" + next), Push(remote, ["v" + next])]
  }

  /**
   * `trace` is what running `steps` in order attempted: a prefix of them, all of them exactly when
   * every step succeeds, and otherwise ending at the first step that failed.
   */
  predicate RanUntilFailure(steps: seq<Effect>, trace: seq<Effect>, ok: Effect -> bool, completed: bool) {
    && |trace| <= |steps| && trace == steps[..|trace|]
    && (completed <==> forall k :: 0 <= k < |steps| ==> ok(steps[k]))
    && (completed ==> trace == steps)
    && (!completed ==> |trace| > 0 && !ok(trace[|trace| - 1]) && forall k :: 0 <= k < |trace| - 1 ==> ok(trace[k]))
  }

  /** `pSeries` and the promise chain: the steps run in order and the first failure stops the rest. */
  function RunSteps(steps: seq<Effect>, ok: Effect -> bool): (r: (seq<Effect>, bool))
    ensures RanUntilFailure(steps, r.0, ok, r.1)
    decreases |steps|
  {
    if |steps| == 0 then ([], true)
    else if !ok(steps[0]) then ([steps[0]], false)
    else
      var (rest, allOk) := RunSteps(steps[1..], ok);
      assert forall k :: 1 <= k < |steps| ==> steps[k] == steps[1..][k - 1];
      ([steps[0]] + rest, allOk)
  }

  /** Both guards pass: the repository is initialised and no project has uncommitted changes. */
  predicate MayProceed(o: Oracle, all: seq<string>) {
    o.isInitialized && forall p :: p in all ==> p !in o.uncommitted
  }

  /** The effects up to the version prompt: a checkout when on another branch, then the prompt. */
  function Prelude(o: Oracle): (r: seq<Effect>)
    ensures |r| >= 1 && r[|r| - 1] == AskVersion(LastVersion(o))
    ensures Checkout(TargetBranch(o)) in r <==> TargetBranch(o) != o.currentBranch
    ensures forall e :: e in r ==> e.Checkout? || e.AskVersion?
  {
    var branch := TargetBranch(o);
    // a failed checkout is only reported: the pipeline carries on either way
    if branch != o.currentBranch then [Checkout(branch), AskVersion(LastVersion(o))]
    else [AskVersion(LastVersion(o))]
  }

  /** The change-set of a run whose prompt answered. */
  function ChangeSet(o: Oracle, all: seq<string>, requested: seq<string>): seq<string> {
    ToPublish(LastVersion(o), all, requested, o.changedSince)
  }

  /** The release chain of a run whose prompt answered `next`. */
  function ReleasePlan(o: Oracle, all: seq<string>, requested: seq<string>, next: string): seq<Effect> {
    var toPublish := ChangeSet(o, all, requested);
    Plan(toPublish, Versions(all, toPublish, o.lastVersions, next), next, TargetRemote(o))
  }

  /**
   * Everything after the prompt answered `next`: select the change-set, stop when it is empty,
   * otherwise run the release chain until it finishes or a step fails.
   */
  function Release(o: Oracle, all: seq<string>, requested: seq<string>, next: string): (r: (Outcome, seq<Effect>))
    ensures r.0 == NothingToPublish || r.0 == Done || r.0.Failed?
    ensures r.0 == NothingToPublish <==> |ChangeSet(o, all, requested)| == 0
    ensures r.0 == NothingToPublish ==> r.1 == []
    ensures r.0 != NothingToPublish ==> RanUntilFailure(ReleasePlan(o, all, requested, next), r.1, o.stepOk, r.0 == Done)
    ensures r.0.Failed? ==> |r.1| > 0 && r.0.step == r.1[|r.1| - 1]
    ensures forall e :: e in r.1 ==> ReleaseEffect(e)
  {
    if |ChangeSet(o, all, requested)| == 0 then (NothingToPublish, [])
    else
      var plan := ReleasePlan(o, all, requested, next);
      var (done, allOk) := RunSteps(plan, o.stepOk);
      PrefixMembers(plan, done);
      (if allOk then Done else Failed(done[|done| - 1]), done)
  }

  lemma PrefixMembers(s: seq<Effect>, p: seq<Effect>)
    requires |p| <= |s| && p == s[..|p|]
    ensures forall e :: e in p ==> e in s
  {
    forall e | e in p ensures e in s {
      var i :| 0 <= i < |p| && p[i] == e;
      assert s[i] == e;
    }
  }

  /** `publish(allProjects, projectsToPublish)`. */
  function Publish(o: Oracle, all: seq<string>, requested: seq<string>): (r: (Outcome, seq<Effect>))
    ensures r.0.Abort? <==> !MayProceed(o, all)
    ensures r.0.Abort? ==> r.1 == []
    ensures !o.isInitialized ==> r.0 == Abort(NotInitialized)
    ensures o.isInitialized && r.0.Abort? ==> r.0.reason.UncommittedChanges? && |r.0.reason.projects| > 0
    ensures !r.0.Abort? ==> |Prelude(o)| <= |r.1| && r.1[..|Prelude(o)|] == Prelude(o)
    ensures r.0 == PromptFailed <==> MayProceed(o, all) && o.nextVersion.None?
    ensures r.0 == PromptFailed ==> r.1 == Prelude(o)
    ensures MayProceed(o, all) && o.nextVersion.Some? ==>
      r == (Release(o, all, requested, o.nextVersion.value).0, Prelude(o) + Release(o, all, requested, o.nextVersion.value).1)
  {
    if !o.isInitialized then (Abort(NotInitialized), [])
    else
      var dirty := Filter(all, p => p in o.uncommitted);
      if |dirty| > 0 then
        assert dirty[0] in dirty;
        (Abort(UncommittedChanges(dirty)), [])
      else
        assert dirty == [];
        match o.nextVersion
        case None => (PromptFailed, Prelude(o))
        case Some(next) =>
          var (outcome, effects) := Release(o, all, requested, next);
          assert (Prelude(o) + effects)[..|Prelude(o)|] == Prelude(o);
          (outcome, Prelude(o) + effects)
  }

  /** A checkout is attempted exactly when the current branch is not the target, and never aborts. */
  lemma CheckoutOnlyWhenNeeded(o: Oracle, all: seq<string>, requested: seq<string>)
    requires MayProceed(o, all)
    ensures var r := Publish(o, all, requested);
      && !r.0.Abort?
      && (Checkout(TargetBranch(o)) in r.1 <==> TargetBranch(o) != o.currentBranch)
      && AskVersion(LastVersion(o)) in r.1
  {
    var r := Publish(o, all, requested);
    var pre := Prelude(o);
    assert pre[|pre| - 1] in pre;
    if o.nextVersion.Some? {
      var rest := Release(o, all, requested, o.nextVersion.value).1;
      assert r.1 == pre + rest;
      assert Checkout(TargetBranch(o)) !in rest;
    } else {
      assert r.1 == pre;
    }
  }

  /** Nothing is built, published, tagged or pushed unless both guards pass and the prompt answered. */
  lemma NoReleaseWithoutGuards(o: Oracle, all: seq<string>, requested: seq<string>, e: Effect)
    ensures e in Publish(o, all, requested).1 && ReleaseEffect(e) ==>
      && MayProceed(o, all) && o.nextVersion.Some?
      && |ToPublish(LastVersion(o), all, requested, o.changedSince)| > 0
  {
    if e in Publish(o, all, requested).1 && ReleaseEffect(e) && MayProceed(o, all) && o.nextVersion.Some? {
      var rel := Release(o, all, requested, o.nextVersion.value);
      assert e in Prelude(o) + rel.1;
    }
  }

  /** Every build comes before every publish, which come before the tag, which comes before the push. */
  lemma PlanOrder(toPublish: seq<string>, versions: map<string, string>, next: string, remote: string, i: nat, j: nat)
    requires var plan := Plan(toPublish, versions, next, remote); i < |plan| && j < |plan|
    ensures var plan := Plan(toPublish, versions, next, remote);
      && (plan[i].Build? && !plan[j].Build? ==> i < j)
      && (plan[i].PublishToNpm? && (plan[j].Tag? || plan[j].Push?) ==> i < j)
      && (plan[i].Tag? && plan[j].Push? ==> i < j)
  {
    var plan := Plan(toPublish, versions, next, remote);
    var n := |toPublish|;
    if i < n {
    } else if i < 2 * n {
      assert plan[n + (i - n)] == PublishToNpm(toPublish[i - n]);
    }
    if j < n {
    } else if j < 2 * n {
      assert plan[n + (j - n)] == PublishToNpm(toPublish[j - n]);
    }
  }

  /** The tag is pushed only after every build, every publish and the tag itself succeeded. */
  lemma PushOnlyAfterEverythingElse(o: Oracle, all: seq<string>, requested: seq<string>, next: string, i: nat)
    requires var r := Release(o, all, requested, next); i < |r.1| && r.1[i].Push?
    ensures var r := Release(o, all, requested, next);
      var plan := ReleasePlan(o, all, requested, next);
      forall k :: 0 <= k < |plan| - 1 ==> r.1[k] == plan[k] && o.stepOk(plan[k])
  {
    var r := Release(o, all, requested, next);
    var plan := ReleasePlan(o, all, requested, next);
    assert r.1[i] == plan[i];
    assert i == |plan| - 1;
  }
}

=== FILE: results.dfy ===
/** Failure-compatible wrappers shared by every module of the model. */
module Results {

  /** An optional value: the model's stand-in for JavaScript's `null`/`undefined`. */
  datatype Option<+T> = None | Some(value: T) {

    /** Returns the carried value, or `default` when there is none. */
    function GetOr(default: T): T {
      match this
      case Some(v) => v
      case None => default
    }
  }

  /** The outcome of an operation that may throw or reject. */
  datatype Result<+T, +E> = Ok(value: T) | Err(error: E) {

    predicate IsFailure() {
      Err?
    }

    function PropagateFailure<U>(): Result<U, E>
      requires Err?
    {
      Err(error)
    }

    function Extract(): T
      requires Ok?
    {
      value
    }
  }
}

=== FILE: script_plugin.dfy ===
/**
 * The script develop plugin (projects/constellate-dev-utils/src/plugins/script/index.js): a map from
 * project name to the child process running one of its `package.json` scripts, and the operations
 * that kill and (re)start that process. Each call is one atomic step; killing a process and the
 * early failure of a spawned one are oracle inputs.
 */
module ScriptPlugin {
  import opened Results
  import opened ProjectConfig
  import opened ChildProcess

  /** An opaque child-process handle; fresh handles are drawn from a counter. */
  type Handle = nat

  /** The module-level `childProcessMap` and the next fresh handle. */
  datatype State = State(procs: map<string, Handle>, next: Handle)

  /** Every tracked handle was issued before `next`, so `next` is fresh. */
  predicate Valid(s: State) {
    forall p :: p in s.procs ==> s.procs[p] < s.next
  }

  datatype ScriptError =
    | MissingScriptName(project: string)
    | ManifestUnreadable(project: string)
    | KillFailed(project: string)
    | ScriptNotFound(scriptName: string, project: string)
    | SpawnFailed(scriptName: string, project: string)

  /** The develop configuration the plugin reads. */
  datatype DevelopOptions = DevelopOptions(scriptName: Option<string>, scriptRunOnce: bool)

  /** An observable step: a kill request for a tracked process, or a spawned process. */
  datatype Effect = Kill(project: string, handle: Handle) | Spawn(invocation: Invocation, handle: Handle)

  /** The plugin instance for one project: its name, root directory, script and manifest. */
  datatype Plugin = Plugin(project: string, root: string, scriptName: string, runOnce: bool, manifest: Manifest)

  /** A JavaScript string is truthy when it is not empty. */
  predicate Truthy(s: Option<string>) {
    s.Some? && s.value != ""
  }

  /**
   * `scriptDevelop`: a missing or empty script name throws before the manifest is read; an unreadable
   * manifest throws next.
   */
  function NewPlugin(project: string, root: string, options: DevelopOptions, manifests: map<string, Manifest>): (r: Result<Plugin, ScriptError>)
    ensures !Truthy(options.scriptName) ==> r == Err(MissingScriptName(project))
    ensures Truthy(options.scriptName) && project !in manifests ==> r == Err(ManifestUnreadable(project))
    ensures r.Ok? <==> Truthy(options.scriptName) && project in manifests
    ensures r.Ok? ==> r.value == Plugin(project, root, options.scriptName.value, options.scriptRunOnce, manifests[project])
  {
    if !Truthy(options.scriptName) then Err(MissingScriptName(project))
    else if project !in manifests then Err(ManifestUnreadable(project))
    else Ok(Plugin(project, root, options.scriptName.value, options.scriptRunOnce, manifests[project]))
  }

  /** One step's outcome: the result, the new state and what happened. */
  datatype Step = Step(result: Result<(), ScriptError>, state: State, effects: seq<Effect>)

  /**
   * `killChildProcessFor`: nothing to do without a tracked process; otherwise the kill is requested and,
   * only if it succeeds, the entry is deleted.
   */
  function KillFor(s: State, project: string, killOk: bool): (r: Step)
    ensures project !in s.procs ==> r == Step(Ok(()), s, [])
    ensures project in s.procs ==> r.effects == [Kill(project, s.procs[project])]
    ensures r.result.Err? <==> project in s.procs && !killOk
    ensures r.result.Err? ==> r.state == s && r.result.error == KillFailed(project)
    ensures r.result.Ok? ==> r.state == s.(procs := s.procs - {project})
    ensures r.state.next == s.next
  {
    if project !in s.procs then Step(Ok(()), s, [])
    else
      var effects := [Kill(project, s.procs[project])];
      if !killOk then Step(Err(KillFailed(project)), s, effects)
      else Step(Ok(()), s.(procs := s.procs - {project}), effects)
  }

  /** A successful kill leaves the project untracked and every other entry as it was. */
  lemma KillUntracks(s: State, project: string, killOk: bool, other: string)
    requires KillFor(s, project, killOk).result.Ok? && other != project
    ensures project !in KillFor(s, project, killOk).state.procs
    ensures other in KillFor(s, project, killOk).state.procs <==> other in s.procs
    ensures other in s.procs ==> KillFor(s, project, killOk).state.procs[other] == s.procs[other]
  {
  }

  /** Killing again after a successful kill does nothing. */
  lemma KillIdempotent(s: State, project: string, ok1: bool, ok2: bool)
    requires KillFor(s, project, ok1).result.Ok?
    ensures var s1 := KillFor(s, project, ok1).state;
      KillFor(s1, project, ok2) == Step(Ok(()), s1, [])
  {
  }

  /** The invocation the plugin spawns: `npm run <scriptName>` in the project root, stdio inherited. */
  function ScriptInvocation(penv: ProcessEnv, pl: Plugin): (inv: Invocation)
    ensures inv.command == "npm" && inv.args == ["run", pl.scriptName]
    ensures inv.options.Keys == {"cwd", "stdio", "env"}
    ensures inv.options["cwd"] == OText(pl.root) && inv.options["stdio"] == OText("inherit")
    ensures inv.options["env"] == OEnv(penv)
  {
    ChildProcess.Spawn(penv, "npm", ["run", pl.scriptName], map["stdio" := OText("inherit"), "cwd" := OText(pl.root)]).0
  }

  /** `R.path(['scripts', name], pkgJson)` is present and not empty. */
  predicate HasScript(m: Manifest, name: string) {
    name in m.scripts && m.scripts[name] != ""
  }

  /**
   * `runScript` (the same function serves build, clean, develop and deploy):
   * with `scriptRunOnce` and a tracked process it does nothing; otherwise a tracked process is killed
   * first (a failed kill rejects); a missing script then rejects; otherwise `npm run <script>` is
   * spawned and tracked. The spawned process is registered on the next tick even when it has already
   * failed, in which case the call rejects (`failsEarly`).
   */
  function RunScript(pl: Plugin, s: State, penv: ProcessEnv, killOk: bool, failsEarly: bool): (r: Step)
    requires Valid(s)
    ensures Valid(r.state)
    ensures pl.runOnce && pl.project in s.procs ==> r == Step(Ok(()), s, [])
    ensures !(pl.runOnce && pl.project in s.procs) && pl.project in s.procs ==>
      |r.effects| >= 1 && r.effects[0] == Kill(pl.project, s.procs[pl.project])
    ensures r.result.Err? && r.result.error.KillFailed? ==>
      pl.project in s.procs && r.state == s && r.effects == [Kill(pl.project, s.procs[pl.project])]
    ensures r.result.Err? && r.result.error.ScriptNotFound? ==>
      && !HasScript(pl.manifest, pl.scriptName)
      && r.state.procs == s.procs - {pl.project}
      && forall e :: e in r.effects ==> e.Kill?
    ensures !(pl.runOnce && pl.project in s.procs) && (pl.project in s.procs ==> killOk) && !HasScript(pl.manifest, pl.scriptName) ==>
      r == Step(Err(ScriptNotFound(pl.scriptName, pl.project)), s.(procs := s.procs - {pl.project}),
                if pl.project in s.procs then [Kill(pl.project, s.procs[pl.project])] else [])
    ensures !(pl.runOnce && pl.project in s.procs) && (pl.project in s.procs ==> killOk) && HasScript(pl.manifest, pl.scriptName) ==>
      exists e :: e in r.effects && e.Spawn?
    ensures (exists e :: e in r.effects && e.Spawn?) ==>
      && HasScript(pl.manifest, pl.scriptName)
      && r.effects == (if pl.project in s.procs then [Kill(pl.project, s.procs[pl.project])] else [])
                      + [Spawn(ScriptInvocation(penv, pl), s.next)]
      && r.state == State(s.procs[pl.project := s.next], s.next + 1)
      && (r.result.Ok? <==> !failsEarly)
    ensures (r.result.Err? && r.result.error.SpawnFailed?) <==>
      && !(pl.runOnce && pl.project in s.procs) && (pl.project in s.procs ==> killOk)
      && HasScript(pl.manifest, pl.scriptName) && failsEarly
    ensures r.result.Err? && r.result.error.SpawnFailed? ==> r.result.error == SpawnFailed(pl.scriptName, pl.project)
  {
    var existing := pl.project in s.procs;
    if pl.runOnce && existing then Step(Ok(()), s, [])
    else
      var killed := KillFor(s, pl.project, killOk);
      if killed.result.Err? then killed
      else if !HasScript(pl.manifest, pl.scriptName) then
        Step(Err(ScriptNotFound(pl.scriptName, pl.project)), killed.state, killed.effects)
      else
        var h := killed.state.next;
        var effects := killed.effects + [Spawn(ScriptInvocation(penv, pl), h)];
        var s' := State(killed.state.procs[pl.project := h], h + 1);
        assert s'.procs == s.procs[pl.project := s.next];
        assert effects[|effects| - 1] in effects;
        Step(if failsEarly then Err(SpawnFailed(pl.scriptName, pl.project)) else Ok(()), s', effects)
  }

  /** The four lifecycle operations of the plugin's API. */
  datatype Operation = Build | Clean | Develop | Deploy

  /** `build`, `clean`, `develop` and `deploy` are all `runScript`. */
  function Run(op: Operation, pl: Plugin, s: State, penv: ProcessEnv, killOk: bool, failsEarly: bool): (r: Step)
    requires Valid(s)
    ensures r == RunScript(pl, s, penv, killOk, failsEarly)
  {
    match op
    case Build => RunScript(pl, s, penv, killOk, failsEarly)
    case Clean => RunScript(pl, s, penv, killOk, failsEarly)
    case Develop => RunScript(pl, s, penv, killOk, failsEarly)
    case Deploy => RunScript(pl, s, penv, killOk, failsEarly)
  }

  /**
   * No process is lost: every process tracked before a run is still tracked afterwards, or was sent a
   * kill during the run. The project's new process is fresh and replaces only its own entry.
   */
  lemma RunScriptTracksOrKills(pl: Plugin, s: State, penv: ProcessEnv, killOk: bool, failsEarly: bool, p: string)
    requires Valid(s) && p in s.procs
    ensures var r := RunScript(pl, s, penv, killOk, failsEarly);
      (p in r.state.procs && r.state.procs[p] == s.procs[p]) || Kill(p, s.procs[p]) in r.effects
  {
  }

  /** After a spawn the project's entry is a handle no other project holds. */
  lemma RunScriptFreshHandle(pl: Plugin, s: State, penv: ProcessEnv, killOk: bool, failsEarly: bool, p: string)
    requires Valid(s)
    requires var r := RunScript(pl, s, penv, killOk, failsEarly);
      exists e :: e in r.effects && e.Spawn?
    requires p in s.procs && p != pl.project
    ensures RunScript(pl, s, penv, killOk, failsEarly).state.procs[pl.project] != s.procs[p]
  {
  }

  /** A failed kill stops the run: nothing is spawned and the map is unchanged. */
  lemma KillFailureStopsRun(pl: Plugin, s: State, penv: ProcessEnv, failsEarly: bool)
    requires Valid(s) && !pl.runOnce && pl.project in s.procs
    ensures var r := RunScript(pl, s, penv, false, failsEarly);
      r.result == Err(KillFailed(pl.project)) && r.state == s && forall e :: e in r.effects ==> !e.Spawn?
  {
  }
}

=== FILE: seqs.dfy ===
/** Sequence facts used by the graph, publish and formatting models. */
module Seqs {

  /** No element occurs twice. */
  predicate NoDups<T(==)>(s: seq<T>) {
    forall i, j :: 0 <= i < j < |s| ==> s[i] != s[j]
  }

  /** `x` occurs strictly before `y` in `s`. */
  ghost predicate Before<T>(s: seq<T>, x: T, y: T) {
    exists i, j :: 0 <= i < j < |s| && s[i] == x && s[j] == y
  }

  /** The elements of `s` that satisfy `p`, in their original order (Ramda's `R.filter`). */
  function Filter<T(!new)>(s: seq<T>, p: T -> bool): (r: seq<T>)
    ensures |r| <= |s|
    ensures forall x :: x in r <==> x in s && p(x)
  {
    if |s| == 0 then []
    else if p(s[0]) then [s[0]] + Filter(s[1..], p)
    else Filter(s[1..], p)
  }

  /** Filtering distributes over concatenation. */
  lemma {:induction false} FilterAppend<T(!new)>(a: seq<T>, b: seq<T>, p: T -> bool)
    ensures Filter(a + b, p) == Filter(a, p) + Filter(b, p)
    decreases |a|
  {
    if |a| > 0 {
      assert (a + b)[0] == a[0];
      assert (a + b)[1..] == a[1..] + b;
      FilterAppend(a[1..], b, p);
    } else {
      assert a + b == b;
    }
  }

  /** Ramda's `R.map`. */
  function Map<T, U>(s: seq<T>, f: T -> U): (r: seq<U>)
    ensures |r| == |s|
    ensures forall i :: 0 <= i < |s| ==> r[i] == f(s[i])
  {
    seq(|s|, i requires 0 <= i < |s| => f(s[i]))
  }

  /** Ramda's `R.without(xs, s)`: `s` with every element of `xs` removed. */
  function Without<T(==,!new)>(xs: seq<T>, s: seq<T>): (r: seq<T>)
    ensures forall x :: x in r <==> x in s && x !in xs
  {
    Filter(s, x => x !in xs)
  }

  /** Index of the first occurrence of `x` in `s`. */
  function IndexOf<T(==)>(s: seq<T>, x: T): (i: nat)
    requires x in s
    ensures i < |s| && s[i] == x
    ensures forall k :: 0 <= k < i ==> s[k] != x
  {
    if s[0] == x then 0 else 1 + IndexOf(s[1..], x)
  }

  /** `n` copies of `c`. */
  function Repeat<T>(c: T, n: nat): (r: seq<T>)
    ensures |r| == n
    ensures forall i :: 0 <= i < n ==> r[i] == c
  {
    if n == 0 then [] else [c] + Repeat(c, n - 1)
  }

  /** Concatenation is associative (stated for use where the solver would search for it). */
  lemma ConcatAssoc<T>(a: seq<T>, b: seq<T>, c: seq<T>)
    ensures a + (b + c) == a + b + c
  {
  }

  lemma FilterNoDups<T(!new)>(s: seq<T>, p: T -> bool)
    requires NoDups(s)
    ensures NoDups(Filter(s, p))
  {
    if |s| > 0 {
      FilterNoDups(s[1..], p);
      assert s[0] !in s[1..];
    }
  }

  /** Filtering preserves relative order. */
  lemma {:induction false} FilterBefore<T(!new)>(s: seq<T>, p: T -> bool, x: T, y: T)
    requires Before(Filter(s, p), x, y)
    ensures Before(s, x, y)
  {
    var f := Filter(s, p);
    var i, j :| 0 <= i < j < |f| && f[i] == x && f[j] == y;
    if p(s[0]) {
      assert f == [s[0]] + Filter(s[1..], p);
      if i == 0 {
        assert y in Filter(s[1..], p) by { assert Filter(s[1..], p)[j - 1] == y; }
        var k :| 0 <= k < |s[1..]| && s[1..][k] == y;
        assert s[0] == x && s[k + 1] == y;
      } else {
        assert Filter(s[1..], p)[i - 1] == x && Filter(s[1..], p)[j - 1] == y;
        FilterBefore(s[1..], p, x, y);
        var a, b :| 0 <= a < b < |s[1..]| && s[1..][a] == x && s[1..][b] == y;
        assert s[a + 1] == x && s[b + 1] == y;
      }
    } else {
      assert f == Filter(s[1..], p);
      FilterBefore(s[1..], p, x, y);
      var a, b :| 0 <= a < b < |s[1..]| && s[1..][a] == x && s[1..][b] == y;
      assert s[a + 1] == x && s[b + 1] == y;
    }
  }

  /** Two kept elements keep their relative order. */
  lemma {:induction false} BeforeFilter<T(!new)>(s: seq<T>, p: T -> bool, x: T, y: T)
    requires Before(s, x, y) && p(x) && p(y)
    ensures Before(Filter(s, p), x, y)
  {
    var i, j :| 0 <= i < j < |s| && s[i] == x && s[j] == y;
    var f := Filter(s, p);
    if i == 0 {
      assert f == [x] + Filter(s[1..], p);
      assert y in Filter(s[1..], p) by { assert s[1..][j - 1] == y; }
      var k :| 0 <= k < |Filter(s[1..], p)| && Filter(s[1..], p)[k] == y;
      assert f[0] == x && f[k + 1] == y;
    } else {
      assert s[1..][i - 1] == x && s[1..][j - 1] == y;
      BeforeFilter(s[1..], p, x, y);
      var a, b :| 0 <= a < b < |Filter(s[1..], p)| && Filter(s[1..], p)[a] == x && Filter(s[1..], p)[b] == y;
      if p(s[0]) {
        assert f == [s[0]] + Filter(s[1..], p);
        assert f[a + 1] == x && f[b + 1] == y;
      } else {
        assert f == Filter(s[1..], p);
      }
    }
  }

  /** In a sequence without duplicates, `Before` is decided by first indices. */
  lemma BeforeIndex<T>(s: seq<T>, x: T, y: T)
    requires NoDups(s) && Before(s, x, y)
    ensures x in s && y in s && IndexOf(s, x) < IndexOf(s, y)
  {
    var i, j :| 0 <= i < j < |s| && s[i] == x && s[j] == y;
    assert IndexOf(s, x) == i;
    assert IndexOf(s, y) == j;
  }

  /** A sequence without duplicates has as many distinct elements as it is long. */
  lemma {:induction false} NoDupsCard<T>(s: seq<T>)
    requires NoDups(s)
    ensures |set x | x in s| == |s|
  {
    if |s| > 0 {
      assert NoDups(s[1..]) by {
        forall i, j | 0 <= i < j < |s[1..]| ensures s[1..][i] != s[1..][j] {
          assert s[i + 1] != s[j + 1];
        }
      }
      NoDupsCard(s[1..]);
      assert s[0] !in s[1..];
      assert (set x | x in s) == (set x | x in s[1..]) + {s[0]};
    }
  }

  lemma NoDupsTail<T>(s: seq<T>)
    requires |s| > 0 && NoDups(s)
    ensures NoDups(s[1..]) && s[0] !in s[1..]
  {
    forall i, j | 0 <= i < j < |s[1..]| ensures s[1..][i] != s[1..][j] {
      assert s[i + 1] != s[j + 1];
    }
  }

  /** `s` without its element at index `k`. */
  function RemoveAt<T>(s: seq<T>, k: nat): (r: seq<T>)
    requires k < |s|
    ensures |r| == |s| - 1
    ensures multiset(s) == multiset(r) + multiset{s[k]}
  {
    assert s == s[..k] + [s[k]] + s[k + 1..];
    s[..k] + s[k + 1..]
  }

  lemma RemoveAtNoDups<T>(s: seq<T>, k: nat)
    requires k < |s| && NoDups(s)
    ensures NoDups(RemoveAt(s, k))
    ensures forall y :: y in RemoveAt(s, k) <==> y in s && y != s[k]
  {
    var r := RemoveAt(s, k);
    forall i, j | 0 <= i < j < |r| ensures r[i] != r[j] {
      var i' := if i < k then i else i + 1;
      var j' := if j < k then j else j + 1;
      assert r[i] == s[i'] && r[j] == s[j'];
    }
    forall y ensures y in r <==> y in s && y != s[k] {
      if y in r {
        var m :| 0 <= m < |r| && r[m] == y;
        var m' := if m < k then m else m + 1;
        assert s[m'] == y && m' != k;
      }
      if y in s && y != s[k] {
        var m :| 0 <= m < |s| && s[m] == y;
        if m < k {
          assert r[m] == y;
        } else {
          assert r[m - 1] == y;
        }
      }
    }
  }

  lemma EmptyIfNoMembers<T>(s: seq<T>)
    ensures (forall x :: x !in s) ==> s == []
  {
    if |s| > 0 {
      assert s[0] in s;
    }
  }

  /** Two duplicate-free sequences with the same elements are permutations of each other. */
  lemma {:induction false} SameElementsPermutation<T>(a: seq<T>, b: seq<T>)
    requires NoDups(a) && NoDups(b)
    requires forall x :: x in a <==> x in b
    ensures multiset(a) == multiset(b)
  {
    if |a| == 0 {
      EmptyIfNoMembers(b);
    } else {
      var x := a[0];
      assert x in a;
      var k := IndexOf(b, x);
      NoDupsTail(a);
      RemoveAtNoDups(b, k);
      assert a == [x] + a[1..];
      SameElementsPermutation(a[1..], RemoveAt(b, k));
    }
  }

  lemma NoDupsConcat<T>(a: seq<T>, b: seq<T>)
    ensures NoDups(a + b) <==> NoDups(a) && NoDups(b) && forall x :: x in a ==> x !in b
  {
    var c := a + b;
    if NoDups(c) {
      forall i, j | 0 <= i < j < |a| ensures a[i] != a[j] {
        assert c[i] == a[i] && c[j] == a[j];
      }
      forall i, j | 0 <= i < j < |b| ensures b[i] != b[j] {
        assert c[|a| + i] == b[i] && c[|a| + j] == b[j];
      }
      forall i, j | 0 <= i < |a| && 0 <= j < |b| ensures a[i] != b[j] {
        assert c[i] == a[i] && c[|a| + j] == b[j];
      }
    }
    if NoDups(a) && NoDups(b) && forall x :: x in a ==> x !in b {
      forall i, j | 0 <= i < j < |c| ensures c[i] != c[j] {
        if j < |a| {
          assert c[i] == a[i] && c[j] == a[j];
        } else if i >= |a| {
          assert c[i] == b[i - |a|] && c[j] == b[j - |a|];
        } else {
          assert c[i] == a[i] && c[j] == b[j - |a|];
          assert a[i] in a;
        }
      }
    }
  }

  /** Appending keeps every earlier ordering fact. */
  lemma BeforeAppend<T>(s: seq<T>, t: seq<T>, x: T, y: T)
    requires Before(s, x, y)
    ensures Before(s + t, x, y)
  {
    var i, j :| 0 <= i < j < |s| && s[i] == x && s[j] == y;
    assert (s + t)[i] == x && (s + t)[j] == y;
  }

  /** Prepending keeps every ordering fact. */
  lemma BeforePrepend<T>(s: seq<T>, t: seq<T>, x: T, y: T)
    requires Before(t, x, y)
    ensures Before(s + t, x, y)
  {
    var i, j :| 0 <= i < j < |t| && t[i] == x && t[j] == y;
    assert (s + t)[|s| + i] == x && (s + t)[|s| + j] == y;
  }

  /** Every element of a prefix comes before every element of the rest. */
  lemma BeforeAcross<T>(s: seq<T>, t: seq<T>, x: T, y: T)
    requires x in s && y in t
    ensures Before(s + t, x, y)
  {
    var i :| 0 <= i < |s| && s[i] == x;
    var j :| 0 <= j < |t| && t[j] == y;
    assert (s + t)[i] == x && (s + t)[|s| + j] == y;
  }

  /** Filtering keeps every kept element as often as it occurred. */
  lemma {:induction false} FilterMultiset<T(!new)>(s: seq<T>, p: T -> bool, x: T)
    ensures multiset(Filter(s, p))[x] == if p(x) then multiset(s)[x] else 0
  {
    if |s| > 0 {
      FilterMultiset(s[1..], p, x);
      assert s == [s[0]] + s[1..];
    }
  }
}

=== FILE: text.dfy ===
/** String operations the child-process helpers rely on: splitting, joining, replacing, trimming. */
module Text {
  import opened Seqs

  /** The pieces of `s` between occurrences of `c` (JavaScript's `s.split(c)`); never empty. */
  function Split(s: string, c: char): (r: seq<string>)
    ensures |r| >= 1
    ensures forall k :: 0 <= k < |r| ==> c !in r[k]
    decreases |s|
  {
    if |s| == 0 then [""]
    else
      var t := Split(s[1..], c);
      if s[0] == c then [""] + t
      else [[s[0]] + t[0]] + t[1..]
  }

  /** `parts.join(sep)`. */
  function Join(parts: seq<string>, sep: string): string
    decreases |parts|
  {
    if |parts| == 0 then ""
    else if |parts| == 1 then parts[0]
    else parts[0] + sep + Join(parts[1..], sep)
  }

  /** `s.replace(/c/g, rep)`: every occurrence of `c` replaced by `rep`. */
  function ReplaceAll(s: string, c: char, rep: string): string
    decreases |s|
  {
    if |s| == 0 then ""
    else (if s[0] == c then rep else [s[0]]) + ReplaceAll(s[1..], c, rep)
  }

  /**
   * The text `String.prototype.replace` inserts for one match of a pattern without capture groups
   * (the ECMAScript abstract operation GetSubstitution): `$$` is a dollar sign, `$&` the match,
   * `` $` `` the text before the match and `$'` the text after it; every other `$` stays as it is.
   */
  function Substitute(rep: string, before: string, matched: string, after: string): string
    decreases |rep|
  {
    if |rep| == 0 then ""
    else if rep[0] == '$' && |rep| >= 2 && rep[1] in "$&`'" then
      (if rep[1] == '$' then "$" else if rep[1] == '&' then matched else if rep[1] == '`' then before else after)
      + Substitute(rep[2..], before, matched, after)
    else [rep[0]] + Substitute(rep[1..], before, matched, after)
  }

  /** A replacement without a dollar sign is inserted as it is. */
  lemma {:induction false} SubstituteLiteral(rep: string, before: string, matched: string, after: string)
    requires '$' !in rep
    ensures Substitute(rep, before, matched, after) == rep
    decreases |rep|
  {
    if |rep| > 0 {
      assert rep[0] != '$';
      SubstituteLiteral(rep[1..], before, matched, after);
      assert rep == [rep[0]] + rep[1..];
    }
  }

  /**
   * `s.replace(/c/g, rep)` as JavaScript evaluates it: every occurrence of `c` is replaced by `rep`,
   * with the `$` patterns of `rep` expanded for that occurrence.
   */
  function ReplaceAllJs(s: string, c: char, rep: string): string {
    ReplaceFrom(s, c, rep, 0)
  }

  /** The result of the replacement for `s[i..]`, matches still seeing all of `s` around them. */
  function ReplaceFrom(s: string, c: char, rep: string, i: nat): string
    requires i <= |s|
    decreases |s| - i
  {
    if i == |s| then ""
    else (if s[i] == c then Substitute(rep, s[..i], [c], s[i + 1..]) else [s[i]]) + ReplaceFrom(s, c, rep, i + 1)
  }

  /** Without a dollar sign in the replacement, JavaScript's replacement is the literal one. */
  lemma ReplaceAllJsLiteral(s: string, c: char, rep: string)
    requires '$' !in rep
    ensures ReplaceAllJs(s, c, rep) == ReplaceAll(s, c, rep)
  {
    ReplaceFromLiteral(s, c, rep, 0);
  }

  lemma {:induction false} ReplaceFromLiteral(s: string, c: char, rep: string, i: nat)
    requires '$' !in rep && i <= |s|
    ensures ReplaceFrom(s, c, rep, i) == ReplaceAll(s[i..], c, rep)
    decreases |s| - i
  {
    if i < |s| {
      ReplaceFromLiteral(s, c, rep, i + 1);
      SubstituteLiteral(rep, s[..i], [c], s[i + 1..]);
      assert s[i..][0] == s[i] && s[i..][1..] == s[i + 1..];
    }
  }

  /** With no occurrence of `c` there is nothing to replace. */
  lemma {:induction false} ReplaceFromNone(s: string, c: char, rep: string, i: nat)
    requires c !in s && i <= |s|
    ensures ReplaceFrom(s, c, rep, i) == s[i..]
    decreases |s| - i
  {
    if i < |s| {
      ReplaceFromNone(s, c, rep, i + 1);
      assert s[i..] == [s[i]] + s[i + 1..];
    }
  }

  /**
   * The length JavaScript reports for a string: a character outside the Basic Multilingual Plane is a
   * surrogate pair, two UTF-16 code units.
   */
  function Utf16Length(s: string): nat
    decreases |s|
  {
    if |s| == 0 then 0 else (if s[0] as int >= 0x1_0000 then 2 else 1) + Utf16Length(s[1..])
  }

  lemma {:induction false} Utf16LengthAppend(a: string, b: string)
    ensures Utf16Length(a + b) == Utf16Length(a) + Utf16Length(b)
    decreases |a|
  {
    if |a| > 0 {
      assert (a + b)[0] == a[0] && (a + b)[1..] == a[1..] + b;
      Utf16LengthAppend(a[1..], b);
    } else {
      assert a + b == b;
    }
  }

  /** Each space is one code unit. */
  lemma {:induction false} Utf16LengthSpaces(n: nat)
    ensures Utf16Length(Repeat(' ', n)) == n
    decreases n
  {
    if n > 0 {
      assert Repeat(' ', n)[1..] == Repeat(' ', n - 1);
      Utf16LengthSpaces(n - 1);
    }
  }

  /** Growing the first piece grows the joined string at the front. */
  lemma JoinCons(x: string, parts: seq<string>, sep: string)
    requires |parts| >= 1
    ensures Join([x + parts[0]] + parts[1..], sep) == x + Join(parts, sep)
  {
    var ps := [x + parts[0]] + parts[1..];
    assert ps[1..] == parts[1..];
  }

  /** Replacing a character is joining the pieces between its occurrences. */
  lemma {:induction false} ReplaceIsJoin(s: string, c: char, rep: string)
    ensures ReplaceAll(s, c, rep) == Join(Split(s, c), rep)
    decreases |s|
  {
    if |s| > 0 {
      var t := Split(s[1..], c);
      ReplaceIsJoin(s[1..], c, rep);
      if s[0] == c {
        assert ([""] + t)[1..] == t;
      } else {
        JoinCons([s[0]], t, rep);
      }
    }
  }

  lemma {:induction false} ReplaceSelf(s: string, c: char)
    ensures ReplaceAll(s, c, [c]) == s
    decreases |s|
  {
    if |s| > 0 {
      ReplaceSelf(s[1..], c);
      assert s == [s[0]] + s[1..];
    }
  }

  /** Joining the pieces back with the separator gives the original string. */
  lemma JoinSplit(s: string, c: char)
    ensures Join(Split(s, c), [c]) == s
  {
    ReplaceIsJoin(s, c, [c]);
    ReplaceSelf(s, c);
  }

  /** A separator-free head does not split. */
  lemma {:induction false} SplitAppend(a: string, rest: string, c: char)
    requires c !in a
    ensures Split(a + rest, c) == [a + Split(rest, c)[0]] + Split(rest, c)[1..]
    decreases |a|
  {
    if |a| > 0 {
      SplitAppend(a[1..], rest, c);
      assert (a + rest)[1..] == a[1..] + rest;
      assert [a[0]] + (a[1..] + Split(rest, c)[0]) == a + Split(rest, c)[0];
    } else {
      var t := Split(rest, c);
      assert a + rest == rest && a + t[0] == t[0];
      assert t == [t[0]] + t[1..];
    }
  }

  /** Splitting separator-free pieces joined by the separator gives the pieces back. */
  lemma {:induction false} SplitJoin(parts: seq<string>, c: char)
    requires |parts| >= 1 && forall k :: 0 <= k < |parts| ==> c !in parts[k]
    ensures Split(Join(parts, [c]), c) == parts
    decreases |parts|
  {
    if |parts| == 1 {
      SplitAppend(parts[0], "", c);
      assert parts[0] + "" == parts[0];
    } else {
      var j := Join(parts[1..], [c]);
      SplitJoin(parts[1..], c);
      assert parts[0] + [c] + j == parts[0] + ([c] + j);
      assert Join(parts, [c]) == parts[0] + ([c] + j);
      assert ([c] + j)[1..] == j;
      assert Split([c] + j, c) == [""] + parts[1..];
      SplitAppend(parts[0], [c] + j, c);
      assert parts[0] + "" == parts[0];
      assert parts == [parts[0]] + parts[1..];
    }
  }

  /** `s.replace(/^(c)+/, '')`: the leading run of `c` removed. */
  function DropLeading(s: string, c: char): (r: string)
    ensures |r| <= |s|
    ensures s == Repeat(c, |s| - |r|) + r
    ensures |r| == 0 || r[0] != c
    decreases |s|
  {
    if |s| > 0 && s[0] == c then
      var r := DropLeading(s[1..], c);
      assert s == [c] + s[1..];
      r
    else
      assert s == Repeat(c, 0) + s;
      s
  }

  /** `s.replace(/(c)+$/, '')`: the trailing run of `c` removed. */
  function DropTrailing(s: string, c: char): (r: string)
    ensures |r| <= |s|
    ensures s == r + Repeat(c, |s| - |r|)
    ensures |r| == 0 || r[|r| - 1] != c
    decreases |s|
  {
    if |s| > 0 && s[|s| - 1] == c then
      var r := DropTrailing(s[..|s| - 1], c);
      assert Repeat(c, |s| - 1 - |r|) + [c] == Repeat(c, |s| - |r|);
      assert s == s[..|s| - 1] + [c];
      r
    else
      assert s == s + Repeat(c, 0);
      s
  }

  lemma {:induction false} DropLeadingRepeat(c: char, i: nat, t: string)
    requires |t| == 0 || t[0] != c
    ensures DropLeading(Repeat(c, i) + t, c) == t
    decreases i
  {
    var s := Repeat(c, i) + t;
    if i > 0 {
      assert s[0] == c;
      assert Repeat(c, i)[1..] == Repeat(c, i - 1);
      assert s[1..] == Repeat(c, i - 1) + t;
      DropLeadingRepeat(c, i - 1, t);
    } else {
      assert s == t;
    }
  }

  /** A string made of `c` alone drops to nothing. */
  lemma {:induction false} DropLeadingAll(s: string, c: char)
    requires forall k :: 0 <= k < |s| ==> s[k] == c
    ensures DropLeading(s, c) == ""
    decreases |s|
  {
    if |s| > 0 {
      DropLeadingAll(s[1..], c);
    }
  }

  lemma {:induction false} DropTrailingRepeat(c: char, t: string, j: nat)
    requires |t| == 0 || t[|t| - 1] != c
    ensures DropTrailing(t + Repeat(c, j), c) == t
    decreases j
  {
    if j > 0 {
      DropTrailingRepeat(c, t, j - 1);
      assert (t + Repeat(c, j))[..|t| + j - 1] == t + Repeat(c, j - 1);
    } else {
      assert t + Repeat(c, j) == t;
    }
  }

  /** `prefix` put in front of every line. */
  function Prefixed(prefix: string, lines: seq<string>): (r: seq<string>)
    ensures |r| == |lines|
    ensures forall k :: 0 <= k < |lines| ==> r[k] == prefix + lines[k]
  {
    seq(|lines|, k requires 0 <= k < |lines| => prefix + lines[k])
  }

  /** Every line with its first `n` characters removed. */
  function Unprefixed(n: nat, lines: seq<string>): (r: seq<string>)
    requires forall k :: 0 <= k < |lines| ==> |lines[k]| >= n
    ensures |r| == |lines|
    ensures forall k :: 0 <= k < |lines| ==> lines[k] == lines[k][..n] + r[k]
  {
    seq(|lines|, k requires 0 <= k < |lines| => lines[k][n..])
  }

  /** Joining with `"\n" + prefix` after a leading `prefix` is prefixing every piece. */
  lemma {:induction false} JoinPrefixed(prefix: string, parts: seq<string>, c: char)
    requires |parts| >= 1
    ensures prefix + Join(parts, [c] + prefix) == Join(Prefixed(prefix, parts), [c])
    decreases |parts|
  {
    if |parts| > 1 {
      JoinPrefixed(prefix, parts[1..], c);
      assert Prefixed(prefix, parts)[1..] == Prefixed(prefix, parts[1..]);
      assert prefix + (parts[0] + ([c] + prefix) + Join(parts[1..], [c] + prefix))
          == (prefix + parts[0]) + [c] + (prefix + Join(parts[1..], [c] + prefix));
    }
  }
}

=== FILE: toposort.dfy ===
/**
 * Topological sorting of a dependency edge list.
 *
 * The repository delegates this to the `toposort` package, whose contract is: every node named by an
 * edge appears exactly once in the result, the tail of every edge comes before its head, and a cyclic
 * edge list is rejected. The package itself is not part of this model; `Sort` is Kahn's algorithm,
 * proved here to meet that contract, and to fail exactly when the edges contain a cycle.
 */
module Toposort {
  import opened Results
  import opened Seqs

  /** `(tail, head)`: `tail` must be ordered before `head`. */
  type Edge = (string, string)

  /** `x` is named by at least one edge. */
  ghost predicate IsNode(edges: seq<Edge>, x: string) {
    exists e :: e in edges && (e.0 == x || e.1 == x)
  }

  /** `w` is a closed walk along the edges: at least one step, ending where it starts. */
  ghost predicate IsCycle(edges: seq<Edge>, w: seq<string>) {
    && |w| >= 2
    && w[0] == w[|w| - 1]
    && forall i :: 0 <= i < |w| - 1 ==> (w[i], w[i + 1]) in edges
  }

  ghost predicate HasCycle(edges: seq<Edge>) {
    exists w :: IsCycle(edges, w)
  }

  /** `order` lists every node once and puts every edge's tail before its head. */
  ghost predicate IsTopologicalOrder(edges: seq<Edge>, order: seq<string>) {
    && NoDups(order)
    && (forall x :: x in order <==> IsNode(edges, x))
    && (forall e :: e in edges ==> Before(order, e.0, e.1))
  }

  /** Every node of `nodes` has an incoming edge from another node of `nodes`: no node can go first. */
  ghost predicate Sourceless(edges: seq<Edge>, nodes: seq<string>) {
    forall x :: x in nodes ==> HasIncoming(edges, nodes, x)
  }

  /** Some edge into `n` starts at a node of `remaining`. */
  predicate HasIncoming(edges: seq<Edge>, remaining: seq<string>, n: string) {
    exists e :: e in edges && e.1 == n && e.0 in remaining
  }

  function AddNew(acc: seq<string>, x: string): (r: seq<string>)
    requires NoDups(acc)
    ensures NoDups(r)
    ensures forall y :: y in r <==> y in acc || y == x
  {
    if x in acc then acc
    else
      NoDupsConcat(acc, [x]);
      acc + [x]
  }

  /** The nodes named by `edges`, after those in `acc`, in order of first appearance. */
  function CollectNodes(edges: seq<Edge>, acc: seq<string>): (r: seq<string>)
    requires NoDups(acc)
    ensures NoDups(r)
    ensures forall x :: x in r <==> x in acc || IsNode(edges, x)
  {
    if |edges| == 0 then acc
    else
      var r := CollectNodes(edges[1..], AddNew(AddNew(acc, edges[0].0), edges[0].1));
      assert forall x :: IsNode(edges, x) <==> x == edges[0].0 || x == edges[0].1 || IsNode(edges[1..], x) by {
        forall x ensures IsNode(edges, x) <==> x == edges[0].0 || x == edges[0].1 || IsNode(edges[1..], x) {
          if IsNode(edges, x) {
            var e :| e in edges && (e.0 == x || e.1 == x);
            var k :| 0 <= k < |edges| && edges[k] == e;
            if k > 0 {
              assert edges[1..][k - 1] == e;
            }
          }
          if IsNode(edges[1..], x) {
            var e :| e in edges[1..] && (e.0 == x || e.1 == x);
            assert e in edges;
          }
          if x == edges[0].0 || x == edges[0].1 {
            assert edges[0] in edges;
          }
        }
      }
      r
  }

  /** Index of the first node of `remaining[k..]` that no remaining node points to. */
  function FindSource(edges: seq<Edge>, remaining: seq<string>, k: nat): (r: Option<nat>)
    requires k <= |remaining|
    ensures r.Some? ==> k <= r.value < |remaining| && !HasIncoming(edges, remaining, remaining[r.value])
    ensures r.None? ==> forall i :: k <= i < |remaining| ==> HasIncoming(edges, remaining, remaining[i])
    decreases |remaining| - k
  {
    if k == |remaining| then None
    else if !HasIncoming(edges, remaining, remaining[k]) then Some(k)
    else FindSource(edges, remaining, k + 1)
  }

  /**
   * Kahn's algorithm: repeatedly move a node without incoming edges from `remaining` to `placed`.
   * When every remaining node has an incoming edge, the remaining nodes are returned as the error.
   */
  function Kahn(edges: seq<Edge>, remaining: seq<string>, placed: seq<string>): Result<seq<string>, seq<string>>
    decreases |remaining|
  {
    if |remaining| == 0 then Ok(placed)
    else
      match FindSource(edges, remaining, 0)
      case None => Err(remaining)
      case Some(i) => Kahn(edges, RemoveAt(remaining, i), placed + [remaining[i]])
  }

  ghost predicate KahnInvariant(edges: seq<Edge>, remaining: seq<string>, placed: seq<string>) {
    && NoDups(placed + remaining)
    && (forall x :: x in placed + remaining <==> IsNode(edges, x))
    && (forall e :: e in edges && e.1 in placed ==> Before(placed, e.0, e.1))
  }

  lemma {:induction false} KahnCorrect(edges: seq<Edge>, remaining: seq<string>, placed: seq<string>)
    requires KahnInvariant(edges, remaining, placed)
    ensures Kahn(edges, remaining, placed).Ok? ==> IsTopologicalOrder(edges, Kahn(edges, remaining, placed).value)
    ensures Kahn(edges, remaining, placed).Err? ==>
      |Kahn(edges, remaining, placed).error| > 0 && Sourceless(edges, Kahn(edges, remaining, placed).error)
    decreases |remaining|
  {
    if |remaining| == 0 {
      assert placed + remaining == placed;
      forall e | e in edges ensures Before(placed, e.0, e.1) {
        assert IsNode(edges, e.1);
      }
    } else {
      match FindSource(edges, remaining, 0)
      case None =>
      case Some(i) =>
        var n := remaining[i];
        var remaining' := RemoveAt(remaining, i);
        var placed' := placed + [n];
        NoDupsConcat(placed, remaining);
        RemoveAtNoDups(remaining, i);
        NoDupsConcat(placed, [n]);
        NoDupsConcat(placed', remaining');
        forall x ensures x in placed' + remaining' <==> x in placed + remaining {
        }
        forall e | e in edges && e.1 in placed' ensures Before(placed', e.0, e.1) {
          if e.1 in placed {
            BeforeAppend(placed, [n], e.0, e.1);
          } else {
            assert e.1 == n;
            assert e.0 !in remaining;
            assert IsNode(edges, e.0);
            BeforeAcross(placed, [n], e.0, e.1);
          }
        }
        KahnCorrect(edges, remaining', placed');
    }
  }

  /** Topologically sorts the nodes of `edges`, or returns a non-empty set of nodes none of which can go first. */
  function Sort(edges: seq<Edge>): (r: Result<seq<string>, seq<string>>)
    ensures r.Ok? ==> IsTopologicalOrder(edges, r.value)
    ensures r.Err? ==> |r.error| > 0 && Sourceless(edges, r.error)
  {
    var nodes := CollectNodes(edges, []);
    assert [] + nodes == nodes;
    KahnCorrect(edges, nodes, []);
    Kahn(edges, nodes, [])
  }

  /** Along a walk, positions in a topological order strictly increase. */
  lemma {:induction false} WalkAscends(edges: seq<Edge>, order: seq<string>, w: seq<string>, k: nat)
    requires IsTopologicalOrder(edges, order)
    requires |w| >= 2 && forall i :: 0 <= i < |w| - 1 ==> (w[i], w[i + 1]) in edges
    requires 1 <= k < |w|
    ensures w[0] in order && w[k] in order && IndexOf(order, w[0]) < IndexOf(order, w[k])
  {
    assert (w[k - 1], w[k]) in edges;
    BeforeIndex(order, w[k - 1], w[k]);
    if k > 1 {
      WalkAscends(edges, order, w, k - 1);
    }
  }

  /** A cyclic edge list has no topological order. */
  lemma CycleHasNoOrder(edges: seq<Edge>, order: seq<string>, w: seq<string>)
    requires IsCycle(edges, w)
    ensures !IsTopologicalOrder(edges, order)
  {
    if IsTopologicalOrder(edges, order) {
      WalkAscends(edges, order, w, |w| - 1);
    }
  }

  /** Walking edges backwards inside a sourceless node set never gets stuck. */
  lemma {:induction false} BackWalk(edges: seq<Edge>, nodes: seq<string>, s: string, n: nat) returns (w: seq<string>)
    requires Sourceless(edges, nodes) && s in nodes
    ensures |w| == n + 1 && w[n] == s
    ensures forall i :: 0 <= i < |w| ==> w[i] in nodes
    ensures forall i :: 0 <= i < |w| - 1 ==> (w[i], w[i + 1]) in edges
    decreases n
  {
    if n == 0 {
      w := [s];
    } else {
      assert HasIncoming(edges, nodes, s);
      var e :| e in edges && e.1 == s && e.0 in nodes;
      var w' := BackWalk(edges, nodes, e.0, n - 1);
      w := w' + [s];
      assert w[n - 1] == e.0;
    }
  }

  lemma SubsetCard(a: set<string>, b: set<string>)
    requires a <= b
    ensures |a| <= |b|
  {
    assert b == a + (b - a);
  }

  /** A non-empty sourceless node set contains a cycle (pigeonhole on a long backward walk). */
  lemma SourcelessHasCycle(edges: seq<Edge>, nodes: seq<string>)
    requires |nodes| > 0 && Sourceless(edges, nodes)
    ensures HasCycle(edges)
  {
    var S := set x | x in nodes;
    var w := BackWalk(edges, nodes, nodes[0], |S|);
    var W := set x | x in w;
    assert W <= S;
    SubsetCard(W, S);
    if NoDups(w) {
      NoDupsCard(w);
      assert false;
    }
    var i, j :| 0 <= i < j < |w| && w[i] == w[j];
    var c := w[i..j + 1];
    forall k | 0 <= k < |c| - 1 ensures (c[k], c[k + 1]) in edges {
      assert c[k] == w[i + k] && c[k + 1] == w[i + k + 1];
    }
    assert IsCycle(edges, c);
  }

  /** `Sort` rejects the edge list exactly when it contains a cycle. */
  lemma SortFailsIffCycle(edges: seq<Edge>)
    ensures Sort(edges).Err? <==> HasCycle(edges)
  {
    var r := Sort(edges);
    if r.Err? {
      SourcelessHasCycle(edges, r.error);
    } else if HasCycle(edges) {
      var w :| IsCycle(edges, w);
      CycleHasNoOrder(edges, r.value, w);
    }
  }
}

=== FILE: update.dfy ===
/**
 * Dependency updates across the application (packages/constellate/scripts/update.js): the package
 * client is chosen and checked, then its interactive update command runs at the application root and
 * in every project root, in order.
 */
module Update {
  import opened Results
  import opened Seqs
  import opened ProjectPaths
  import ProjectGraph

  datatype UpdateError = UnsupportedClient(client: string)

  /** One synchronous spawn: the client, its single argument, the directory, inherited stdio. */
  datatype Run = Run(command: string, args: seq<string>, cwd: Path, stdio: string)

  /** The application root: paths are relative to the working directory. */
  const AppRoot: Path := []

  /** `packageClient != null ? packageClient : 'npm'`: only a missing setting defaults (an empty one does not). */
  function Client(packageClient: Option<string>): (r: string)
    ensures packageClient.Some? ==> r == packageClient.value
    ensures packageClient.None? ==> r == "npm"
  {
    if packageClient.Some? then packageClient.value else "npm"
  }

  predicate Supported(client: string) {
    client == "npm" || client == "yarn"
  }

  /** The update command, passed to the client as one argument. */
  function SubCommand(client: string): (r: string)
    requires Supported(client)
    ensures client == "npm" ==> r == "npm-check -u"
    ensures client == "yarn" ==> r == "upgrade-interactive"
  {
    if client == "npm" then "npm-check -u" else "upgrade-interactive"
  }

  /** `update(projects)`: an unsupported client throws before anything runs. */
  function UpdateAll(packageClient: Option<string>, projects: seq<ProjectGraph.Project>): (r: Result<seq<Run>, UpdateError>)
    ensures r.Err? <==> !Supported(Client(packageClient))
    ensures r.Err? ==> r.error == UnsupportedClient(Client(packageClient))
    ensures r.Ok? ==> |r.value| == 1 + |projects|
    ensures r.Ok? ==> r.value[0].cwd == AppRoot
    ensures r.Ok? ==> forall k :: 0 <= k < |projects| ==> r.value[k + 1].cwd == projects[k].paths.root
    ensures r.Ok? ==> forall k :: 0 <= k < |r.value| ==>
      && r.value[k].command == Client(packageClient)
      && r.value[k].args == [SubCommand(Client(packageClient))]
      && r.value[k].stdio == "inherit"
  {
    var client := Client(packageClient);
    if !Supported(client) then Err(UnsupportedClient(client))
    else Ok(UpdateRuns(client, Roots(projects)))
  }

  /** The project roots, in order. */
  function Roots(projects: seq<ProjectGraph.Project>): (r: seq<Path>)
    ensures |r| == |projects|
    ensures forall k :: 0 <= k < |projects| ==> r[k] == projects[k].paths.root
  {
    seq(|projects|, k requires 0 <= k < |projects| => projects[k].paths.root)
  }

  /** `runUpdate` at the application root, then at each directory of `roots`. */
  function UpdateRuns(client: string, roots: seq<Path>): (r: seq<Run>)
    requires Supported(client)
    ensures |r| == 1 + |roots|
    ensures r[0].cwd == AppRoot
    ensures forall k :: 0 <= k < |roots| ==> r[k + 1].cwd == roots[k]
    ensures forall k :: 0 <= k < |r| ==>
      r[k].command == client && r[k].args == [SubCommand(client)] && r[k].stdio == "inherit"
  {
    seq(1 + |roots|, k requires 0 <= k < 1 + |roots| =>
      Run(client, [SubCommand(client)], if k == 0 then AppRoot else roots[k - 1], "inherit"))
  }

  /** The directories updated are the application root, then each project root in the given order. */
  lemma UpdateDirectories(packageClient: Option<string>, projects: seq<ProjectGraph.Project>)
    requires Supported(Client(packageClient))
    ensures var runs := UpdateAll(packageClient, projects).value;
      Map(runs, (run: Run) => run.cwd) == [AppRoot] + Roots(projects)
  {
    var client := Client(packageClient);
    assert UpdateAll(packageClient, projects).value == UpdateRuns(client, Roots(projects));
    RunDirectories(client, Roots(projects));
  }

  /** The runs visit the application root, then `roots` in order. */
  lemma RunDirectories(client: string, roots: seq<Path>)
    requires Supported(client)
    ensures Map(UpdateRuns(client, roots), (run: Run) => run.cwd) == [AppRoot] + roots
  {
    var cwds := Map(UpdateRuns(client, roots), (run: Run) => run.cwd);
    forall k | 0 <= k < |cwds| ensures cwds[k] == ([AppRoot] + roots)[k] {
      if k > 0 {
        assert UpdateRuns(client, roots)[(k - 1) + 1].cwd == roots[k - 1];
      }
    }
  }
}
